=== FILE: README.md ===
# nn2025 course code: a Dafny model of its data pipelines

The nn2025 repository holds browser and Node.js exercises around small
neural networks. This project models the code that prepares and checks
their data:

- the point-cloud toolkit of `midterm/`:
  - the shape generators (pyramid, box, cylinder) and centring;
  - the toy-dataset builder with its active-class registry;
  - the height draw, cropping, point-count normalisation;
  - one-hot encoding, shuffling and the train/validation split;
  - CSV import and export;
  - the confusion matrix and the training summary;
  - the page controller that holds the slider state and runs navigation, class toggles and the fill toggle;
- the Titanic visualiser (`src/titanic-viz.ts`):
  - its quote-aware CSV line splitter;
  - the passenger loader;
  - mean, median and histogram bins;
- the stock loader (`week4/data-loader.js`):
  - CSV parsing into a symbol/date table;
  - min–max normalisation with derived features;
  - sliding-window sequences with up/down targets and an 80/20 chronological split;
- the MNIST loader and app (`week3/`):
  - row filtering of the CSV;
  - the train/validation split;
  - the 10×10 confusion matrix and per-class accuracy;
  - resets.

One Dafny module per source file, plus `Common`, which holds the following:

- `Option`/`Result`;
- points;
- JavaScript's `trim` whitespace;
- `split`/`join` with a one-character separator;
- min/max.

Randomness is passed in as a stream `rand: nat -> real` of `Math.random()` draws. A cursor `k` says which draw comes next, and a method returns the cursor after its draws. The normal draws of `randn` are a second stream `gauss` with its own cursor. The cylinder's cosine/sine pair is a function `circle`. `Number`, `parseFloat` and `parseInt` are parameters of type `string -> Option<real>` (or `Option<int>`), where `None` stands for NaN. The stock loader instead gets `string -> real`, because it stores NaN values without ever checking for them.

Objects whose fields the source reassigns are classes, with one method per handler or method:

- the active-class registry;
- the page controller;
- the Titanic visualiser;
- the stock `DataLoader`;
- the MNIST loader and app.

Loops that push into arrays are methods with loop invariants. Each is proved equal to a recursive specification function, and the lemmas state the properties of that function.

## Model

| member | source | states |
|---|---|---|
| Common.RandomIndex | midterm/dataset.js:98 | `Math.floor(u*n)` for a draw u in [0,1) is an index below n, and it is the floor of u·n |
| Common.Lerp | midterm/dataset.js:18 | `lo + u*(hi-lo)` for u in [0,1] lies in [lo, hi] |
| Common.Trim | week4/data-loader.js:33 | `trim` removes exactly the leading and trailing whitespace; the result is empty iff the string is all whitespace, and otherwise it starts and ends with a non-space |
| Common.Split | week4/data-loader.js:34 | `split` with one separator gives one more piece than there are separators, and no piece holds the separator |
| Common.JoinSplit | midterm/csv.js:49 | joining the pieces of a split with the same separator gives the string back |
| Common.SplitJoin | midterm/csv.js:49 | splitting a join of separator-free parts gives the parts back |
| Shapes.Translate | midterm/shapes.js:26 | moving every point by the same vector keeps the number of points |
| Shapes.CenterOnly | midterm/shapes.js:21-27 | an empty cloud comes back unchanged; otherwise every point is moved by minus the centroid accumulated over the cloud, and the length is kept |
| Shapes.SumAxisTranslate | midterm/shapes.js:23-26 | translating by c lowers each axis sum by \|ps\| times c's coordinate |
| Shapes.SumAxisShift | midterm/shapes.js:23-26 | the same shift written as \|ps\| repeated subtractions, the step the induction proves |
| Shapes.TimesIsProduct | midterm/shapes.js:25 | n repeated additions of v equal n·v |
| Shapes.TranslatePrefix | midterm/shapes.js:26 | translating commutes with dropping the last point |
| Shapes.CenteredSumsToZero | midterm/shapes.js:23-26 | over the reals a centred non-empty cloud sums to zero on every axis |
| Shapes.MulDivCancel | midterm/shapes.js:25 | n·(a/n) == a for n > 0: dividing the sum by the count and multiplying back restores it |
| Shapes.PyramidHeightBounds | midterm/shapes.js:29-64 | every point on the pyramid's surface has 0 ≤ z ≤ height |
| Shapes.FacePoint | midterm/shapes.js:45-52 | a face point is the barycentric mix of apex and two adjacent corners, folded when u+v > 1, and it lies on the pyramid's surface |
| Shapes.FaceOnSurface | midterm/shapes.js:48-51 | for non-negative weights summing to 1, the mix of apex and adjacent corners lies on the surface |
| Shapes.FaceCoords | midterm/shapes.js:49-50 | mixing two adjacent corners with weights v and w puts (x, y) on the square's border scaled by v+w |
| Shapes.FaceHeight | midterm/shapes.js:51 | a point at height u·h whose (x, y) lies on the border scaled by 1-u is on the surface |
| Shapes.EdgePoint | midterm/shapes.js:54-60 | a base-edge point has z == 0 and lies on the pyramid's surface |
| Shapes.GeneratePyramid | midterm/shapes.js:29-64 | exactly pointsCount points, all on the pyramid's surface; each point consumes three or four draws |
| Shapes.RoundUnit | midterm/shapes.js:80-81 | `Math.round` of a value in [-1,1] stays in [-1,1] and keeps ±1 |
| Shapes.Signed | midterm/shapes.js:76-78 | `Math.random()*2-1` lies in [-1, 1) |
| Shapes.Height | midterm/shapes.js:77-78 | a height drawn from [zmin, zmax) with zmin = -h/2 and zmax = h/2 has \|z\| ≤ \|h\|/2 |
| Shapes.BoxPoint | midterm/shapes.js:74-84 | one box point, including after the snapping step, lies on the box's surface; it takes four to six draws |
| Shapes.GenerateBox | midterm/shapes.js:66-87 | exactly pointsCount points, all on the box's surface: x, y in [-1,1], \|z\| ≤ h/2, and on at least one face |
| Shapes.GenerateCylinder | midterm/shapes.js:89-106 | exactly pointsCount points, all in the height band, each (x, y) a value of the cosine/sine function; three draws per point |
| Shapes.AddNoiseJitter | midterm/shapes.js:13-19 | with zero noise every coordinate moves by at most \|jitter\| |
| Shapes.Jitter | midterm/shapes.js:15-17 | `(Math.random()*2-1)*jitter` has absolute value at most \|jitter\| |
| Shapes.Perturb | midterm/shapes.js:116 | the noise map keeps the number of points |
| Shapes.Dispatch | midterm/shapes.js:110-115 | "pyramid" selects the pyramid and "cylinder" the cylinder; every other name, including "box", "ellipsoid", "paraboloid" and "cone", selects the box |
| Shapes.GenerateShape | midterm/shapes.js:108-118 | the output has pointsCount points; the raw cloud lies on the selected shape; the output is the centred perturbed raw cloud |
| Shapes.GeneratedCloudCentered | midterm/shapes.js:117 | a generated cloud sums to zero on every axis |
| Dataset.Clamp | midterm/dataset.js:22 | `Math.max(lo, Math.min(hi, v))`: inside [lo, hi] when lo ≤ hi, v itself when inside, lo below, hi above |
| Dataset.RatioRange | midterm/dataset.js:14-17 | both bounds are clamped to [3,10] and ordered |
| Dataset.RandomHeightForRatio | midterm/dataset.js:13-20 | the height is twice a ratio in the clamped range, so it lies in [6, 20] |
| Dataset.EnsureSamePointCount | midterm/dataset.js:24-33 | exactly targetPoints points: origins for an empty cloud (no draws), cloud[floor(u·len)] per draw when the cloud is long enough, cloud[i mod len] otherwise |
| Dataset.NormalisedPointsFromInput | midterm/dataset.js:24-33 | for a non-empty cloud every output point is a point of the input |
| Dataset.FilterIn | midterm/dataset.js:54 | the filter keeps at most as many points as the cloud has, each inside the rectangle and taken from the cloud |
| Dataset.ClampShare | midterm/dataset.js:38-39 | `share ?? 0` clamped to [0, 0.9] |
| Dataset.CropSize | midterm/dataset.js:45-49 | the drawn share lies in [lo, hi], W lies in (0, 2], H in [0, 2], and W·H == 4s |
| Dataset.CropRect | midterm/dataset.js:45-53 | the rectangle of one try lies in [-1,1]² and its area is 4s for a share s in [lo, hi] |
| Dataset.CropCloudXY | midterm/dataset.js:37-59 | with a clamped maximum share ≤ 0 the cloud comes back unchanged with no draws; otherwise the result and the cursor are those of the first of the five attempts drawn from rand(k), …, rand(k+19) whose rectangle keeps a point, or the whole cloud after 20 draws when none does; any result other than the original cloud is a non-empty crop by a rectangle inside [-1,1]² of area 4s with s in [lo, hi] |
| Dataset.CropTriesLoop | midterm/dataset.js:43-58 | for ordered shares the attempts loop returns the first of the five attempts that keeps a point with the cursor after its draws, or the whole cloud after 20 draws; any result other than the cloud is a non-empty crop of the requested share |
| Dataset.CropTryCropped | midterm/dataset.js:45-56 | an attempt that keeps a point is the crop by a rectangle inside [-1,1]² whose area is 4s for a share s in [lo, hi] |
| Dataset.FirstCropCursor | midterm/dataset.js:43-58 | from attempt t on, the loop draws at least 4t numbers past the start cursor and at most 20 in all |
| Dataset.FirstCropIsFirstHit | midterm/dataset.js:44-58 | the crop loop returns the first attempt u that keeps a point, with the cursor after 4(u+1) draws, and the original cloud after all the draws when no attempt keeps one |
| Dataset.CropOutsideDomainKeepsCloud | midterm/dataset.js:54-58 | a cloud whose points all have x > 1, outside the crop domain, is returned whole |
| Dataset.FilterOutsideEmpty | midterm/dataset.js:54 | a rectangle inside the domain keeps none of the points outside the domain |
| Dataset.OneHotRows | midterm/dataset.js:91-92 | the buffer after writing some rows has \|labels\|·numClasses cells |
| Dataset.OneHot | midterm/dataset.js:89-94 | the finished buffer has \|labels\|·numClasses cells |
| Dataset.OneHotCell | midterm/dataset.js:89-94 | row i holds 1 at column labels[i] and 0 in every other column |
| Dataset.OneHotStep | midterm/dataset.js:92 | writing row i changes only the cell (i, labels[i]) |
| Dataset.LabelsToOneHot | midterm/dataset.js:89-94 | the Float32Array filled by the loop equals the one-hot buffer |
| Dataset.Swap | midterm/dataset.js:99-100 | a swap keeps the length |
| Dataset.SwapPermutes | midterm/dataset.js:99-100 | a swap is a permutation |
| Dataset.ShuffleFromStep | midterm/dataset.js:97-101 | one Fisher–Yates step swaps entry i with the drawn j ≤ i and continues at i-1 with the next draw |
| Dataset.ShuffleFromPermutes | midterm/dataset.js:96-102 | the remaining Fisher–Yates steps keep the length and the multiset of entries |
| Dataset.ShuffledPermutes | midterm/dataset.js:96-102 | the shuffle of an array is a permutation of it |
| Dataset.SwapInUnison | midterm/dataset.js:99-100 | distinct arrays get the same swap; one array passed twice is swapped back and is unchanged |
| Dataset.ShuffleStep | midterm/dataset.js:97-101 | one iteration of the loop advances both arrays by one Fisher–Yates step, or leaves an aliased array unchanged |
| Dataset.ShuffleInUnison | midterm/dataset.js:96-102 | two distinct arrays receive the same permutation; `shuffleInUnison(idx, idx)` leaves idx unchanged; a.Length-1 draws |
| Dataset.NumVal | midterm/dataset.js:107 | the requested validation size is at least 1 |
| Dataset.SplitTrainVal | midterm/dataset.js:104-115 | because the shuffle is aliased, validation is the first min(n, max(1, floor(n·valRatio))) samples and training the rest, both in input order |
| Dataset.PartitionBy | midterm/dataset.js:108-113 | with the index set {0..m-1}, the loop sends data[..m] to validation and data[m..] to training, labels alongside |
| Dataset.SplitPartitions | midterm/dataset.js:110-113 | the two parts concatenate back to the data and their sizes add up |
| Dataset.KnownOnly | midterm/dataset.js:122 | a name survives the filter iff it was selected and is one of the six known classes |
| Dataset.Dedup | midterm/dataset.js:122 | `Array.from(new Set(s))` has no duplicates, holds exactly the names of s, and lists them in the order of their first occurrences in s |
| Dataset.DedupOfDistinct | midterm/dataset.js:122 | de-duplicating a duplicate-free list gives it back in its order |
| Dataset.KnownOnlyOrder | midterm/dataset.js:122 | filtering to the known names keeps the order of first occurrences |
| Dataset.Selection | midterm/dataset.js:122 | the installed selection is duplicate-free, holds exactly the known selected names (none for an absent selection), and lists them in the order they were first selected |
| Dataset.DatasetModule.constructor | midterm/dataset.js:7 | the registry starts with pyramid, box and cylinder |
| Dataset.DatasetModule.SetActiveClasses | midterm/dataset.js:121-127 | an empty filtered selection leaves the active classes unchanged; otherwise they become the selection; the active list is returned |
| Dataset.DatasetModule.GetActiveClasses | midterm/dataset.js:128 | returns the active classes, which are never empty |
| Dataset.DatasetModule.CreateToyDataset | midterm/dataset.js:61-77 | data and labels both have samplesPerClass·\|active\| entries, labels[n] == n mod \|active\|, and every cloud has pointsPerCloud points; the ghost record gives each cloud a height in [6, 20] and pointsPerCloud shape points that all lie in the shape of class active[labels[n]] at that height |
| Dataset.ModStep | midterm/dataset.js:64-74 | the label pushed at position i·\|active\|+c is c |
| Csv.StripCR | midterm/csv.js:7 | drops exactly one trailing carriage return, if there is one |
| Csv.SplitLines | midterm/csv.js:7 | the trimmed text gives one line more than its line feeds, none holding a line feed |
| Csv.ParseLine | midterm/csv.js:11-12 | a line with fewer than two commas, that is fewer than three fields, gives no point |
| Csv.ThreeFieldLine | midterm/csv.js:11-13 | a line of exactly three comma-free fields a,b,c gives the point (Number(a.trim()), Number(b.trim()), Number(c.trim())) when all three parse as finite numbers, and no point otherwise |
| Csv.LinePoint | midterm/csv.js:10-14 | an empty line gives no point |
| Csv.Collect | midterm/csv.js:8-16 | there are at most as many points as lines |
| Csv.CollectAppend | midterm/csv.js:9-15 | the points of concatenated lines are the concatenated points |
| Csv.PointsOf | midterm/csv.js:8-16 | the importer finds at most one point per line |
| Csv.PointsOfStep | midterm/csv.js:9-15 | one more line adds that line's point, if any, at the end |
| Csv.ParseCSVTextToPointCloud | midterm/csv.js:6-17 | the loop returns exactly the points of the non-empty trimmed lines that parse, in line order |
| Csv.PointsOfAppend | midterm/csv.js:8-16 | points keep line order |
| Csv.PointsOfOneLine | midterm/csv.js:10-14 | a single line yields its point exactly when it is non-empty and parses |
| Csv.BlankTextNoPoints | midterm/csv.js:7-10 | whitespace-only text yields no points |
| Csv.SplitConcat | midterm/csv.js:11 | the comma fields of a + "," + b are the fields of a followed by those of b |
| Csv.AllFiniteAppend | midterm/csv.js:12 | every field of a concatenation parses iff every field of each part does |
| Csv.ExtraFieldsIgnored | midterm/csv.js:12-13 | appending fields to a line that gives a point keeps the point when the extra fields parse, and drops the line when one of them does not |
| Csv.SampleRows | midterm/csv.js:40-43 | one row per point of the sample |
| Csv.RowsBefore | midterm/csv.js:37-44 | the rows of the first i samples number their points |
| Csv.DataRows | midterm/csv.js:37-44 | one data row per point over all samples |
| Csv.DatasetToCSVRows | midterm/csv.js:34-46 | the header `sample_id,class,point_id,x,y,z` followed by the data rows, sample by sample and point by point |
| Csv.AppendSampleRows | midterm/csv.js:40-43 | the inner loop appends the rows of sample i in point order |
| Csv.SampleRowsSnoc | midterm/csv.js:41-42 | one more point appends its row |
| Csv.RowsBeforePrefix | midterm/csv.js:37-44 | the rows of an earlier prefix of samples are a prefix of the rows of a later one |
| Csv.DataRowAt | midterm/csv.js:38-42 | data row PointsBefore(i)+j is `i,classes[labels[i]],j,x,y,z` for point j of sample i |
| Csv.DataRowFields | midterm/csv.js:42 | a data row splits into its six fields when no value holds a comma |
| Csv.ContentLines | midterm/csv.js:49 | the downloaded text is the rows joined by line feeds plus a final line feed: splitting it gives the rows and one empty piece |
| Metrics.CountOf | midterm/metrics.js:8 | the count of a value is at most the length |
| Metrics.Histogram | midterm/metrics.js:8 | one count per value 0..n-1 |
| Metrics.SumNatBump | midterm/metrics.js:8 | incrementing one cell adds one to the sum |
| Metrics.HistogramSnoc | midterm/metrics.js:8 | one more value bumps its own count and no other |
| Metrics.HistogramSum | midterm/metrics.js:8 | with every value in range the counts add up to the number of values |
| Metrics.ZeroSum | midterm/metrics.js:7 | the counts of nothing add up to zero |
| Metrics.Confusion | midterm/metrics.js:6-10 | the matrix is numClasses × numClasses |
| Metrics.ConfusionEmpty | midterm/metrics.js:7 | before any pair is counted every cell is zero |
| Metrics.ConfusionStep | midterm/metrics.js:8 | counting position i adds one to cell [truth[i]][pred[i]] and changes no other cell; a missing or out-of-range prediction adds nothing |
| Metrics.ConfusionMatrix | midterm/metrics.js:6-10 | the loop succeeds iff every truth index is below numClasses (otherwise the update throws) and then returns the count matrix |
| Metrics.PredsForLength | midterm/metrics.js:8 | row t collects one prediction per sample of truth t |
| Metrics.PredsForInRange | midterm/metrics.js:8 | in-range predictions stay in range when collected per row |
| Metrics.RowSum | midterm/metrics.js:8 | with in-range predictions, row t sums to the number of samples whose truth is t |
| Metrics.TotalCount | midterm/metrics.js:8 | with in-range indices, all cells add up to the length of truth |
| Metrics.PredsForPrefix | midterm/metrics.js:8 | predictions beyond the length of truth are not collected |
| Metrics.ExtraPredictionsIgnored | midterm/metrics.js:8 | extra predictions beyond the length of truth do not change the matrix |
| Metrics.Last | midterm/metrics.js:99 | `last` is defined iff the array is present and non-empty, and then it is the final element |
| Metrics.LastOfSnoc | midterm/metrics.js:99 | the last element of s + [x] is x |
| Metrics.FinalMetrics | midterm/metrics.js:99-103 | each of the four summary values is present exactly when its series has an element, and is then the series' last element; accuracy comes from `acc` when it is recorded and from `accuracy` only when it is absent, and validation accuracy likewise from `val_acc`, else `val_accuracy` |
| Metrics.AccuracyFallback | midterm/metrics.js:101 | `accuracy` is read only when `acc` is absent, so an empty `acc` hides it |
| Metrics.ValAccuracyFallback | midterm/metrics.js:103 | `val_accuracy` is read only when `val_acc` is absent, so an empty `val_acc` hides it |
| PointCloudUi.ArgMax | midterm/script.js:168 | `row.indexOf(Math.max(...row))` is the first position holding the largest score |
| PointCloudUi.StepIndex | midterm/script.js:200-202 | `(index + direction + n) % n` is a position below n |
| PointCloudUi.StepForward | midterm/script.js:246 | Next moves one place on and wraps from the last sample to the first |
| PointCloudUi.StepBackward | midterm/script.js:245 | Prev moves one place back and wraps from the first sample to the last |
| PointCloudUi.StepRoundTrip | midterm/script.js:197-205 | Next then Prev, or Prev then Next, returns to the same sample |
| PointCloudUi.SliderHeights | midterm/script.js:45-46 | the sliders allow ratios in [1,6] but the generator raises them to at least 3, so heights lie in [6, 12], and a range at or below 3 always gives 6 |
| PointCloudUi.EvalSamplesPerClass | midterm/script.js:160 | `Math.max(60, Math.floor(samplesPerClass*0.6))`: at least 60, and the floor of the larger value |
| PointCloudUi.ValSize | midterm/script.js:113 | the validation size is at most n and at least 1 for a non-empty dataset |
| PointCloudUi.BuildTensors | midterm/script.js:109-119 | the train tensors are data[m..] and the validation tensors data[..m], each with its labels one-hot encoded |
| PointCloudUi.Controller.constructor | midterm/script.js:41-58 | ratios clamped to [1,6] and ordered, crop shares clamped to [0, 0.9] and ordered, the other settings as given, with no dataset, cache, tensors or model |
| PointCloudUi.Controller.OnNoiseInput | midterm/script.js:208 | the noise setting takes the slider value |
| PointCloudUi.Controller.OnJitterInput | midterm/script.js:209 | the jitter setting takes the slider value |
| PointCloudUi.Controller.OnPointsInput | midterm/script.js:210 | the points-per-cloud setting takes the slider value |
| PointCloudUi.Controller.OnSamplesInput | midterm/script.js:211 | the samples-per-class setting takes the slider value |
| PointCloudUi.Controller.OnRatioMinInput | midterm/script.js:212-217 | ratioMin becomes the value clamped to [1,6] and ratioMax is raised to it if needed, so 1 ≤ ratioMin ≤ ratioMax ≤ 6 still holds |
| PointCloudUi.Controller.OnRatioMaxInput | midterm/script.js:218-223 | ratioMax becomes the clamped value and ratioMin is lowered to it if needed; the ordering invariant is kept |
| PointCloudUi.Controller.OnCropMinInput | midterm/script.js:225-230 | cropShareMin becomes the value clamped to [0, 0.9] and cropShareMax is raised to it if needed; 0 ≤ min ≤ max ≤ 0.9 is kept |
| PointCloudUi.Controller.OnCropMaxInput | midterm/script.js:231-236 | cropShareMax becomes the clamped value and cropShareMin is lowered to it if needed; the invariant is kept |
| PointCloudUi.Controller.Step | midterm/script.js:197-205 | in evaluation view with a cache the evaluation position moves cyclically; otherwise the dataset position does when there is a dataset; otherwise nothing moves |
| PointCloudUi.Controller.CurrentView | midterm/script.js:177-195 | in evaluation view with a cached evaluation, the evaluated sample with the active class names of its true label and of its prediction; otherwise, with a dataset, the sample at the dataset position with its class name, or the viewer's TypeError when the position is past the end (the viewer maps over the missing cloud before the caption is set); with no dataset, nothing |
| PointCloudUi.Controller.HandleGenerate | midterm/script.js:98-102 | a fresh dataset of samplesPerClass·\|active\| labelled clouds of pointsPerCloud points, viewed from position 0 |
| PointCloudUi.Controller.HandleExport | midterm/script.js:104-107 | nothing without a dataset; otherwise the file text of the header and the data rows named by the active classes |
| PointCloudUi.Controller.HandleUpload | midterm/script.js:88-96 | the shown cloud has pointsPerCloud points, each taken from the parsed file or the origin, and it is all origins when the file gives no points |
| PointCloudUi.Controller.HandleTrain | midterm/script.js:109-127 | generates a dataset only when there is none, fits on the 0.2 split with one-hot labels, and keeps or builds a model of the current widths |
| PointCloudUi.Controller.HandleEvaluate | midterm/script.js:157-175 | nothing without a model; with a model built for another points setting the fresh set is drawn but evaluation rejects it and the cached evaluation and its position stay as they were; otherwise a fresh set of max(60, floor(0.6·samplesPerClass)) samples per class, arg-max predictions and their confusion matrix are cached, viewed from position 0 |
| PointCloudUi.Controller.OnClassToggle | midterm/script.js:283-296 | installs the selection unless it is empty; drops the model when the class count changed; clears the dataset and the cache and resets the position |
| PointCloudUi.Controller.OnFillToggle | midterm/script.js:244 | stores the flag and clears the dataset |
| PointCloudUi.StaleDatasetPosition | midterm/script.js:244 | the fill toggle clears the dataset without resetting the position, so after training regenerates a smaller dataset rendering the dataset view throws a TypeError |
| Titanic.Unquote | src/titanic-viz.ts:47 | the result holds no double quote |
| Titanic.ParseCSVLine | src/titanic-viz.ts:69-89 | one field more than there are commas outside quotes; no field holds a quote; joining the fields with commas gives the line without its quotes |
| Titanic.JoinExtendLast | src/titanic-viz.ts:83 | adding a character to the last field adds it to the end of the join |
| Titanic.ScanCounts | src/titanic-viz.ts:74-85 | the splitter tracks quote parity and ends one field per comma outside quotes |
| Titanic.ScanQuoteFree | src/titanic-viz.ts:77-84 | no field the splitter builds holds a quote |
| Titanic.ScanCommaFree | src/titanic-viz.ts:77-84 | in a line without quotes, no quote is ever open and no field holds a comma |
| Titanic.ScanJoin | src/titanic-viz.ts:74-88 | the fields joined by commas give the text read so far without its quotes |
| Titanic.RunAppend | src/titanic-viz.ts:74-85 | reading a + b is reading a, then b from where a left off |
| Titanic.RunInsideQuotes | src/titanic-viz.ts:79-84 | inside quotes, quote-free text goes into the current field, commas included |
| Titanic.QuotedSpanStaysInField | src/titanic-viz.ts:77-84 | a quoted span without inner quotes adds its text, commas included, to the current field and ends no field |
| Titanic.QuotedSpanFrom | src/titanic-viz.ts:77-84 | the same, from any state outside quotes |
| Titanic.RunOne | src/titanic-viz.ts:75-84 | reading one character is one step of the splitter |
| Titanic.NoQuotesIsSplit | src/titanic-viz.ts:69-89 | a line without quotes is split at every comma |
| Titanic.UnquoteNoQuotes | src/titanic-viz.ts:47 | removing quotes from quote-free text changes nothing |
| Titanic.MeasureOf | src/titanic-viz.ts:49 | an empty field becomes null, any other the parseFloat of the field |
| Titanic.ToPassenger | src/titanic-viz.ts:43-56 | the name is field 3 without quotes; Age and Fare are null iff their fields are empty; a missing Cabin or Embarked field becomes the empty string |
| Titanic.NameKeepsField | src/titanic-viz.ts:41-47 | after the splitter has removed the quotes, the name's quote removal changes nothing |
| Titanic.LoadRows | src/titanic-viz.ts:39-60 | at most one passenger per data line |
| Titanic.LoadLine | src/titanic-viz.ts:40-58 | one line pushes at most one passenger |
| Titanic.AdmittedLines | src/titanic-viz.ts:40-42 | the admitted lines are non-blank, have at least the header's field count and come from the file |
| Titanic.LoadIsFilterMap | src/titanic-viz.ts:39-60 | with a header of at least four columns loading never fails, and the passengers are those of the admitted lines in file order |
| Titanic.FailedLoadStops | src/titanic-viz.ts:31-66 | once the exception has ended loading, later lines change nothing |
| Titanic.LoadRowsStep | src/titanic-viz.ts:39-60 | one more line is one more step of the loop |
| Titanic.ReadRow | src/titanic-viz.ts:40-58 | the loop body for one line agrees with the specification step |
| Titanic.ReadRows | src/titanic-viz.ts:39-60 | the loop returns the passengers of the specification and whether an exception ended it |
| Titanic.TitanicVisualizer.constructor | src/titanic-viz.ts:26-28 | the object's passengers are those loadData reads from the file text |
| Titanic.TitanicVisualizer.LoadData | src/titanic-viz.ts:30-67 | the header's field count decides admission, and the passengers read are appended to the field |
| Titanic.Mean | src/titanic-viz.ts:700-702 | NaN for no values; otherwise the value times the count is the sum |
| Titanic.SumBetween | src/titanic-viz.ts:701 | values within [lo, hi] sum to between n·lo and n·hi |
| Titanic.MeanBetween | src/titanic-viz.ts:700-702 | the mean lies between any bounds of the values |
| Titanic.Insert | src/titanic-viz.ts:705 | insertion adds exactly one element to the multiset |
| Titanic.ConsSorted | src/titanic-viz.ts:705 | a head no greater than the first element keeps a sorted sequence sorted |
| Titanic.InsertSorted | src/titanic-viz.ts:705 | inserting into a sorted sequence keeps it sorted |
| Titanic.SortAscending | src/titanic-viz.ts:705 | the copy is sorted ascending and is a permutation of the values |
| Titanic.SortedHeadIsLeast | src/titanic-viz.ts:705-707 | the first element of a sorted sequence is its least |
| Titanic.SortedTail | src/titanic-viz.ts:705 | the tail of a sorted sequence is sorted and has one element less |
| Titanic.SortedHeadsEqual | src/titanic-viz.ts:705 | two sorted sequences with the same elements start with the same element |
| Titanic.SortedUnique | src/titanic-viz.ts:705 | two sorted sequences with the same elements are equal, so any correct sort gives the same copy |
| Titanic.Middle | src/titanic-viz.ts:706-707 | the middle is undefined exactly for an empty sequence |
| Titanic.Median | src/titanic-viz.ts:704-708 | NaN exactly for no values |
| Titanic.MedianOrderFree | src/titanic-viz.ts:705 | the median depends only on the multiset of the values, and the input is not reordered |
| Titanic.MedianOfSorted | src/titanic-viz.ts:706-707 | on sorted values: the middle element for an odd count, the average of the two middle ones for an even count |
| Titanic.MedianBetween | src/titanic-viz.ts:704-708 | the median lies between any bounds of the values |
| Titanic.CountIn | src/titanic-viz.ts:717 | a bin counts at most all the values |
| Titanic.CreateBins | src/titanic-viz.ts:710-722 | binCount bins, bin i spanning [min + i·size, min + (i+1)·size) and counting the values inside it |
| Titanic.BinEdges | src/titanic-viz.ts:711-716 | the edges run from min to max and never decrease |
| Titanic.MaxInNoBin | src/titanic-viz.ts:715-717 | a value equal to max falls in no bin |
| Titanic.ScaledBelow | src/titanic-viz.ts:716 | scaling a strict bound by a positive bin size keeps it strict |
| Titanic.SlotOf | src/titanic-viz.ts:715-716 | a non-negative offset lies in the slot numbered by the whole part of offset / size |
| Titanic.BinOf | src/titanic-viz.ts:715-717 | a value in [min, max) falls in some bin |
| Titanic.NotInOtherBin | src/titanic-viz.ts:715-717 | bins do not overlap |
| Titanic.ExactlyOneBin | src/titanic-viz.ts:710-722 | every value in [min, max) falls in exactly one bin |
| Stocks.CodeLessIrreflexive | week4/data-loader.js:66-67 | the default sort order never puts a string before itself |
| Stocks.CodeLessTransitive | week4/data-loader.js:66-67 | the sort order is transitive |
| Stocks.CodeLessTotal | week4/data-loader.js:66-67 | two distinct strings are ordered one way or the other |
| Stocks.InsertDistinct | week4/data-loader.js:66-67 | inserting into the sorted list adds exactly that string |
| Stocks.InsertDistinctSorted | week4/data-loader.js:66-67 | `Array.from(set).sort()` is strictly sorted, hence duplicate-free |
| Stocks.LastColumn | week4/data-loader.js:46-48 | a key's column is one whose trimmed header is that key |
| Stocks.LastColumnMissing | week4/data-loader.js:46-51 | a key has no column iff no trimmed header equals it |
| Stocks.LastColumnWins | week4/data-loader.js:46-48 | with repeated headers, the last column of that name sets the key |
| Stocks.Keys | week4/data-loader.js:47 | one trimmed key per header |
| Stocks.RowOf | week4/data-loader.js:42-63 | a line gives a row iff its field count equals the header's |
| Stocks.RowsUpTo | week4/data-loader.js:41-64 | the first line is the header and gives no row |
| Stocks.TableSymbols | week4/data-loader.js:56 | a symbol has an entry in the table iff some row carries it |
| Stocks.TableEntries | week4/data-loader.js:56-63 | a (symbol, date) entry exists iff some row carries that pair |
| Stocks.LaterRowWins | week4/data-loader.js:57-63 | the entry for a pair holds the quote of the last row carrying that pair |
| Stocks.SymbolsOfRows | week4/data-loader.js:53 | the symbol set holds exactly the symbols of the rows |
| Stocks.DatesOfRows | week4/data-loader.js:54 | the date set holds exactly the dates of the rows |
| Stocks.RowsUpToStep | week4/data-loader.js:41-64 | one more line adds its row, if it is admitted |
| Stocks.RowsSnoc | week4/data-loader.js:53-63 | one more row updates the table, the symbols and the dates by that row |
| Stocks.ReadQuotes | week4/data-loader.js:41-64 | the parse loop builds the table and the symbol and date sets of the admitted rows |
| Stocks.SymbolsAreKeys | week4/data-loader.js:53-56 | the symbols are exactly the table's keys |
| Stocks.ExtremesBound | week4/data-loader.js:86-94 | the running min and max bound every dated price seen |
| Stocks.ExtremesEmpty | week4/data-loader.js:81-94 | the extremes stay at ±Infinity iff no date has a quote |
| Stocks.ScanRanges | week4/data-loader.js:80-95 | the min–max loop of one symbol computes the open and close ranges |
| Stocks.ScaleInUnit | week4/data-loader.js:103-106 | a scaled price is defined iff max > min, and it then lies in [0, 1] |
| Stocks.Denom | week4/data-loader.js:107 | the divisor \|Open\|, or 1 when Open is 0, is positive |
| Stocks.BaseBucketReturns | week4/data-loader.js:107-109 | RetOC and Range are divided by \|Open\|, or by 1 when Open is 0 |
| Stocks.BucketsUpTo | week4/data-loader.js:98-119 | a bucket exists exactly for the scanned dates that have a quote, and it is built from that quote and the ranges |
| Stocks.ScanBuckets | week4/data-loader.js:100-118 | the bucket loop of one symbol builds those buckets |
| Stocks.PrevVolumes | week4/data-loader.js:146-153 | at most k, and at most i, previous volumes are counted |
| Stocks.ScanVolumes | week4/data-loader.js:144-154 | the volume loop computes the mean of the available previous volumes, or 1 |
| Stocks.DerivedHistory | week4/data-loader.js:134-155 | Ret1 is 0 on the first date, Mom3 is 0 before the fourth, and VolRatio3 is the volume itself with no previous volume |
| Stocks.DerivedUpTo | week4/data-loader.js:122-162 | the derived pass adds no bucket and removes none |
| Stocks.DerivedAtDate | week4/data-loader.js:123-161 | a scanned date with a bucket gets the derived features of its index |
| Stocks.DerivedUntouched | week4/data-loader.js:127 | a date without a bucket is skipped |
| Stocks.ScanDerived | week4/data-loader.js:123-161 | the derived loop of one symbol computes those features |
| Stocks.NormalizedInUnit | week4/data-loader.js:98-119 | a dated bucket exists iff the quote does; its Open and Close lie in [0, 1] when the range is not flat |
| Stocks.DerivedFields | week4/data-loader.js:157-160 | the derived pass keeps Open, Close, RetOC and Range |
| Stocks.MinMaxPass | week4/data-loader.js:80-95 | one range per symbol, computed over the dates |
| Stocks.BucketPass | week4/data-loader.js:98-119 | one bucket map per symbol |
| Stocks.DerivedPass | week4/data-loader.js:122-162 | each symbol's buckets gain their derived features |
| Stocks.NormalizeTable | week4/data-loader.js:76-166 | the three passes compute the normalised table |
| Stocks.Features4 | week4/data-loader.js:191-196 | four values are pushed per symbol |
| Stocks.StepShape | week4/data-loader.js:186-200 | a time step fails iff a symbol has no normalised entry; it is complete iff every symbol has the date, and then holds Open, Close, RetOC, Range for each symbol in order |
| Stocks.WindowShape | week4/data-loader.js:184-203 | a complete window has seqLen steps dated dates[i-seqLen+1..i] in order, each of 4·\|symbols\| values |
| Stocks.BasesUpTo | week4/data-loader.js:211-213 | the base closes are those at dates[i], and reading them fails iff a symbol has no quote there |
| Stocks.BitsUpTo | week4/data-loader.js:218-225 | a bit is 1 iff the future close exceeds the base close; the offset is complete iff every symbol has the future date |
| Stocks.TargetBitAppend | week4/data-loader.js:216-226 | the bits of offset o for symbol k sit at (o-1)·\|symbols\|+k |
| Stocks.TargetBits | week4/data-loader.js:216-226 | a complete target lays out horizon·\|symbols\| bits, offset by offset |
| Stocks.RisesOverBases | week4/data-loader.js:206-226 | each target bit says whether that symbol's close at dates[i+o] exceeds its close at dates[i] |
| Stocks.KeptSample | week4/data-loader.js:178-233 | a kept sample is dated dates[i], has the window of seqLen steps and a target of horizon·\|symbols\| rise bits |
| Stocks.LastIndex | week4/data-loader.js:178 | the scan stops at \|dates\| - horizon, or does not run when that is below seqLen |
| Stocks.BuildStep | week4/data-loader.js:186-200 | the step loop agrees with the step specification |
| Stocks.BuildWindow | week4/data-loader.js:184-203 | the window loop agrees with the window specification |
| Stocks.BuildBases | week4/data-loader.js:211-213 | the base-close loop agrees with its specification |
| Stocks.BuildBits | week4/data-loader.js:218-225 | the per-offset loop agrees with its specification |
| Stocks.BuildTarget | week4/data-loader.js:216-226 | the offset loop agrees with the target specification |
| Stocks.BuildSample | week4/data-loader.js:179-233 | one iteration agrees with the sample specification |
| Stocks.BuildSamples | week4/data-loader.js:178-234 | the outer loop collects the specified samples, or fails with a TypeError on a missing entry |
| Stocks.SamplesPrecede | week4/data-loader.js:178-234 | every sample collected so far is dated before any later date |
| Stocks.SamplesChronological | week4/data-loader.js:178-234 | the sample dates are strictly increasing |
| Stocks.SplitIndex | week4/data-loader.js:237 | `Math.floor(n*0.8)`: 5k ≤ 4n < 5k+5 |
| Stocks.SplitPartition | week4/data-loader.js:237-256 | train holds the first SplitIndex(n) samples and test the rest, targets alongside, testDates aligned with the test samples |
| Stocks.TrainBeforeTest | week4/data-loader.js:237-243 | every training sample is dated before every test sample |
| Stocks.BuildSequences | week4/data-loader.js:172-243 | the sample loop and the split compute the sequence set |
| Stocks.DataLoader.constructor | week4/data-loader.js:2-13 | no data, no tensors, featuresPerSymbol 2 |
| Stocks.DataLoader.ParseCSV | week4/data-loader.js:32-71 | the table, sorted symbols and sorted dates of the admitted rows of the trimmed text; the normalised data is left as it was |
| Stocks.DataLoader.NormalizeData | week4/data-loader.js:73-167 | throws "No data loaded" without data; otherwise stores and returns the normalised table and sets featuresPerSymbol to 7 |
| Stocks.DataLoader.EnsureNormalized | week4/data-loader.js:170 | normalises only when there is no normalised data yet |
| Stocks.DataLoader.CreateSequences | week4/data-loader.js:169-257 | after normalising if needed, returns and stores the chronological split of the kept samples, or the error, leaving the fields unchanged on error |
| MnistLoader.NonBlankLines | week3/data-loader.js:15 | whitespace-only lines are dropped and the rest kept in order |
| MnistLoader.Values | week3/data-loader.js:21 | one number per comma field |
| MnistLoader.KeptRows | week3/data-loader.js:20-26 | the kept rows all have 785 fields |
| MnistLoader.CollectRows | week3/data-loader.js:17-26 | label i is field 0 and pixels i are fields 1..784 of kept row i |
| MnistLoader.LoadCSVFile | week3/data-loader.js:8-54 | rejects with "No valid data found in file" iff no row is kept; otherwise the labels, 784-pixel rows and a count equal to the number of kept rows |
| MnistLoader.BlankLineDropped | week3/data-loader.js:15 | a whitespace-only line never reaches the field check |
| MnistLoader.KeptRowsAppend | week3/data-loader.js:20-26 | rows are kept in line order |
| MnistLoader.KeptRowsOne | week3/data-loader.js:22 | a line is kept exactly when it has 785 fields |
| MnistLoader.NumVal | week3/data-loader.js:72 | numVal is the floor of n·valRatio |
| MnistLoader.SplitTrainVal | week3/data-loader.js:70-83 | train is the first n - numVal rows and validation the last numVal, contiguous and unshuffled |
| MnistLoader.SplitKeepsPairs | week3/data-loader.js:75-79 | an image and its label stay on the same side of the split at the same position |
| MnistLoader.MnistDataLoader.constructor | week3/data-loader.js:2-5 | no train or test data |
| MnistLoader.MnistDataLoader.LoadTrainFromFiles | week3/data-loader.js:56-59 | a successful load replaces the training data; a failed one leaves it |
| MnistLoader.MnistDataLoader.LoadTestFromFiles | week3/data-loader.js:61-67 | a successful load replaces the test data; a failed one leaves it |
| MnistLoader.MnistDataLoader.Dispose | week3/data-loader.js:157-169 | both train and test data end up null |
| MnistApp.App.constructor | week3/app.js:2-10 | a fresh loader, no model, not training, no data |
| MnistApp.App.OnReset | week3/app.js:197-211 | model, train data and test data become null, and the loader is disposed |
| MnistApp.App.CreateConfusionMatrix | week3/app.js:267-280 | succeeds iff every prediction has an in-range true label, and then returns the 10×10 counts over the predictions |
| MnistApp.App.CalculatePerClassAccuracy | week3/app.js:282-288 | one value per row, each in [0, 1], and 0 for an empty row |
| MnistApp.ConfusionPrefixStep | week3/app.js:273-277 | one more prediction bumps exactly its cell |
| MnistApp.CellAtMostSum | week3/app.js:284-286 | a cell is at most its row sum |
| MnistApp.ClassAccuracy | week3/app.js:284-286 | correct / total, or 0 when total is 0, and in [0, 1] |
| MnistApp.PerClassIsRecall | week3/app.js:282-288 | on a confusion matrix, class t's value is the share of the samples of true class t that were predicted as t |
| MnistApp.ConfusionTotal | week3/app.js:271-277 | with every label present and in range, the cells add up to the number of predictions |

## Left out

- Floating point: all coordinates, prices and statistics are exact reals. NaN is modelled as `None` where a parser returns it (`Number`, `parseFloat`, `parseInt`) and where 0/0 arises (an empty `mean`/`median`, a constant min–max range in `Stocks.Scale`). Elsewhere rounding, NaN and ±Infinity are not modelled.
- `Math.floor(n*0.8)` is taken as the integer `(4n)/5`. The two agree on the integers, because 0.8·n is within one rounding step of 4n/5 and never crosses an integer.
- Random draws are free parameters. `randn` (`midterm/shapes.js:6-11`) is the opaque stream `gauss`, and its own `Math.random()` calls are not threaded through `rand`.
- The cylinder's `Math.cos`/`Math.sin` come from a parameter `circle`, so the model does not state that the points lie on the unit circle.
- `Shapes.AddNoiseJitter` bounds only the noise-free case, because the normal draws are unbounded.
- I/O is not modelled:
  - `FileReader`;
  - `fs.readFileSync` (the model takes the file text as a parameter);
  - Blob downloads (the model stops at the file text);
  - `console.log`/`console.error`;
  - the `loadCSV` fetch of the stock loader;
  - `processCSVFile`.
- TensorFlow.js is not modelled:
  - `cloudsToTensor`, `tf.tensor`, `tf.oneHot` and `tf.tensor3d`/`tensor2d` (tensors are kept as the nested sequences they are built from);
  - the rejection of ragged or empty arrays by `tf.tensor3d`;
  - the pixel division by 255;
  - the noisy test copy of `loadTestFromFiles`;
  - model building, `fit`, `evaluate` and `predict`;
  - the stock loader's `dispose`.
- Page output is not modelled:
  - rendering (`renderEvaluation`, `renderTrainingChart`, the HTML of the training summary);
  - `viewer.js` and `model.js`;
  - the SVG/HTML chart code of the Titanic visualiser.
- `PointCloudUi.Controller.HandleEvaluate`: the predictions come from a score function, so the model's loss and accuracy are not computed. The rejection of a fresh set whose points width differs from the model's input shape is modelled as a comparison of the two widths; the rejected promise is not modelled, and neither is the tensor disposal it skips.
- `PointCloudUi.Controller.HandleTrain`: the asynchronous training itself is not modelled.
- `PointCloudUi.Controller.HandleUpload`: `U.normalizeCloud` is never defined among these files, so the uploaded cloud goes straight to the point-count normaliser.
- The duplicate `ensureSamePointCount` in `midterm/script.js:76-86` is token-for-token the one in `midterm/dataset.js:24-33` and is modelled once.
- The `fill` flag is stored and passed on, but `generateShape` ignores it, as the source does.
- `Dataset.DatasetModule.SetActiveClasses`: the model keeps one list for `ACTIVE_CLASSES` and `NS.CLASSES`, because they always hold the same array. `GetActiveClasses` returns the list's value, which stands for the copy.
- Dataset.LabelsToOneHot requires every label to be below numClasses. In the source a larger label writes its 1 into a later row's cell while the index stays below n·numClasses, and only a write past the end of the typed array is dropped. Every caller passes labels of the active classes, which are below numClasses.
- Metrics.ConfusionMatrix skips a prediction at or above numClasses and a missing prediction, keeping the matrix square. In the source a numeric prediction p ≥ numClasses stores NaN at index p of its row, lengthening the row, and `renderEvaluation` then shows the extra cells. A missing prediction writes a property named "undefined", which is not shown. The page's predictions are arg-max indices over numClasses scores, so neither case arises there.
- MnistApp.App.CreateConfusionMatrix skips a prediction of 10 or more. In the source it stores NaN at that index of the row, lengthening it; `calculatePerClassAccuracy` then sums the row to NaN and reports 0 for that class. Predictions come from an arg-max over ten scores, and nothing in the app calls this method.
- `Stocks`: a missing Symbol or Date column gives `undefined` in the source, which `sort` places last. The model stores the string "undefined" and sorts it with the others.
- Strings are compared by Dafny `char` order, which stands for the UTF-16 code-unit order of `Array.prototype.sort`.
- `Stocks`: `parseFloat` is a parameter `string -> real`. NaN prices are not distinguished.
- `Stocks.DataLoader.CreateSequences` keeps the value 7 of `featuresPerSymbol` that `normalizeData` sets, although every time step holds 4 values per symbol (`Stocks.KeptSample`). This mismatch in the source is recorded, not corrected.
- `week3/app.js`: `calculateAccuracy`, the training and evaluation handlers, and the denoiser are TensorFlow.js calls and are not modelled.
- `week3/data-loader.js`: `getRandomTestBatch`, `getRandomTestDenoiseBatch`, `addGaussianNoise` and `draw28x28ToCanvas` are not modelled, for the same reason.
- The Python scripts (`survival_factor_analysis.py`, `week3/mnist_denoise.py`) are not part of this model.
- No export-then-import round trip is stated. Exported rows start with the sample id, class name and point id, so the importer rejects them.

=== FILE: common.dfy ===
/**
 * Shared vocabulary of the model: optional and failing results, 3D points,
 * the random-draw oracle that stands for Math.random, and the JavaScript
 * string primitives the parsers rely on (String.prototype.trim, split and
 * Array.prototype.join on a single-character separator).
 */
module Common {

  datatype Option<T> = None | Some(value: T)

  /** A thrown JavaScript Error (or a rejected promise) carries its message. */
  datatype Result<T> = Ok(value: T) | Err(message: string)

  /** A point of a cloud: the JavaScript triple [x, y, z], over the reals. */
  datatype Point = Point(x: real, y: real, z: real)

  function Min(a: real, b: real): real { if a <= b then a else b }
  function Max(a: real, b: real): real { if a >= b then a else b }
  function Abs(a: real): real { if a < 0.0 then -a else a }

  /** Sum of a sequence of reals, left to right as Array.prototype.reduce does. */
  function Sum(s: seq<real>): real
  {
    if s == [] then 0.0 else Sum(s[..|s| - 1]) + s[|s| - 1]
  }

  // ---------------------------------------------------------------------
  // Randomness. Math.random() is an oracle: the i-th call returns rand(i),
  // a number in [0, 1). Every consumer takes the stream and a cursor and
  // returns the cursor after the draws it made.
  // ---------------------------------------------------------------------

  ghost predicate IsUniform(rand: nat -> real)
  {
    forall i: nat :: 0.0 <= rand(i) < 1.0
  }

  /** Math.floor(u * n), the source's way of picking an index in [0, n). */
  function RandomIndex(u: real, n: nat): (r: nat)
    requires 0.0 <= u < 1.0 && n > 0
    ensures r < n
    ensures r as real <= u * n as real < r as real + 1.0
  {
    var p := u * n as real;
    ProductBelow(u, n as real);
    var k := p.Floor;
    assert 0 <= k && k as real <= p < n as real;
    k
  }

  lemma ProductBelow(u: real, n: real)
    requires 0.0 <= u < 1.0 && n > 0.0
    ensures 0.0 <= u * n < n
  {
    assert n - u * n == (1.0 - u) * n;
  }

  lemma AbsMul(a: real, b: real)
    ensures Abs(a * b) == Abs(a) * Abs(b)
  {
    if a < 0.0 && b >= 0.0 {
      assert a * b == -((-a) * b);
    } else if a >= 0.0 && b < 0.0 {
      assert a * b == -(a * (-b));
    } else if a < 0.0 && b < 0.0 {
      assert a * b == (-a) * (-b);
    }
  }

  lemma MulMonotone(a: real, b: real, c: real)
    requires a <= b && c >= 0.0
    ensures a * c <= b * c
  {
    assert b * c - a * c == (b - a) * c;
  }

  lemma MulStrict(a: real, b: real, c: real)
    requires a < b && c > 0.0
    ensures a * c < b * c
  {
    assert b * c - a * c == (b - a) * c;
  }

  /** A fraction u in [0, 1] of a non-negative w lies in [0, w]. */
  lemma FractionOf(u: real, w: real)
    requires 0.0 <= u <= 1.0 && w >= 0.0
    ensures 0.0 <= u * w <= w
  {
    MulMonotone(0.0, u, w);
    MulMonotone(u, 1.0, w);
  }

  /** lo + u * (hi - lo): the source's way of drawing a value from [lo, hi). */
  function Lerp(lo: real, hi: real, u: real): (r: real)
    requires lo <= hi && 0.0 <= u <= 1.0
    ensures lo <= r <= hi
  {
    var w := hi - lo;
    FractionOf(u, w);
    var d := u * w;
    assert 0.0 <= d <= w;
    lo + d
  }

  lemma DivAtMost(a: real, b: real, c: real)
    requires b > 0.0 && a <= c * b
    ensures a / b <= c
  {
    var q := a / b;
    assert q * b == a;
    if q > c {
      MulStrict(c, q, b);
      assert false;
    }
  }

  lemma MulAtLeast(d: int, a: int)
    requires d >= 1 && a > 0
    ensures d * a >= a
  {
    assert d * a - a == (d - 1) * a;
  }

  /** Euclidean division is unique: x == q * a + r with 0 <= r < a fixes x / a and x % a. */
  lemma DivModUnique(x: int, a: int, q: int, r: int)
    requires a > 0 && 0 <= r < a && x == q * a + r
    ensures x / a == q && x % a == r
  {
    var q', r' := x / a, x % a;
    assert x == q' * a + r' && 0 <= r' < a;
    assert (q - q') * a == r' - r;
    if q > q' {
      MulAtLeast(q - q', a);
      assert false;
    } else if q < q' {
      MulAtLeast(q' - q, a);
      assert false;
    }
  }

  // ---------------------------------------------------------------------
  // Strings.
  // ---------------------------------------------------------------------

  /** The characters String.prototype.trim removes: WhiteSpace and LineTerminator. */
  predicate IsSpace(c: char)
  {
    || c == ' ' || c == '\t' || c == '\n' || c == '\r'
    || c == '\U{000B}' || c == '\U{000C}' || c == '\U{00A0}' || c == '\U{1680}'
    || ('\U{2000}' <= c <= '\U{200A}')
    || c == '\U{2028}' || c == '\U{2029}' || c == '\U{202F}' || c == '\U{205F}'
    || c == '\U{3000}' || c == '\U{FEFF}'
  }

  predicate IsBlank(s: string)
  {
    forall i :: 0 <= i < |s| ==> IsSpace(s[i])
  }

  /** The number of leading whitespace characters. */
  function LeadingSpaces(s: string): (n: nat)
    ensures n <= |s|
    ensures forall i :: 0 <= i < n ==> IsSpace(s[i])
    ensures n == |s| || !IsSpace(s[n])
  {
    if |s| > 0 && IsSpace(s[0]) then 1 + LeadingSpaces(s[1..]) else 0
  }

  /** The end of s once trailing whitespace at or after lo is dropped. */
  function TrailingStart(s: string, lo: nat): (n: nat)
    requires lo <= |s|
    ensures lo <= n <= |s|
    ensures forall i :: n <= i < |s| ==> IsSpace(s[i])
    ensures n == lo || !IsSpace(s[n - 1])
    decreases |s|
  {
    if |s| > lo && IsSpace(s[|s| - 1]) then TrailingStart(s[..|s| - 1], lo) else |s|
  }

  /**
   * String.prototype.trim: the slice between the leading and the trailing
   * whitespace; it is empty exactly when s is all whitespace.
   */
  function Trim(s: string): (r: string)
    ensures r == s[LeadingSpaces(s)..TrailingStart(s, LeadingSpaces(s))]
    ensures IsBlank(s[..LeadingSpaces(s)]) && IsBlank(s[TrailingStart(s, LeadingSpaces(s))..])
    ensures r == [] || (!IsSpace(r[0]) && !IsSpace(r[|r| - 1]))
    ensures r == [] <==> IsBlank(s)
  {
    var a := LeadingSpaces(s);
    var b := TrailingStart(s, a);
    if a == b then
      assert IsBlank(s) by {
        forall i | 0 <= i < |s| ensures IsSpace(s[i]) {
          if i >= a { assert b <= i; }
        }
      }
      []
    else
      assert !IsSpace(s[a]);
      s[a..b]
  }

  function Count(s: string, c: char): nat
  {
    if s == [] then 0 else (if s[0] == c then 1 else 0) + Count(s[1..], c)
  }

  /** String.prototype.split with a one-character separator. */
  function Split(s: string, sep: char): (r: seq<string>)
    ensures |r| == 1 + Count(s, sep)
    ensures forall i :: 0 <= i < |r| ==> sep !in r[i]
  {
    if s == [] then [""]
    else
      var rest := Split(s[1..], sep);
      if s[0] == sep then [""] + rest else [[s[0]] + rest[0]] + rest[1..]
  }

  /** Array.prototype.join with a one-character separator. */
  function Join(parts: seq<string>, sep: char): string
  {
    if parts == [] then ""
    else if |parts| == 1 then parts[0]
    else parts[0] + [sep] + Join(parts[1..], sep)
  }

  lemma {:induction false} JoinSplit(s: string, sep: char)
    ensures Join(Split(s, sep), sep) == s
  {
    if s != [] {
      var rest := Split(s[1..], sep);
      JoinSplit(s[1..], sep);
      if s[0] == sep {
        assert Split(s, sep) == [""] + rest;
        assert Join([""] + rest, sep) == "" + [sep] + Join(rest, sep);
      } else if |rest| == 1 {
        assert Split(s, sep) == [[s[0]] + rest[0]];
      } else {
        var r := Split(s, sep);
        assert r == [[s[0]] + rest[0]] + rest[1..];
        assert Join(rest, sep) == rest[0] + [sep] + Join(rest[1..], sep);
        assert Join(r, sep) == r[0] + [sep] + Join(r[1..], sep);
        assert r[1..] == rest[1..];
      }
    }
  }

  lemma {:induction false} SplitNoSep(a: string, sep: char)
    requires sep !in a
    ensures Split(a, sep) == [a]
  {
    if a != [] {
      SplitNoSep(a[1..], sep);
      assert [a[0]] + a[1..] == a;
    }
  }

  lemma {:induction false} SplitAppend(a: string, sep: char, b: string)
    requires sep !in a
    ensures Split(a + [sep] + b, sep) == [a] + Split(b, sep)
  {
    var s := a + [sep] + b;
    if a == [] {
      assert s[1..] == b;
    } else {
      assert s[1..] == a[1..] + [sep] + b;
      SplitAppend(a[1..], sep, b);
      assert [a[0]] + a[1..] == a;
    }
  }

  /** Three separator-free fields joined by the separator split back into the three fields. */
  lemma SplitThree(a: string, b: string, c: string, sep: char)
    requires sep !in a && sep !in b && sep !in c
    ensures Split(a + [sep] + b + [sep] + c, sep) == [a, b, c]
  {
    var bc := b + [sep] + c;
    assert a + [sep] + b + [sep] + c == a + [sep] + bc;
    SplitNoSep(c, sep);
    SplitAppend(b, sep, c);
    SplitAppend(a, sep, bc);
  }

  /** Splitting a join of separator-free parts gives the parts back. */
  lemma {:induction false} SplitJoin(parts: seq<string>, sep: char)
    requires |parts| >= 1
    requires forall i :: 0 <= i < |parts| ==> sep !in parts[i]
    ensures Split(Join(parts, sep), sep) == parts
  {
    if |parts| == 1 {
      SplitNoSep(parts[0], sep);
    } else {
      SplitJoin(parts[1..], sep);
      SplitAppend(parts[0], sep, Join(parts[1..], sep));
      assert [parts[0]] + parts[1..] == parts;
    }
  }

  /** Joining one more part adds the separator and the part. */
  lemma {:induction false} JoinSnoc(parts: seq<string>, last: string, sep: char)
    requires |parts| >= 1
    ensures Join(parts + [last], sep) == Join(parts, sep) + [sep] + last
    decreases |parts|
  {
    if |parts| == 1 {
      assert parts + [last] == [parts[0], last];
    } else {
      JoinSnoc(parts[1..], last, sep);
      assert (parts + [last])[1..] == parts[1..] + [last];
    }
  }
}

=== FILE: csv.dfy ===
/**
 * CSV import and export of point clouds: the line filter and point
 * extraction of the importer, the row layout of the exporter and the text
 * content of the downloaded file. Number() is the oracle `num` (None for a
 * result that is not finite); number-to-string formatting is the oracle
 * `fmtNat` / `fmtReal`.
 */
module Csv {
  import opened Common

  type Cloud = seq<Point>

  // ---------------------------------------------------------------------
  // parseCSVTextToPointCloud
  // ---------------------------------------------------------------------

  /** Drops one trailing carriage return. */
  function StripCR(s: string): (r: string)
    ensures s == r || s == r + ['\r']
    ensures r == s <==> |s| == 0 || s[|s| - 1] != '\r'
  {
    if |s| > 0 && s[|s| - 1] == '\r' then s[..|s| - 1] else s
  }

  /**
   * text.trim().split(/\r?\n/): the trimmed text split at every line feed,
   * each piece but the last losing the carriage return before its line feed.
   */
  function SplitLines(text: string): (lines: seq<string>)
    ensures |lines| == 1 + Count(Trim(text), '\n')
    ensures forall i :: 0 <= i < |lines| ==> '\n' !in lines[i]
  {
    var pieces := Split(Trim(text), '\n');
    seq(|pieces|, i requires 0 <= i < |pieces| => if i < |pieces| - 1 then StripCR(pieces[i]) else pieces[i])
  }

  /** A line gives a point when it has at least three comma fields that all parse as finite numbers. */
  predicate AllFinite(parts: seq<string>, num: string -> Option<real>)
  {
    forall i :: 0 <= i < |parts| ==> num(Trim(parts[i])).Some?
  }

  /** The point of one line, from its first three comma fields; a line with fewer than two commas has none. */
  function ParseLine(line: string, num: string -> Option<real>): (p: Option<Point>)
    ensures Count(line, ',') < 2 ==> p.None?
  {
    var parts := Split(line, ',');
    if |parts| >= 3 && AllFinite(parts, num) then
      Some(Point(num(Trim(parts[0])).value, num(Trim(parts[1])).value, num(Trim(parts[2])).value))
    else None
  }

  /** The point a line gives, if any: an empty line is skipped. */
  function LinePoint(line: string, num: string -> Option<real>): (p: Option<Point>)
    ensures p.Some? ==> line != ""
  {
    if line == "" then None else ParseLine(line, num)
  }

  /** The points f finds in lines, in line order. */
  function Collect(lines: seq<string>, f: string -> Option<Point>): (points: Cloud)
    ensures |points| <= |lines|
  {
    if lines == [] then []
    else
      var front := Collect(lines[..|lines| - 1], f);
      match f(lines[|lines| - 1])
      case Some(p) => front + [p]
      case None => front
  }

  lemma {:induction false} CollectAppend(a: seq<string>, b: seq<string>, f: string -> Option<Point>)
    ensures Collect(a + b, f) == Collect(a, f) + Collect(b, f)
    decreases |b|
  {
    if b == [] {
      assert a + b == a;
    } else {
      var b' := b[..|b| - 1];
      CollectAppend(a, b', f);
      assert (a + b)[..|a + b| - 1] == a + b';
      assert (a + b)[|a + b| - 1] == b[|b| - 1];
    }
  }

  /** The points the importer collects from lines, in line order. */
  function PointsOf(lines: seq<string>, num: string -> Option<real>): (points: Cloud)
    ensures |points| <= |lines|
  {
    Collect(lines, line => LinePoint(line, num))
  }

  lemma PointsOfStep(lines: seq<string>, t: nat, num: string -> Option<real>)
    requires t < |lines|
    ensures PointsOf(lines[..t + 1], num)
      == PointsOf(lines[..t], num) + (if LinePoint(lines[t], num).Some? then [LinePoint(lines[t], num).value] else [])
  {
    assert lines[..t + 1][..t] == lines[..t];
  }

  /**
   * parseCSVTextToPointCloud: one point per non-empty line whose fields
   * parse, taken from the first three fields.
   */
  method ParseCSVTextToPointCloud(text: string, num: string -> Option<real>) returns (points: Cloud)
    ensures points == PointsOf(SplitLines(text), num)
  {
    var lines := SplitLines(text);
    points := [];
    for t := 0 to |lines|
      invariant points == PointsOf(lines[..t], num)
    {
      PointsOfStep(lines, t, num);
      var line := lines[t];
      if line == "" {
        continue;
      }
      var parsed := ParseLine(line, num);
      if parsed.Some? {
        points := points + [parsed.value];
      }
    }
    assert lines[..|lines|] == lines;
  }

  /** Points keep line order: the points of a concatenation are the concatenated points. */
  lemma PointsOfAppend(a: seq<string>, b: seq<string>, num: string -> Option<real>)
    ensures PointsOf(a + b, num) == PointsOf(a, num) + PointsOf(b, num)
  {
    CollectAppend(a, b, line => LinePoint(line, num));
  }

  /** A single line yields its point exactly when ParseLine accepts it. */
  lemma PointsOfOneLine(line: string, num: string -> Option<real>)
    ensures PointsOf([line], num) == if line != "" && ParseLine(line, num).Some? then [ParseLine(line, num).value] else []
  {
    assert [line][..0] == [];
  }

  /** Blank text yields no points. */
  lemma BlankTextNoPoints(text: string, num: string -> Option<real>)
    requires IsBlank(text)
    ensures PointsOf(SplitLines(text), num) == []
  {
    assert Trim(text) == [];
    assert SplitLines(text) == [""];
    assert [""][..0] == [];
  }

  /** Splitting a + sep + b gives the fields of a followed by the fields of b. */
  lemma {:induction false} SplitConcat(a: string, sep: char, b: string)
    ensures Split(a + [sep] + b, sep) == Split(a, sep) + Split(b, sep)
  {
    var s := a + [sep] + b;
    if a == [] {
      assert s[1..] == b;
    } else {
      assert s[1..] == a[1..] + [sep] + b;
      SplitConcat(a[1..], sep, b);
    }
  }

  /** Every field of a + b parses exactly when every field of a and every field of b do. */
  lemma AllFiniteAppend(a: seq<string>, b: seq<string>, num: string -> Option<real>)
    ensures AllFinite(a + b, num) <==> AllFinite(a, num) && AllFinite(b, num)
  {
    var ab := a + b;
    if AllFinite(ab, num) {
      forall i | 0 <= i < |a| ensures num(Trim(a[i])).Some? {
        assert ab[i] == a[i];
      }
      forall i | 0 <= i < |b| ensures num(Trim(b[i])).Some? {
        assert ab[|a| + i] == b[i];
      }
    }
    if AllFinite(a, num) && AllFinite(b, num) {
      forall i | 0 <= i < |ab| ensures num(Trim(ab[i])).Some? {
        if i < |a| { assert ab[i] == a[i]; } else { assert ab[i] == b[i - |a|]; }
      }
    }
  }

  /** Fields beyond the third do not change the point, as long as they parse. */
  lemma ExtraFieldsIgnored(line: string, extra: string, num: string -> Option<real>)
    requires ParseLine(line, num).Some?
    ensures ParseLine(line + [','] + extra, num).Some? <==> AllFinite(Split(extra, ','), num)
    ensures ParseLine(line + [','] + extra, num).Some? ==> ParseLine(line + [','] + extra, num) == ParseLine(line, num)
  {
    var a, b := Split(line, ','), Split(extra, ',');
    SplitConcat(line, ',', extra);
    AllFiniteAppend(a, b, num);
    var ab := a + b;
    assert ab[0] == a[0] && ab[1] == a[1] && ab[2] == a[2];
  }

  /**
   * A line of exactly three comma-free fields gives the point of their
   * trimmed numbers when all three parse, and no point otherwise.
   */
  lemma ThreeFieldLine(a: string, b: string, c: string, num: string -> Option<real>)
    requires ',' !in a && ',' !in b && ',' !in c
    ensures ParseLine(a + [','] + b + [','] + c, num) ==
      if num(Trim(a)).Some? && num(Trim(b)).Some? && num(Trim(c)).Some?
      then Some(Point(num(Trim(a)).value, num(Trim(b)).value, num(Trim(c)).value))
      else None
  {
    SplitThree(a, b, c, ',');
    var parts := Split(a + [','] + b + [','] + c, ',');
    assert parts[0] == a && parts[1] == b && parts[2] == c;
  }

  // ---------------------------------------------------------------------
  // datasetToCSVRows and the downloaded content
  // ---------------------------------------------------------------------

  const Header: string := "sample_id,class,point_id,x,y,z"

  /** classes[labels[i]] in a template string: "undefined" when there is no such class. */
  function LabelName(labels: seq<nat>, classes: seq<string>, i: nat): string
  {
    if i < |labels| && labels[i] < |classes| then classes[labels[i]] else "undefined"
  }

  /** `${i},${name},${j},${x},${y},${z}` */
  function DataRow(i: nat, name: string, j: nat, p: Point, fmtNat: nat -> string, fmtReal: real -> string): string
  {
    Join([fmtNat(i), name, fmtNat(j), fmtReal(p.x), fmtReal(p.y), fmtReal(p.z)], ',')
  }

  /** The rows of sample i: one per point, in point order. */
  function SampleRows(i: nat, name: string, cloud: Cloud, fmtNat: nat -> string, fmtReal: real -> string): (rows: seq<string>)
    ensures |rows| == |cloud|
  {
    seq(|cloud|, j requires 0 <= j < |cloud| => DataRow(i, name, j, cloud[j], fmtNat, fmtReal))
  }

  /** The number of points in the samples before sample i. */
  function PointsBefore(data: seq<Cloud>, i: nat): nat
    requires i <= |data|
  {
    if i == 0 then 0 else PointsBefore(data, i - 1) + |data[i - 1]|
  }

  /** Total number of points over all samples. */
  function TotalPoints(data: seq<Cloud>): nat
  {
    PointsBefore(data, |data|)
  }

  /** The rows of the samples before sample i, sample by sample and point by point within a sample. */
  function RowsBefore(data: seq<Cloud>, i: nat, labels: seq<nat>, classes: seq<string>, fmtNat: nat -> string, fmtReal: real -> string): (rows: seq<string>)
    requires i <= |data|
    ensures |rows| == PointsBefore(data, i)
  {
    if i == 0 then []
    else RowsBefore(data, i - 1, labels, classes, fmtNat, fmtReal) + SampleRows(i - 1, LabelName(labels, classes, i - 1), data[i - 1], fmtNat, fmtReal)
  }

  /** The data rows of every sample. */
  function DataRows(data: seq<Cloud>, labels: seq<nat>, classes: seq<string>, fmtNat: nat -> string, fmtReal: real -> string): (rows: seq<string>)
    ensures |rows| == TotalPoints(data)
  {
    RowsBefore(data, |data|, labels, classes, fmtNat, fmtReal)
  }

  /**
   * datasetToCSVRows: the header, then one row per point of every sample.
   */
  method DatasetToCSVRows(data: seq<Cloud>, labels: seq<nat>, classes: seq<string>, fmtNat: nat -> string, fmtReal: real -> string)
    returns (rows: seq<string>)
    ensures rows == [Header] + DataRows(data, labels, classes, fmtNat, fmtReal)
  {
    rows := [Header];
    for i := 0 to |data|
      invariant rows == [Header] + RowsBefore(data, i, labels, classes, fmtNat, fmtReal)
    {
      ghost var before := RowsBefore(data, i, labels, classes, fmtNat, fmtReal);
      var name := LabelName(labels, classes, i);
      ghost var sample := SampleRows(i, name, data[i], fmtNat, fmtReal);
      assert RowsBefore(data, i + 1, labels, classes, fmtNat, fmtReal) == before + sample;
      rows := AppendSampleRows(rows, i, name, data[i], fmtNat, fmtReal);
      assert rows == ([Header] + before) + sample;
    }
  }

  /** The inner loop of datasetToCSVRows: one row per point of sample i, appended in point order. */
  method AppendSampleRows(rows: seq<string>, i: nat, name: string, cloud: Cloud, fmtNat: nat -> string, fmtReal: real -> string)
    returns (rows': seq<string>)
    ensures rows' == rows + SampleRows(i, name, cloud, fmtNat, fmtReal)
  {
    rows' := rows;
    for j := 0 to |cloud|
      invariant rows' == rows + SampleRows(i, name, cloud[..j], fmtNat, fmtReal)
    {
      SampleRowsSnoc(i, name, cloud, j, fmtNat, fmtReal);
      rows' := rows' + [DataRow(i, name, j, cloud[j], fmtNat, fmtReal)];
    }
    assert cloud[..|cloud|] == cloud;
  }

  lemma SampleRowsSnoc(i: nat, name: string, cloud: Cloud, j: nat, fmtNat: nat -> string, fmtReal: real -> string)
    requires j < |cloud|
    ensures SampleRows(i, name, cloud[..j + 1], fmtNat, fmtReal)
      == SampleRows(i, name, cloud[..j], fmtNat, fmtReal) + [DataRow(i, name, j, cloud[j], fmtNat, fmtReal)]
  {
  }

  /** The rows of the first m samples are a prefix of the rows of the first n. */
  lemma {:induction false} RowsBeforePrefix(data: seq<Cloud>, m: nat, n: nat, labels: seq<nat>, classes: seq<string>,
                                            fmtNat: nat -> string, fmtReal: real -> string)
    requires m <= n <= |data|
    ensures RowsBefore(data, m, labels, classes, fmtNat, fmtReal) <= RowsBefore(data, n, labels, classes, fmtNat, fmtReal)
    decreases n
  {
    if m < n {
      RowsBeforePrefix(data, m, n - 1, labels, classes, fmtNat, fmtReal);
    }
  }

  /** Data row PointsBefore(i) + j is the row of point j of sample i. */
  lemma DataRowAt(data: seq<Cloud>, labels: seq<nat>, classes: seq<string>,
                  fmtNat: nat -> string, fmtReal: real -> string, i: nat, j: nat)
    requires i < |data| && j < |data[i]|
    ensures PointsBefore(data, i) + j < TotalPoints(data)
    ensures DataRows(data, labels, classes, fmtNat, fmtReal)[PointsBefore(data, i) + j]
         == DataRow(i, LabelName(labels, classes, i), j, data[i][j], fmtNat, fmtReal)
  {
    var before := RowsBefore(data, i, labels, classes, fmtNat, fmtReal);
    var upto := RowsBefore(data, i + 1, labels, classes, fmtNat, fmtReal);
    var sample := SampleRows(i, LabelName(labels, classes, i), data[i], fmtNat, fmtReal);
    assert upto == before + sample;
    RowsBeforePrefix(data, i + 1, |data|, labels, classes, fmtNat, fmtReal);
    assert upto[|before| + j] == sample[j];
  }

  /** Every data row has six comma fields when no formatted value and no class name holds a comma. */
  lemma DataRowFields(i: nat, name: string, j: nat, p: Point, fmtNat: nat -> string, fmtReal: real -> string)
    requires ',' !in fmtNat(i) && ',' !in fmtNat(j) && ',' !in name
    requires ',' !in fmtReal(p.x) && ',' !in fmtReal(p.y) && ',' !in fmtReal(p.z)
    ensures Split(DataRow(i, name, j, p, fmtNat, fmtReal), ',') == [fmtNat(i), name, fmtNat(j), fmtReal(p.x), fmtReal(p.y), fmtReal(p.z)]
  {
    SplitJoin([fmtNat(i), name, fmtNat(j), fmtReal(p.x), fmtReal(p.y), fmtReal(p.z)], ',');
  }

  /** rows.join('\n') + '\n': the text of the downloaded file. */
  function DownloadContent(rows: seq<string>): string
  {
    Join(rows, '\n') + "\n"
  }

  /** Splitting the file text at line feeds gives the rows back, then the empty piece after the final line feed. */
  lemma ContentLines(rows: seq<string>)
    requires |rows| >= 1
    requires forall i :: 0 <= i < |rows| ==> '\n' !in rows[i]
    ensures Split(DownloadContent(rows), '\n') == rows + [""]
  {
    JoinSnoc(rows, "", '\n');
    assert Join(rows + [""], '\n') == DownloadContent(rows);
    SplitJoin(rows + [""], '\n');
  }
}

=== FILE: dataset.dfy ===
/**
 * The dataset pipeline of the point-cloud demo: height draw, XY crop with
 * bounded retries, point-count normalisation, dataset assembly over the
 * active classes, one-hot labels, and the train/validation split (whose
 * shuffle, called with the same array twice, leaves the order unchanged).
 */
module Dataset {
  import opened Common
  import Shapes

  type Cloud = seq<Point>

  const AllClasses: seq<string> := ["pyramid", "box", "cylinder", "ellipsoid", "paraboloid", "cone"]
  const InitialClasses: seq<string> := ["pyramid", "box", "cylinder"]

  // ---------------------------------------------------------------------
  // clamp and randomHeightForRatio
  // ---------------------------------------------------------------------

  /** Math.max(lo, Math.min(hi, v)). */
  function Clamp(v: real, lo: real, hi: real): (r: real)
    ensures lo <= hi ==> lo <= r <= hi
    ensures lo <= v <= hi ==> r == v
    ensures v < lo ==> r == lo
    ensures lo <= hi && hi < v ==> r == hi
  {
    Max(lo, Min(hi, v))
  }

  /** The ratio bounds after clamping both ends to [3, 10] and ordering them. */
  function RatioRange(ratioMin: real, ratioMax: real): (range: (real, real))
    ensures 3.0 <= range.0 <= range.1 <= 10.0
    ensures range.0 == Min(Clamp(ratioMin, 3.0, 10.0), Clamp(ratioMax, 3.0, 10.0))
    ensures range.1 == Max(Clamp(ratioMin, 3.0, 10.0), Clamp(ratioMax, 3.0, 10.0))
  {
    var rMin := Max(3.0, Min(10.0, ratioMin));
    var rMax := Max(3.0, Min(10.0, ratioMax));
    (Min(rMin, rMax), Max(rMin, rMax))
  }

  /** randomHeightForRatio with the draw u: twice a ratio drawn from the clamped range. */
  function RandomHeightForRatio(ratioMin: real, ratioMax: real, u: real): (h: real)
    requires 0.0 <= u < 1.0
    ensures RatioRange(ratioMin, ratioMax).0 <= h / 2.0 <= RatioRange(ratioMin, ratioMax).1
    ensures 6.0 <= h <= 20.0
  {
    var range := RatioRange(ratioMin, ratioMax);
    var lo, hi := range.0, range.1;
    Lerp(lo, hi, u) * 2.0
  }

  // ---------------------------------------------------------------------
  // ensureSamePointCount
  // ---------------------------------------------------------------------

  /**
   * Exactly targetPoints points: all at the origin for an empty cloud,
   * random picks (with replacement) when the cloud is large enough, and a
   * cyclic repetition when it is too small.
   */
  method EnsureSamePointCount(cloud: Cloud, targetPoints: nat, rand: nat -> real, k: nat)
    returns (out: Cloud, k': nat)
    requires IsUniform(rand)
    ensures |out| == targetPoints
    ensures cloud == [] ==> (forall i :: 0 <= i < |out| ==> out[i] == Point(0.0, 0.0, 0.0)) && k' == k
    ensures cloud != [] && |cloud| >= targetPoints ==>
      && k' == k + targetPoints
      && forall i :: 0 <= i < |out| ==> out[i] == cloud[RandomIndex(rand(k + i), |cloud|)]
    ensures 0 < |cloud| < targetPoints ==>
      k' == k && forall i :: 0 <= i < |out| ==> out[i] == cloud[i % |cloud|]
  {
    k' := k;
    if |cloud| == 0 {
      return seq(targetPoints, _ => Point(0.0, 0.0, 0.0)), k;
    }
    out := [];
    if |cloud| >= targetPoints {
      for i := 0 to targetPoints
        invariant |out| == i && k' == k + i
        invariant forall j :: 0 <= j < i ==> out[j] == cloud[RandomIndex(rand(k + j), |cloud|)]
      {
        out := out + [cloud[RandomIndex(rand(k'), |cloud|)]];
        k' := k' + 1;
      }
    } else {
      for i := 0 to targetPoints
        invariant |out| == i
        invariant forall j :: 0 <= j < i ==> out[j] == cloud[j % |cloud|]
      {
        out := out + [cloud[i % |cloud|]];
      }
    }
  }

  /** Every normalised point is a point of the input (or the origin for an empty input). */
  lemma NormalisedPointsFromInput(cloud: Cloud, out: Cloud, targetPoints: nat, rand: nat -> real, k: nat)
    requires IsUniform(rand) && |out| == targetPoints && cloud != []
    requires |cloud| >= targetPoints ==> forall i :: 0 <= i < |out| ==> out[i] == cloud[RandomIndex(rand(k + i), |cloud|)]
    requires |cloud| < targetPoints ==> forall i :: 0 <= i < |out| ==> out[i] == cloud[i % |cloud|]
    ensures forall i :: 0 <= i < |out| ==> out[i] in cloud
  {
    forall i | 0 <= i < |out| ensures out[i] in cloud {
      if |cloud| >= targetPoints {
        assert out[i] == cloud[RandomIndex(rand(k + i), |cloud|)];
      } else {
        assert out[i] == cloud[i % |cloud|];
      }
    }
  }

  // ---------------------------------------------------------------------
  // cropCloudXY
  // ---------------------------------------------------------------------

  /** An axis-aligned rectangle [x0, x1] x [y0, y1] in the XY plane. */
  datatype Rect = Rect(x0: real, x1: real, y0: real, y1: real)

  function Area(r: Rect): real { (r.x1 - r.x0) * (r.y1 - r.y0) }

  predicate RectInDomain(r: Rect)
  {
    -1.0 <= r.x0 <= r.x1 <= 1.0 && -1.0 <= r.y0 <= r.y1 <= 1.0
  }

  predicate InRect(p: Point, r: Rect)
  {
    p.x >= r.x0 && p.x <= r.x1 && p.y >= r.y0 && p.y <= r.y1
  }

  /** cloud.filter(...): the points inside r, in cloud order. */
  function FilterIn(cloud: Cloud, r: Rect): (out: Cloud)
    ensures |out| <= |cloud|
    ensures forall i :: 0 <= i < |out| ==> InRect(out[i], r) && out[i] in cloud
  {
    if cloud == [] then []
    else
      var rest := FilterIn(cloud[1..], r);
      if InRect(cloud[0], r) then [cloud[0]] + rest else rest
  }

  /** shareMin ?? 0, clamped to [0, 0.9]. */
  function ClampShare(share: Option<real>): (s: real)
    ensures 0.0 <= s <= 0.9
  {
    Clamp(if share.Some? then share.value else 0.0, 0.0, 0.9)
  }

  /** r is a non-empty crop of cloud by a rectangle inside [-1,1]^2 whose area is 4s for some s in [lo, hi]. */
  ghost predicate CroppedBy(cloud: Cloud, out: Cloud, lo: real, hi: real)
  {
    && |out| > 0
    && exists rect: Rect {:trigger FilterIn(cloud, rect)} ::
         RectInDomain(rect) && 4.0 * lo <= Area(rect) <= 4.0 * hi && out == FilterIn(cloud, rect)
  }

  /** The width, height and share of one crop attempt: W * H == 4s, both within [0, 2]. */
  function CropSize(lo: real, hi: real, u1: real, u2: real): (size: (real, real, real))
    requires 0.0 <= lo <= hi <= 0.9
    requires 0.0 <= u1 < 1.0 && 0.0 <= u2 < 1.0
    ensures lo <= size.2 <= hi
    ensures 0.0 < size.0 <= 2.0 && 0.0 <= size.1 <= 2.0
    ensures size.0 * size.1 == 4.0 * size.2
  {
    var s := Lerp(lo, hi, u1);
    var wMin := Max(0.0001, 2.0 * s);
    var w := Lerp(wMin, 2.0, u2);
    DivAtMost(4.0 * s, w, 2.0);
    var h := (4.0 * s) / w;
    assert w * h == 4.0 * s;
    (w, h, s)
  }

  /** One attempt of the crop loop from four draws: the rectangle and its share s. */
  function CropRect(lo: real, hi: real, u1: real, u2: real, u3: real, u4: real): (res: (Rect, real))
    requires 0.0 <= lo <= hi <= 0.9
    requires 0.0 <= u1 < 1.0 && 0.0 <= u2 < 1.0 && 0.0 <= u3 < 1.0 && 0.0 <= u4 < 1.0
    ensures lo <= res.1 <= hi
    ensures RectInDomain(res.0)
    ensures Area(res.0) == 4.0 * res.1
  {
    var size := CropSize(lo, hi, u1, u2);
    var w, h, s := size.0, size.1, size.2;
    var cx := Shapes.Jitter(u3, 1.0 - w / 2.0);
    var cy := Shapes.Jitter(u4, 1.0 - h / 2.0);
    var rect := Rect(cx - w / 2.0, cx + w / 2.0, cy - h / 2.0, cy + h / 2.0);
    assert rect.x1 - rect.x0 == w && rect.y1 - rect.y0 == h;
    (rect, s)
  }

  /** Attempt t of the crop loop: the points inside the rectangle drawn from rand(k + 4t) .. rand(k + 4t + 3). */
  function CropTry(cloud: Cloud, lo: real, hi: real, rand: nat -> real, k: nat, t: nat): Cloud
    requires 0.0 <= lo <= hi <= 0.9
    requires IsUniform(rand)
  {
    var u := k + 4 * t;
    FilterIn(cloud, CropRect(lo, hi, rand(u), rand(u + 1), rand(u + 2), rand(u + 3)).0)
  }

  /** A crop attempt that keeps a point is a crop by a rectangle of the requested share. */
  lemma CropTryCropped(cloud: Cloud, lo: real, hi: real, rand: nat -> real, k: nat, t: nat)
    requires 0.0 <= lo <= hi <= 0.9
    requires IsUniform(rand)
    requires |CropTry(cloud, lo, hi, rand, k, t)| > 0
    ensures CroppedBy(cloud, CropTry(cloud, lo, hi, rand, k, t), lo, hi)
  {
    var u := k + 4 * t;
    var rect := CropRect(lo, hi, rand(u), rand(u + 1), rand(u + 2), rand(u + 3)).0;
    assert RectInDomain(rect) && 4.0 * lo <= Area(rect) <= 4.0 * hi;
  }

  /** The loop draws four numbers per attempt it makes, at most all of them. */
  lemma {:induction false} FirstCropCursor(cloud: Cloud, tries: seq<Cloud>, k: nat, t: nat)
    requires t <= |tries|
    ensures k + 4 * t <= FirstCrop(cloud, tries, k, t).1 <= k + 4 * |tries|
    decreases |tries| - t
  {
    if t < |tries| && |tries[t]| == 0 {
      FirstCropCursor(cloud, tries, k, t + 1);
    }
  }

  /** The loop's exit at attempt u: it keeps a point and every earlier attempt kept none. */
  lemma FirstCropHit(cloud: Cloud, tries: seq<Cloud>, k: nat, u: nat)
    requires u < |tries| && |tries[u]| > 0
    requires forall v :: 0 <= v < u ==> |tries[v]| == 0
    ensures FirstCrop(cloud, tries, k, 0) == (tries[u], k + 4 * (u + 1))
  {
    FirstCropIsFirstHit(cloud, tries, k, 0);
  }

  /** The loop's fall-through: no attempt kept a point. */
  lemma FirstCropMiss(cloud: Cloud, tries: seq<Cloud>, k: nat)
    requires forall v :: 0 <= v < |tries| ==> |tries[v]| == 0
    ensures FirstCrop(cloud, tries, k, 0) == (cloud, k + 4 * |tries|)
  {
    FirstCropIsFirstHit(cloud, tries, k, 0);
  }

  /** Attempt t among the five is the crop by the rectangle drawn after 4t draws. */
  lemma CropTryAt(cloud: Cloud, lo: real, hi: real, rand: nat -> real, k: nat, t: nat)
    requires 0.0 <= lo <= hi <= 0.9
    requires IsUniform(rand)
    requires t < 5
    ensures var u := k + 4 * t;
      CropTries(cloud, lo, hi, rand, k)[t] == FilterIn(cloud, CropRect(lo, hi, rand(u), rand(u + 1), rand(u + 2), rand(u + 3)).0)
  {
  }

  /** The five crop attempts a call can make from cursor k. */
  function CropTries(cloud: Cloud, lo: real, hi: real, rand: nat -> real, k: nat): (tries: seq<Cloud>)
    requires 0.0 <= lo <= hi <= 0.9
    requires IsUniform(rand)
    ensures |tries| == 5
  {
    seq(5, t requires 0 <= t < 5 => CropTry(cloud, lo, hi, rand, k, t))
  }

  /**
   * The crop loop from attempt t on: the first non-empty attempt with the
   * cursor just past its four draws, or the whole cloud after all attempts.
   */
  function FirstCrop(cloud: Cloud, tries: seq<Cloud>, k: nat, t: nat): (Cloud, nat)
    requires t <= |tries|
    decreases |tries| - t
  {
    if t == |tries| then (cloud, k + 4 * |tries|)
    else if |tries[t]| > 0 then (tries[t], k + 4 * (t + 1))
    else FirstCrop(cloud, tries, k, t + 1)
  }

  /**
   * The crop loop returns the first attempt u that keeps a point, with the
   * cursor after 4(u + 1) draws; when no attempt keeps anything, the
   * original cloud after all the draws.
   */
  lemma {:induction false} FirstCropIsFirstHit(cloud: Cloud, tries: seq<Cloud>, k: nat, t: nat)
    requires t <= |tries|
    ensures (forall u :: t <= u < |tries| ==> |tries[u]| == 0) ==>
      FirstCrop(cloud, tries, k, t) == (cloud, k + 4 * |tries|)
    ensures forall u :: t <= u < |tries| && |tries[u]| > 0 && (forall v :: t <= v < u ==> |tries[v]| == 0) ==>
      FirstCrop(cloud, tries, k, t) == (tries[u], k + 4 * (u + 1))
    decreases |tries| - t
  {
    if t < |tries| {
      FirstCropIsFirstHit(cloud, tries, k, t + 1);
    }
  }

  /** One pass of the crop loop from cursor k' = k + 4t: a random rectangle of the requested share and the points inside it. */
  method CropAttempt(cloud: Cloud, lo: real, hi: real, rand: nat -> real, k': nat, ghost k: nat, ghost t: nat)
    returns (cropped: Cloud)
    requires 0.0 <= lo <= hi <= 0.9
    requires IsUniform(rand)
    requires t < 5 && k' == k + 4 * t
    ensures cropped == CropTries(cloud, lo, hi, rand, k)[t]
  {
    var (rect, s) := CropRect(lo, hi, rand(k'), rand(k' + 1), rand(k' + 2), rand(k' + 3));
    cropped := FilterIn(cloud, rect);
    CropTryAt(cloud, lo, hi, rand, k, t);
  }

  /**
   * The attempts loop of cropCloudXY for ordered shares lo <= hi: the first
   * of five random rectangles that keeps a point, or the original cloud.
   */
  method CropTriesLoop(cloud: Cloud, lo: real, hi: real, rand: nat -> real, k: nat) returns (out: Cloud, k': nat)
    requires 0.0 <= lo <= hi <= 0.9
    requires IsUniform(rand)
    ensures (out, k') == FirstCrop(cloud, CropTries(cloud, lo, hi, rand, k), k, 0)
    ensures out == cloud || CroppedBy(cloud, out, lo, hi)
  {
    ghost var attempts := CropTries(cloud, lo, hi, rand, k);
    k' := k;
    for t := 0 to 5
      invariant k' == k + 4 * t
      invariant forall u :: 0 <= u < t ==> |attempts[u]| == 0
    {
      var cropped := CropAttempt(cloud, lo, hi, rand, k', k, t);
      k' := k' + 4;
      if |cropped| > 0 {
        FirstCropHit(cloud, attempts, k, t);
        CropTryCropped(cloud, lo, hi, rand, k, t);
        return cropped, k';
      }
    }
    FirstCropMiss(cloud, attempts, k);
    out := cloud;
  }

  /**
   * cropCloudXY: a no-op when the clamped maximum share is not positive;
   * otherwise up to five random rectangles, returning the first non-empty
   * crop, and the original cloud when all five miss.
   */
  method CropCloudXY(cloud: Cloud, shareMin: Option<real>, shareMax: Option<real>, rand: nat -> real, k: nat)
    returns (out: Cloud, k': nat)
    requires IsUniform(rand)
    ensures ClampShare(shareMax) <= 0.0 ==> out == cloud && k' == k
    ensures ClampShare(shareMax) > 0.0 ==>
      (out, k') == FirstCrop(cloud, CropTries(cloud, Min(ClampShare(shareMin), ClampShare(shareMax)), Max(ClampShare(shareMin), ClampShare(shareMax)), rand, k), k, 0)
    ensures out == cloud || CroppedBy(cloud, out, Min(ClampShare(shareMin), ClampShare(shareMax)), Max(ClampShare(shareMin), ClampShare(shareMax)))
    ensures k <= k' <= k + 4 * 5
  {
    var sMin := ClampShare(shareMin);
    var sMax := ClampShare(shareMax);
    if sMax <= 0.0 || sMin < 0.0 || sMin > 0.9 {
      return cloud, k;
    }
    var lo := Min(sMin, sMax);
    var hi := Max(sMin, sMax);
    out, k' := CropTriesLoop(cloud, lo, hi, rand, k);
    FirstCropCursor(cloud, CropTries(cloud, lo, hi, rand, k), k, 0);
  }

  /** A point outside the crop domain is never kept, so such a cloud comes back whole. */
  lemma CropOutsideDomainKeepsCloud(cloud: Cloud, out: Cloud, lo: real, hi: real)
    requires forall i :: 0 <= i < |cloud| ==> cloud[i].x > 1.0
    requires out == cloud || CroppedBy(cloud, out, lo, hi)
    ensures out == cloud
  {
    if out != cloud {
      var rect: Rect :| RectInDomain(rect) && 4.0 * lo <= Area(rect) <= 4.0 * hi && out == FilterIn(cloud, rect);
      FilterOutsideEmpty(cloud, rect);
      assert false;
    }
  }

  lemma {:induction false} FilterOutsideEmpty(cloud: Cloud, rect: Rect)
    requires RectInDomain(rect)
    requires forall i :: 0 <= i < |cloud| ==> cloud[i].x > 1.0
    ensures FilterIn(cloud, rect) == []
  {
    if cloud != [] {
      FilterOutsideEmpty(cloud[1..], rect);
    }
  }

  // ---------------------------------------------------------------------
  // labelsToOneHot
  // ---------------------------------------------------------------------

  /** The row-major one-hot buffer with only the first `rows` rows written. */
  function OneHotRows(labels: seq<nat>, numClasses: nat, rows: nat): (r: seq<real>)
    requires rows <= |labels|
    ensures |r| == |labels| * numClasses
  {
    seq(|labels| * numClasses, p requires 0 <= p < |labels| * numClasses =>
      if p / numClasses < rows && labels[p / numClasses] == p % numClasses then 1.0 else 0.0)
  }

  /** The tensor labelsToOneHot builds, as a flat row-major buffer. */
  function OneHot(labels: seq<nat>, numClasses: nat): (r: seq<real>)
    ensures |r| == |labels| * numClasses
  {
    OneHotRows(labels, numClasses, |labels|)
  }

  lemma CellBound(i: nat, c: nat, rows: nat, n: nat)
    requires i < rows && c < n
    ensures i * n + c < rows * n
  {
    MulAtLeast(rows - i, n);
    assert rows * n - i * n == (rows - i) * n;
  }

  /** Row i of the one-hot buffer holds 1 at column labels[i] and 0 elsewhere. */
  lemma OneHotCell(labels: seq<nat>, numClasses: nat, i: nat, c: nat)
    requires i < |labels| && c < numClasses
    ensures i * numClasses + c < |OneHot(labels, numClasses)|
    ensures OneHot(labels, numClasses)[i * numClasses + c] == if labels[i] == c then 1.0 else 0.0
  {
    CellBound(i, c, |labels|, numClasses);
    DivModUnique(i * numClasses + c, numClasses, i, c);
  }

  /** Writing row i changes exactly the cell (i, labels[i]). */
  lemma OneHotStep(labels: seq<nat>, numClasses: nat, i: nat, p: nat)
    requires i < |labels| && labels[i] < numClasses && p < |labels| * numClasses
    ensures OneHotRows(labels, numClasses, i + 1)[p] ==
      if p == i * numClasses + labels[i] then 1.0 else OneHotRows(labels, numClasses, i)[p]
  {
    DivModUnique(i * numClasses + labels[i], numClasses, i, labels[i]);
    if p / numClasses == i {
      assert p == (p / numClasses) * numClasses + p % numClasses;
    }
  }

  /**
   * labelsToOneHot: a zero-filled Float32Array of |labels| * numClasses
   * cells with a 1 written at labels[i] of row i.
   */
  method LabelsToOneHot(labels: seq<nat>, numClasses: nat) returns (arr: array<real>)
    requires forall i :: 0 <= i < |labels| ==> labels[i] < numClasses
    ensures arr[..] == OneHot(labels, numClasses)
  {
    var n := |labels|;
    arr := new real[n * numClasses](_ => 0.0);
    assert arr[..] == OneHotRows(labels, numClasses, 0);
    for i := 0 to n
      invariant arr.Length == n * numClasses
      invariant arr[..] == OneHotRows(labels, numClasses, i)
    {
      var q := i * numClasses + labels[i];
      CellBound(i, labels[i], n, numClasses);
      arr[q] := 1.0;
      forall p | 0 <= p < n * numClasses
        ensures arr[p] == OneHotRows(labels, numClasses, i + 1)[p]
      {
        OneHotStep(labels, numClasses, i, p);
      }
    }
  }

  // ---------------------------------------------------------------------
  // shuffleInUnison and splitTrainVal
  // ---------------------------------------------------------------------

  function Swap<T>(s: seq<T>, i: nat, j: nat): (r: seq<T>)
    requires i < |s| && j < |s|
    ensures |r| == |s|
  {
    s[i := s[j]][j := s[i]]
  }

  lemma SwapPermutes<T>(s: seq<T>, i: nat, j: nat)
    requires i < |s| && j < |s|
    ensures multiset(Swap(s, i, j)) == multiset(s)
  {
  }

  /** The Fisher–Yates steps i, i-1, ..., 1 on s, reading one draw per step from k on. */
  function ShuffleFrom<T>(s: seq<T>, i: nat, rand: nat -> real, k: nat): seq<T>
    requires IsUniform(rand) && i < |s|
    decreases i
  {
    if i == 0 then s
    else ShuffleFrom(Swap(s, i, RandomIndex(rand(k), i + 1)), i - 1, rand, k + 1)
  }

  lemma ShuffleFromStep<T>(s: seq<T>, i: nat, rand: nat -> real, k: nat)
    requires IsUniform(rand) && 0 < i < |s|
    ensures ShuffleFrom(s, i, rand, k) == ShuffleFrom(Swap(s, i, RandomIndex(rand(k), i + 1)), i - 1, rand, k + 1)
  {
  }

  /** What shuffleInUnison does to one array that is not also the other. */
  function Shuffled<T>(s: seq<T>, rand: nat -> real, k: nat): seq<T>
    requires IsUniform(rand)
  {
    if |s| == 0 then s else ShuffleFrom(s, |s| - 1, rand, k)
  }

  lemma {:induction false} ShuffleFromPermutes<T>(s: seq<T>, i: nat, rand: nat -> real, k: nat)
    requires IsUniform(rand) && i < |s|
    ensures |ShuffleFrom(s, i, rand, k)| == |s|
    ensures multiset(ShuffleFrom(s, i, rand, k)) == multiset(s)
    decreases i
  {
    if i > 0 {
      var j := RandomIndex(rand(k), i + 1);
      SwapPermutes(s, i, j);
      ShuffleFromPermutes(Swap(s, i, j), i - 1, rand, k + 1);
    }
  }

  /** The shuffle of distinct arrays is a permutation of each. */
  lemma ShuffledPermutes<T>(s: seq<T>, rand: nat -> real, k: nat)
    requires IsUniform(rand)
    ensures |Shuffled(s, rand, k)| == |s| && multiset(Shuffled(s, rand, k)) == multiset(s)
  {
    if |s| > 0 {
      ShuffleFromPermutes(s, |s| - 1, rand, k);
    }
  }

  /** One step of shuffleInUnison: swap a[i] with a[j], then b[i] with b[j]. */
  method SwapInUnison(a: array<nat>, b: array<nat>, i: nat, j: nat)
    requires i < a.Length && j < a.Length && a.Length == b.Length
    modifies a, b
    ensures a == b ==> a[..] == old(a[..])
    ensures a != b ==> a[..] == Swap(old(a[..]), i, j) && b[..] == Swap(old(b[..]), i, j)
  {
    ghost var a0, b0 := a[..], b[..];
    a[i], a[j] := a[j], a[i];
    assert a[..] == Swap(a0, i, j);
    ghost var a1 := a[..];
    b[i], b[j] := b[j], b[i];
    assert a != b ==> b[..] == Swap(b0, i, j) && a[..] == a1;
    assert a == b ==> b[..] == Swap(Swap(a0, i, j), i, j) == a0;
  }

  /**
   * shuffleInUnison: for i from the end down to 1, swap a[i] with a[j] and
   * then b[i] with b[j], j drawn from [0, i]. Two distinct arrays receive
   * the same permutation; one array passed twice is swapped back at every
   * step and ends unchanged.
   */
  method ShuffleInUnison(a: array<nat>, b: array<nat>, rand: nat -> real, k: nat) returns (k': nat)
    requires IsUniform(rand) && a.Length == b.Length
    modifies a, b
    ensures a == b ==> a[..] == old(a[..])
    ensures a != b ==> a[..] == Shuffled(old(a[..]), rand, k) && b[..] == Shuffled(old(b[..]), rand, k)
    ensures k' == if a.Length == 0 then k else k + a.Length - 1
  {
    k' := k;
    if a.Length == 0 {
      return;
    }
    var i: nat := a.Length - 1;
    ghost var A, B := a[..], b[..];
    while i > 0
      invariant i < a.Length && k' + i == k + a.Length - 1
      invariant a == b ==> a[..] == A
      invariant a != b ==> ShuffleFrom(a[..], i, rand, k') == Shuffled(A, rand, k)
      invariant a != b ==> ShuffleFrom(b[..], i, rand, k') == Shuffled(B, rand, k)
    {
      ShuffleStep(a, b, i, rand, k');
      k' := k' + 1;
      i := i - 1;
    }
  }

  /** One step of the loop: swap entry i with a drawn entry j <= i in both arrays. */
  method ShuffleStep(a: array<nat>, b: array<nat>, i: nat, rand: nat -> real, k: nat)
    requires IsUniform(rand) && 0 < i < a.Length && a.Length == b.Length
    modifies a, b
    ensures a == b ==> a[..] == old(a[..])
    ensures a != b ==> ShuffleFrom(a[..], i - 1, rand, k + 1) == ShuffleFrom(old(a[..]), i, rand, k)
    ensures a != b ==> ShuffleFrom(b[..], i - 1, rand, k + 1) == ShuffleFrom(old(b[..]), i, rand, k)
  {
    var j := RandomIndex(rand(k), i + 1);
    ShuffleFromStep(a[..], i, rand, k);
    ShuffleFromStep(b[..], i, rand, k);
    SwapInUnison(a, b, i, j);
  }

  /** Math.max(1, Math.floor(n * valRatio)): the requested validation size. */
  function NumVal(n: nat, valRatio: real): (m: int)
    ensures m >= 1
  {
    var f := (n as real * valRatio).Floor;
    if 1 >= f then 1 else f
  }

  /**
   * splitTrainVal: shuffles the index array in unison with itself (a no-op),
   * so the validation set is the first min(n, nVal) samples and the training
   * set the rest, both in the original order.
   */
  method SplitTrainVal(data: seq<Cloud>, labels: seq<nat>, valRatio: real, rand: nat -> real, k: nat)
    returns (trainData: seq<Cloud>, trainLabels: seq<nat>, valData: seq<Cloud>, valLabels: seq<nat>, k': nat)
    requires IsUniform(rand) && |labels| == |data|
    ensures var m := if NumVal(|data|, valRatio) < |data| then NumVal(|data|, valRatio) else |data|;
      && valData == data[..m] && valLabels == labels[..m]
      && trainData == data[m..] && trainLabels == labels[m..]
  {
    var n := |data|;
    var idx := new nat[n](i => i);
    k' := ShuffleInUnison(idx, idx, rand, k);
    var nVal := NumVal(n, valRatio);
    var m := if nVal < n then nVal else n;
    var valSet := set j | 0 <= j < m :: idx[j];
    assert forall i :: 0 <= i < n ==> (i in valSet <==> i < m) by {
      forall i | 0 <= i < n ensures i in valSet <==> i < m {
        if i < m { assert idx[i] == i; }
      }
    }
    trainData, trainLabels, valData, valLabels := PartitionBy(data, labels, valSet, m);
  }

  /** The loop of splitTrainVal: samples whose index is in valSet go to validation, the others to training. */
  method PartitionBy(data: seq<Cloud>, labels: seq<nat>, valSet: set<nat>, m: nat)
    returns (trainData: seq<Cloud>, trainLabels: seq<nat>, valData: seq<Cloud>, valLabels: seq<nat>)
    requires |labels| == |data| && m <= |data|
    requires forall x :: 0 <= x < |data| ==> (x in valSet <==> x < m)
    ensures valData == data[..m] && valLabels == labels[..m]
    ensures trainData == data[m..] && trainLabels == labels[m..]
  {
    trainData, trainLabels, valData, valLabels := [], [], [], [];
    for i := 0 to |data|
      invariant valData == data[..if i < m then i else m] && valLabels == labels[..if i < m then i else m]
      invariant trainData == data[(if i < m then i else m)..i] && trainLabels == labels[(if i < m then i else m)..i]
    {
      if i in valSet {
        assert data[..i + 1] == data[..i] + [data[i]] && labels[..i + 1] == labels[..i] + [labels[i]];
        valData, valLabels := valData + [data[i]], valLabels + [labels[i]];
      } else {
        assert data[m..i + 1] == data[m..i] + [data[i]] && labels[m..i + 1] == labels[m..i] + [labels[i]];
        trainData, trainLabels := trainData + [data[i]], trainLabels + [labels[i]];
      }
    }
    assert data[m..|data|] == data[m..] && labels[m..|data|] == labels[m..];
  }

  /** The split is a partition: every sample lands in exactly one part, in order. */
  lemma SplitPartitions(data: seq<Cloud>, m: nat)
    requires m <= |data|
    ensures data[..m] + data[m..] == data
    ensures |data[..m]| + |data[m..]| == |data|
  {
  }

  // ---------------------------------------------------------------------
  // Active classes and createToyDataset
  // ---------------------------------------------------------------------

  predicate NoDuplicates(s: seq<string>)
  {
    forall i, j :: 0 <= i < j < |s| ==> s[i] != s[j]
  }

  /** (selected || []).filter(s => ALL_CLASSES.includes(s)) */
  function KnownOnly(selected: seq<string>): (r: seq<string>)
    ensures forall x :: x in r <==> x in selected && x in AllClasses
  {
    if selected == [] then []
    else
      var front := KnownOnly(selected[..|selected| - 1]);
      var last := selected[|selected| - 1];
      assert selected == selected[..|selected| - 1] + [last];
      if last in AllClasses then front + [last] else front
  }

  /** The position of the first occurrence of x in s. */
  function FirstIndex(s: seq<string>, x: string): (i: nat)
    requires x in s
    ensures i < |s| && s[i] == x && x !in s[..i]
  {
    if s[0] == x then 0 else 1 + FirstIndex(s[1..], x)
  }

  /** Appending never moves a first occurrence already in the prefix. */
  lemma {:induction false} FirstIndexPrefix(a: seq<string>, b: seq<string>, x: string)
    requires x in a
    ensures FirstIndex(a + b, x) == FirstIndex(a, x)
  {
    var i := FirstIndex(a, x);
    assert (a + b)[i] == x;
    assert (a + b)[..i] == a[..i];
  }

  /** Array.from(new Set(s)): the distinct values in order of first occurrence. */
  function Dedup(s: seq<string>): (r: seq<string>)
    ensures NoDuplicates(r)
    ensures forall x :: x in r <==> x in s
    ensures forall i, j :: 0 <= i < j < |r| ==> FirstIndex(s, r[i]) < FirstIndex(s, r[j])
  {
    if s == [] then []
    else
      var front := Dedup(s[..|s| - 1]);
      var last := s[|s| - 1];
      assert s == s[..|s| - 1] + [last];
      DedupOrderStep(s[..|s| - 1], last, front);
      if last in s[..|s| - 1] then front else front + [last]
  }

  /** The order step of Dedup: the first occurrences in s + [last] keep the order they had in s, and a new last value comes after them all. */
  lemma DedupOrderStep(s: seq<string>, last: string, front: seq<string>)
    requires forall x :: x in front <==> x in s
    requires forall i, j :: 0 <= i < j < |front| ==> FirstIndex(s, front[i]) < FirstIndex(s, front[j])
    ensures last in s ==>
      forall i, j :: 0 <= i < j < |front| ==> FirstIndex(s + [last], front[i]) < FirstIndex(s + [last], front[j])
    ensures last !in s ==>
      var r := front + [last];
      forall i, j :: 0 <= i < j < |r| ==> FirstIndex(s + [last], r[i]) < FirstIndex(s + [last], r[j])
  {
    forall i | 0 <= i < |front|
      ensures FirstIndex(s + [last], front[i]) == FirstIndex(s, front[i])
    {
      FirstIndexPrefix(s, [last], front[i]);
    }
    if last !in s {
      assert FirstIndex(s + [last], last) == |s|;
    }
  }

  lemma {:induction false} DedupOfDistinct(s: seq<string>)
    requires NoDuplicates(s)
    ensures Dedup(s) == s
  {
    if s != [] {
      var front := s[..|s| - 1];
      DedupOfDistinct(front);
      assert s[|s| - 1] !in front;
      assert s == front + [s[|s| - 1]];
    }
  }

  /** Filtering keeps the order of first occurrences: a name whose first occurrence comes first among the known names also comes first in the selection. */
  lemma {:induction false} KnownOnlyOrder(selected: seq<string>, x: string, y: string)
    requires x in KnownOnly(selected) && y in KnownOnly(selected)
    requires FirstIndex(KnownOnly(selected), x) < FirstIndex(KnownOnly(selected), y)
    ensures FirstIndex(selected, x) < FirstIndex(selected, y)
    decreases |selected|
  {
    var front := selected[..|selected| - 1];
    var last := selected[|selected| - 1];
    var kf := KnownOnly(front);
    var k := KnownOnly(selected);
    assert selected == front + [last];
    if x in kf && y in kf {
      if last in AllClasses {
        FirstIndexPrefix(kf, [last], x);
        FirstIndexPrefix(kf, [last], y);
      }
      KnownOnlyOrder(front, x, y);
      FirstIndexPrefix(front, [last], x);
      FirstIndexPrefix(front, [last], y);
    } else if x in kf {
      // y is the new last name, absent from the front
      assert y == last && y !in front;
      FirstIndexPrefix(front, [last], x);
    } else {
      // x would be the new last name, whose first occurrence ends the known names
      assert false;
    }
  }

  /** The filtered, de-duplicated selection setActiveClasses would install, in the order the names were first selected. */
  function Selection(selected: Option<seq<string>>): (r: seq<string>)
    ensures NoDuplicates(r)
    ensures forall x :: x in r <==> x in AllClasses && selected.Some? && x in selected.value
    ensures selected.Some? ==>
      forall i, j :: 0 <= i < j < |r| ==> FirstIndex(selected.value, r[i]) < FirstIndex(selected.value, r[j])
  {
    var known := KnownOnly(if selected.Some? then selected.value else []);
    var r := Dedup(known);
    if selected.Some? then
      assert forall i, j :: 0 <= i < j < |r| ==> FirstIndex(selected.value, r[i]) < FirstIndex(selected.value, r[j]) by {
        forall i, j | 0 <= i < j < |r|
          ensures FirstIndex(selected.value, r[i]) < FirstIndex(selected.value, r[j])
        {
          KnownOnlyOrder(selected.value, r[i], r[j]);
        }
      }
      r
    else r
  }

  /**
   * The module's active-class registry (ACTIVE_CLASSES, mirrored in
   * NS.CLASSES) and the dataset builder that reads it.
   */
  class DatasetModule {
    var activeClasses: seq<string>

    ghost predicate Valid()
      reads this
    {
      |activeClasses| > 0 && NoDuplicates(activeClasses)
      && forall x :: x in activeClasses ==> x in AllClasses
    }

    constructor ()
      ensures Valid() && activeClasses == InitialClasses
    {
      activeClasses := InitialClasses;
    }

    /** setActiveClasses: keeps known names, first occurrence first; an empty result changes nothing. */
    method SetActiveClasses(selected: Option<seq<string>>) returns (r: seq<string>)
      requires Valid()
      modifies this
      ensures Valid()
      ensures Selection(selected) == [] ==> activeClasses == old(activeClasses)
      ensures Selection(selected) != [] ==> activeClasses == Selection(selected)
      ensures r == activeClasses
    {
      var unique := Dedup(KnownOnly(if selected.Some? then selected.value else []));
      if |unique| == 0 {
        return activeClasses;
      }
      activeClasses := unique;
      r := activeClasses;
    }

    /** getActiveClasses: a copy of the active list. */
    method GetActiveClasses() returns (r: seq<string>)
      requires Valid()
      ensures r == activeClasses && |r| > 0
    {
      r := activeClasses[..];
    }

    /**
     * createToyDataset: samplesPerClass rounds, each generating one cloud
     * per active class in list order; heights come from the ratio range,
     * the crop runs only when a share bound is positive, and every cloud is
     * normalised to pointsPerCloud points. The fill flag is accepted and
     * not used: generateShape takes no such parameter. The ghost outputs
     * record, per cloud, the height drawn and the shape's points before
     * noise, crop and resampling: every such point lies in the shape of
     * the cloud's class at that height.
     */
    method CreateToyDataset(samplesPerClass: nat, pointsPerCloud: nat, noise: real, jitter: real,
                            ratioMin: real, ratioMax: real, fill: bool, cropShareMin: real, cropShareMax: real,
                            rand: nat -> real, k: nat, gauss: nat -> real, g: nat, circle: real -> (real, real))
      returns (data: seq<Cloud>, labels: seq<nat>, k': nat, g': nat,
               ghost raws: seq<seq<Point>>, ghost heights: seq<real>)
      requires Valid() && IsUniform(rand)
      ensures |data| == |labels| == samplesPerClass * |activeClasses|
      ensures forall n :: 0 <= n < |labels| ==> labels[n] == n % |activeClasses| && labels[n] < |activeClasses|
      ensures forall n :: 0 <= n < |data| ==> |data[n]| == pointsPerCloud
      ensures |raws| == |heights| == |data|
      ensures forall n :: 0 <= n < |heights| ==> 6.0 <= heights[n] <= 20.0
      ensures forall n :: 0 <= n < |raws| ==> |raws[n]| == pointsPerCloud
      ensures forall n, i :: 0 <= n < |raws| && 0 <= i < |raws[n]| ==>
        Shapes.InShape(Shapes.Dispatch(activeClasses[labels[n]]), raws[n][i], heights[n])
      ensures k' >= k
    {
      var classes := activeClasses;
      var a := |classes|;
      data, labels := [], [];
      raws, heights := [], [];
      k', g' := k, g;
      for i := 0 to samplesPerClass
        invariant |data| == |labels| == |raws| == |heights| == i * a
        invariant forall n :: 0 <= n < |labels| ==> labels[n] == n % a
        invariant forall n :: 0 <= n < |data| ==> |data[n]| == pointsPerCloud
        invariant forall n :: 0 <= n < |heights| ==> 6.0 <= heights[n] <= 20.0
        invariant forall n :: 0 <= n < |raws| ==> |raws[n]| == pointsPerCloud
        invariant forall n, i :: 0 <= n < |raws| && 0 <= i < |raws[n]| ==>
          Shapes.InShape(Shapes.Dispatch(classes[labels[n]]), raws[n][i], heights[n])
        invariant k' >= k
      {
        for classIndex := 0 to a
          invariant |data| == |labels| == |raws| == |heights| == i * a + classIndex
          invariant forall n :: 0 <= n < |labels| ==> labels[n] == n % a
          invariant forall n :: 0 <= n < |data| ==> |data[n]| == pointsPerCloud
          invariant forall n :: 0 <= n < |heights| ==> 6.0 <= heights[n] <= 20.0
          invariant forall n :: 0 <= n < |raws| ==> |raws[n]| == pointsPerCloud
          invariant forall n, i :: 0 <= n < |raws| && 0 <= i < |raws[n]| ==>
            Shapes.InShape(Shapes.Dispatch(classes[labels[n]]), raws[n][i], heights[n])
          invariant k' >= k
        {
          var h := RandomHeightForRatio(ratioMin, ratioMax, rand(k'));
          k' := k' + 1;
          var cloud: Cloud;
          ghost var raw: seq<Point>, kRaw: nat;
          cloud, raw, kRaw, k', g' := Shapes.GenerateShape(classes[classIndex], pointsPerCloud, noise, jitter, h, rand, k', gauss, g', circle);
          if cropShareMin > 0.0 || cropShareMax > 0.0 {
            cloud, k' := CropCloudXY(cloud, Some(cropShareMin), Some(cropShareMax), rand, k');
          }
          cloud, k' := EnsureSamePointCount(cloud, pointsPerCloud, rand, k');
          ModStep(i, a, classIndex);
          data, labels := data + [cloud], labels + [classIndex];
          raws, heights := raws + [raw], heights + [h];
        }
      }
    }
  }

  lemma ModStep(i: nat, a: nat, c: nat)
    requires c < a
    ensures (i * a + c) % a == c
  {
    DivModUnique(i * a + c, a, i, c);
  }
}

=== FILE: metrics.dfy ===
/**
 * Evaluation metrics of the point-cloud demo: the confusion matrix built by
 * counting (truth, prediction) pairs, and the `last` helper of the training
 * summary. The counting vocabulary (CountOf, Histogram, SumNat) is shared
 * with the digit-denoising app's confusion matrix.
 */
module Metrics {
  import opened Common

  type Matrix = seq<seq<nat>>

  // ---------------------------------------------------------------------
  // Counting vocabulary
  // ---------------------------------------------------------------------

  function SumNat(s: seq<nat>): nat
  {
    if s == [] then 0 else SumNat(s[..|s| - 1]) + s[|s| - 1]
  }

  /** How many entries of xs equal v. */
  function CountOf(xs: seq<nat>, v: nat): (c: nat)
    ensures c <= |xs|
  {
    if xs == [] then 0 else CountOf(xs[..|xs| - 1], v) + (if xs[|xs| - 1] == v then 1 else 0)
  }

  /** Counts of the values 0 .. n-1 in xs. */
  function Histogram(xs: seq<nat>, n: nat): (h: seq<nat>)
    ensures |h| == n
  {
    seq(n, v requires 0 <= v < n => CountOf(xs, v))
  }

  /** One more occurrence in cell j. */
  lemma {:induction false} SumNatBump(s: seq<nat>, j: nat)
    requires j < |s|
    ensures SumNat(s[j := s[j] + 1]) == SumNat(s) + 1
    decreases |s|
  {
    var s' := s[j := s[j] + 1];
    var n := |s| - 1;
    assert s'[..n] == if j < n then s[..n][j := s[j] + 1] else s[..n];
    if j < n {
      SumNatBump(s[..n], j);
    }
  }

  lemma HistogramSnoc(xs: seq<nat>, x: nat, n: nat)
    ensures Histogram(xs + [x], n) == if x < n then Histogram(xs, n)[x := Histogram(xs, n)[x] + 1] else Histogram(xs, n)
  {
    assert (xs + [x])[..|xs|] == xs;
  }

  /** A histogram over a range that holds every value sums to the number of values. */
  lemma {:induction false} HistogramSum(xs: seq<nat>, n: nat)
    requires forall i :: 0 <= i < |xs| ==> xs[i] < n
    ensures SumNat(Histogram(xs, n)) == |xs|
    decreases |xs|
  {
    if xs == [] {
      ZeroSum(n);
    } else {
      var front, x := xs[..|xs| - 1], xs[|xs| - 1];
      assert xs == front + [x];
      HistogramSum(front, n);
      HistogramSnoc(front, x, n);
      SumNatBump(Histogram(front, n), x);
    }
  }

  lemma {:induction false} ZeroSum(n: nat)
    ensures SumNat(Histogram([], n)) == 0
  {
    if n > 0 {
      ZeroSum(n - 1);
      assert Histogram([], n)[..n - 1] == Histogram([], n - 1);
    }
  }

  // ---------------------------------------------------------------------
  // confusionMatrix
  // ---------------------------------------------------------------------

  /** The predictions at the positions whose truth is t, in order; a missing prediction contributes nothing. */
  function PredsFor(pred: seq<nat>, truth: seq<nat>, t: nat): seq<nat>
  {
    if truth == [] then []
    else
      var i := |truth| - 1;
      PredsFor(pred, truth[..i], t) + (if truth[i] == t && i < |pred| then [pred[i]] else [])
  }

  /**
   * The numClasses x numClasses count matrix: cell [t][p] counts the
   * positions i with truth[i] == t and pred[i] == p.
   */
  function Confusion(pred: seq<nat>, truth: seq<nat>, numClasses: nat): (m: Matrix)
    ensures |m| == numClasses && forall t :: 0 <= t < numClasses ==> |m[t]| == numClasses
  {
    seq(numClasses, t requires 0 <= t < numClasses => Histogram(PredsFor(pred, truth, t), numClasses))
  }

  /** m[t][p] += 1 */
  function Bump(m: Matrix, t: nat, p: nat): Matrix
    requires t < |m| && p < |m[t]|
  {
    m[t := m[t][p := m[t][p] + 1]]
  }

  /** Before any pair is counted every cell is zero. */
  lemma ConfusionEmpty(pred: seq<nat>, numClasses: nat)
    ensures Confusion(pred, [], numClasses) == seq(numClasses, _ => seq(numClasses, _ => 0))
  {
    forall t | 0 <= t < numClasses
      ensures Confusion(pred, [], numClasses)[t] == seq(numClasses, _ => 0)
    {
      assert PredsFor(pred, [], t) == [];
    }
  }

  /** Counting position i adds one to cell [truth[i]][pred[i]] and changes nothing else; a missing or out-of-range prediction adds nothing. */
  lemma ConfusionStep(pred: seq<nat>, truth: seq<nat>, t: nat, numClasses: nat)
    requires t < numClasses
    ensures var i := |truth|;
      Confusion(pred, truth + [t], numClasses) ==
        if i < |pred| && pred[i] < numClasses then Bump(Confusion(pred, truth, numClasses), t, pred[i])
        else Confusion(pred, truth, numClasses)
  {
    var i := |truth|;
    var truth' := truth + [t];
    assert truth'[..i] == truth;
    var before, after := Confusion(pred, truth, numClasses), Confusion(pred, truth', numClasses);
    forall u | 0 <= u < numClasses
      ensures after[u] == if u == t && i < |pred| && pred[i] < numClasses then Bump(before, t, pred[i])[u] else before[u]
    {
      if u == t && i < |pred| {
        assert PredsFor(pred, truth', u) == PredsFor(pred, truth, u) + [pred[i]];
        HistogramSnoc(PredsFor(pred, truth, u), pred[i], numClasses);
      } else {
        assert PredsFor(pred, truth', u) == PredsFor(pred, truth, u) + [];
        assert PredsFor(pred, truth, u) + [] == PredsFor(pred, truth, u);
      }
    }
  }

  /**
   * confusionMatrix: counts pred/truth pairs over the indices of truth.
   * A truth value outside [0, numClasses) selects no row, and the update
   * then throws a TypeError.
   */
  method ConfusionMatrix(pred: seq<nat>, truth: seq<nat>, numClasses: nat) returns (r: Result<Matrix>)
    ensures r.Ok? <==> forall i :: 0 <= i < |truth| ==> truth[i] < numClasses
    ensures r.Ok? ==> r.value == Confusion(pred, truth, numClasses)
  {
    var m := seq(numClasses, _ => seq(numClasses, _ => 0));
    ConfusionEmpty(pred, numClasses);
    for i := 0 to |truth|
      invariant m == Confusion(pred, truth[..i], numClasses)
      invariant forall j :: 0 <= j < i ==> truth[j] < numClasses
    {
      var t := truth[i];
      if t >= numClasses {
        return Err("TypeError: Cannot read properties of undefined");
      }
      ConfusionStep(pred, truth[..i], t, numClasses);
      assert truth[..i + 1] == truth[..i] + [t];
      if i < |pred| && pred[i] < numClasses {
        m := Bump(m, t, pred[i]);
      }
    }
    assert truth[..|truth|] == truth;
    r := Ok(m);
  }

  lemma {:induction false} PredsForLength(pred: seq<nat>, truth: seq<nat>, t: nat)
    requires |pred| >= |truth|
    ensures |PredsFor(pred, truth, t)| == CountOf(truth, t)
    decreases |truth|
  {
    if truth != [] {
      PredsForLength(pred, truth[..|truth| - 1], t);
    }
  }

  lemma {:induction false} PredsForInRange(pred: seq<nat>, truth: seq<nat>, t: nat, n: nat)
    requires forall i :: 0 <= i < |truth| && i < |pred| ==> pred[i] < n
    ensures forall k :: 0 <= k < |PredsFor(pred, truth, t)| ==> PredsFor(pred, truth, t)[k] < n
    decreases |truth|
  {
    if truth != [] {
      PredsForInRange(pred, truth[..|truth| - 1], t, n);
    }
  }

  /** With every prediction present and in range, row t sums to the number of samples whose truth is t. */
  lemma RowSum(pred: seq<nat>, truth: seq<nat>, numClasses: nat, t: nat)
    requires t < numClasses && |pred| >= |truth|
    requires forall i :: 0 <= i < |truth| ==> pred[i] < numClasses
    ensures SumNat(Confusion(pred, truth, numClasses)[t]) == CountOf(truth, t)
  {
    PredsForInRange(pred, truth, t, numClasses);
    HistogramSum(PredsFor(pred, truth, t), numClasses);
    PredsForLength(pred, truth, t);
  }

  /** With every index in range, the cells of the matrix add up to |truth|. */
  lemma TotalCount(pred: seq<nat>, truth: seq<nat>, numClasses: nat)
    requires |pred| >= |truth|
    requires forall i :: 0 <= i < |truth| ==> truth[i] < numClasses && pred[i] < numClasses
    ensures SumNat(seq(numClasses, t requires 0 <= t < numClasses => SumNat(Confusion(pred, truth, numClasses)[t]))) == |truth|
  {
    var rowSums := seq(numClasses, t requires 0 <= t < numClasses => SumNat(Confusion(pred, truth, numClasses)[t]));
    forall t | 0 <= t < numClasses
      ensures rowSums[t] == Histogram(truth, numClasses)[t]
    {
      RowSum(pred, truth, numClasses, t);
    }
    assert rowSums == Histogram(truth, numClasses);
    HistogramSum(truth, numClasses);
  }

  lemma {:induction false} PredsForPrefix(pred: seq<nat>, extra: seq<nat>, truth: seq<nat>, t: nat)
    requires |pred| >= |truth|
    ensures PredsFor(pred + extra, truth, t) == PredsFor(pred, truth, t)
    decreases |truth|
  {
    if truth != [] {
      PredsForPrefix(pred, extra, truth[..|truth| - 1], t);
      assert (pred + extra)[|truth| - 1] == pred[|truth| - 1];
    }
  }

  /** Predictions beyond the length of truth are never read. */
  lemma ExtraPredictionsIgnored(pred: seq<nat>, extra: seq<nat>, truth: seq<nat>, numClasses: nat)
    requires |pred| >= |truth|
    ensures Confusion(pred + extra, truth, numClasses) == Confusion(pred, truth, numClasses)
  {
    forall t | 0 <= t < numClasses
      ensures PredsFor(pred + extra, truth, t) == PredsFor(pred, truth, t)
    {
      PredsForPrefix(pred, extra, truth, t);
    }
  }

  // ---------------------------------------------------------------------
  // renderTrainingSummary's `last`
  // ---------------------------------------------------------------------

  /** last(arr): the final element of a present, non-empty array, otherwise undefined. */
  function Last<T>(arr: Option<seq<T>>): (r: Option<T>)
    ensures r.Some? <==> arr.Some? && |arr.value| > 0
  {
    if arr.Some? && |arr.value| > 0 then Some(arr.value[|arr.value| - 1]) else None
  }

  lemma LastOfSnoc<T>(s: seq<T>, x: T)
    ensures Last(Some(s + [x])) == Some(x)
  {
  }

  /** The training history as recorded by the fit callbacks; any series may be absent. */
  datatype History = History(loss: Option<seq<real>>, acc: Option<seq<real>>, accuracy: Option<seq<real>>,
                             valLoss: Option<seq<real>>, valAcc: Option<seq<real>>, valAccuracy: Option<seq<real>>)

  /** a || b on arrays: an array, even an empty one, is truthy. */
  function Or<T>(a: Option<seq<T>>, b: Option<seq<T>>): Option<seq<T>>
  {
    if a.Some? then a else b
  }

  /** v is the final value a summary line shows for series: present exactly when the series has an element, and then its last one. */
  predicate ShowsFinal(v: Option<real>, series: Option<seq<real>>)
  {
    && (v.Some? <==> series.Some? && series.value != [])
    && (v.Some? ==> v.value == series.value[|series.value| - 1])
  }

  /**
   * The four final values shown by the training summary: loss, accuracy,
   * validation loss, validation accuracy; each accuracy comes from the
   * short-named series when it is recorded, and from the long-named one
   * only when the short one is absent.
   */
  function FinalMetrics(h: History): (r: (Option<real>, Option<real>, Option<real>, Option<real>))
    ensures ShowsFinal(r.0, h.loss)
    ensures h.acc.Some? ==> ShowsFinal(r.1, h.acc)
    ensures h.acc.None? ==> ShowsFinal(r.1, h.accuracy)
    ensures ShowsFinal(r.2, h.valLoss)
    ensures h.valAcc.Some? ==> ShowsFinal(r.3, h.valAcc)
    ensures h.valAcc.None? ==> ShowsFinal(r.3, h.valAccuracy)
  {
    (Last(h.loss), Last(Or(h.acc, h.accuracy)), Last(h.valLoss), Last(Or(h.valAcc, h.valAccuracy)))
  }

  /** The `accuracy` series is read only when `acc` is absent: an empty `acc` hides it. */
  lemma AccuracyFallback(h: History)
    ensures h.acc.None? ==> FinalMetrics(h).1 == Last(h.accuracy)
    ensures h.acc.Some? ==> FinalMetrics(h).1 == Last(h.acc)
    ensures h.acc == Some([]) ==> FinalMetrics(h).1.None?
  {
  }

  /** The `val_accuracy` series is read only when `val_acc` is absent: an empty `val_acc` hides it. */
  lemma ValAccuracyFallback(h: History)
    ensures h.valAcc.None? ==> FinalMetrics(h).3 == Last(h.valAccuracy)
    ensures h.valAcc.Some? ==> FinalMetrics(h).3 == Last(h.valAcc)
    ensures h.valAcc == Some([]) ==> FinalMetrics(h).3.None?
  {
  }
}

=== FILE: mnist_app.dfy ===
/**
 * The digit-denoising app's evaluation helpers and reset handler: the
 * 10 x 10 confusion matrix, per-class accuracy, and the state cleared by
 * the reset button. Models are opaque handles to the TensorFlow.js runtime.
 */
module MnistApp {
  import opened Common
  import opened Metrics
  import MnistLoader

  const NumDigits: nat := 10

  /** A handle to a TensorFlow.js model. */
  datatype Model = Model(id: nat)

  /** The app object: its loader, current model and loaded data. */
  class App {
    var dataLoader: MnistLoader.MnistDataLoader
    var model: Option<Model>
    var isTraining: bool
    var trainData: Option<MnistLoader.MnistData>
    var testData: Option<MnistLoader.MnistData>

    constructor ()
      ensures fresh(dataLoader) && dataLoader.trainData.None? && dataLoader.testData.None?
      ensures model.None? && !isTraining && trainData.None? && testData.None?
    {
      dataLoader := new MnistLoader.MnistDataLoader();
      model := None;
      isTraining := false;
      trainData := None;
      testData := None;
    }

    /** onReset: disposes the model and the loader's data and forgets everything loaded. */
    method OnReset()
      modifies this, dataLoader
      ensures model.None? && trainData.None? && testData.None?
      ensures dataLoader == old(dataLoader) && dataLoader.trainData.None? && dataLoader.testData.None?
      ensures isTraining == old(isTraining)
    {
      if model.Some? {
        model := None;
      }
      dataLoader.Dispose();
      trainData := None;
      testData := None;
    }

    /**
     * createConfusionMatrix: counts over the indices of the predictions. A
     * missing or out-of-range true label selects no row and the update
     * throws a TypeError.
     */
    static method CreateConfusionMatrix(pred: seq<nat>, truth: seq<nat>) returns (r: Result<Matrix>)
      ensures r.Ok? <==> |truth| >= |pred| && forall i :: 0 <= i < |pred| ==> truth[i] < NumDigits
      ensures r.Ok? ==> r.value == Confusion(pred, truth[..|pred|], NumDigits)
    {
      var matrix := seq(NumDigits, _ => seq(NumDigits, _ => 0));
      ConfusionEmpty(pred, NumDigits);
      for i := 0 to |pred|
        invariant i <= |truth|
        invariant matrix == Confusion(pred, truth[..i], NumDigits)
        invariant forall j :: 0 <= j < i ==> truth[j] < NumDigits
      {
        if i >= |truth| || truth[i] >= NumDigits {
          return Err("TypeError: Cannot read properties of undefined");
        }
        var trueVal := truth[i];
        ConfusionPrefixStep(pred, truth, i);
        if pred[i] < NumDigits {
          matrix := Bump(matrix, trueVal, pred[i]);
        }
      }
      r := Ok(matrix);
    }

    /**
     * calculatePerClassAccuracy: for each row, the diagonal cell over the
     * row sum, or 0 for an empty row.
     */
    static function CalculatePerClassAccuracy(m: Matrix): (acc: seq<real>)
      requires forall i :: 0 <= i < |m| ==> i < |m[i]|
      ensures |acc| == |m|
      ensures forall i :: 0 <= i < |m| ==> 0.0 <= acc[i] <= 1.0
      ensures forall i :: 0 <= i < |m| && SumNat(m[i]) == 0 ==> acc[i] == 0.0
    {
      seq(|m|, i requires 0 <= i < |m| => ClassAccuracy(m[i], i))
    }
  }

  lemma ConfusionPrefixStep(pred: seq<nat>, truth: seq<nat>, i: nat)
    requires i < |pred| && i < |truth| && truth[i] < NumDigits
    ensures Confusion(pred, truth[..i + 1], NumDigits) ==
      if pred[i] < NumDigits then Bump(Confusion(pred, truth[..i], NumDigits), truth[i], pred[i])
      else Confusion(pred, truth[..i], NumDigits)
  {
    ConfusionStep(pred, truth[..i], truth[i], NumDigits);
    assert truth[..i + 1] == truth[..i] + [truth[i]];
  }

  lemma {:induction false} CellAtMostSum(row: seq<nat>, j: nat)
    requires j < |row|
    ensures row[j] <= SumNat(row)
    decreases |row|
  {
    if j < |row| - 1 {
      CellAtMostSum(row[..|row| - 1], j);
    }
  }

  /** One row's accuracy: correct / total, or 0 when total is 0. */
  function ClassAccuracy(row: seq<nat>, i: nat): (a: real)
    requires i < |row|
    ensures 0.0 <= a <= 1.0
    ensures SumNat(row) == 0 ==> a == 0.0
    ensures SumNat(row) > 0 ==> a * SumNat(row) as real == row[i] as real
  {
    var correct := row[i];
    var total := SumNat(row);
    CellAtMostSum(row, i);
    if total > 0 then
      DivAtMost(correct as real, total as real, 1.0);
      correct as real / total as real
    else 0.0
  }

  /**
   * On a confusion matrix, class t's value is the share of the samples of
   * true class t that were predicted as t.
   */
  lemma PerClassIsRecall(pred: seq<nat>, truth: seq<nat>, t: nat)
    requires t < NumDigits && |pred| >= |truth|
    requires forall i :: 0 <= i < |truth| ==> pred[i] < NumDigits
    ensures var acc := App.CalculatePerClassAccuracy(Confusion(pred, truth, NumDigits));
      && (CountOf(truth, t) == 0 ==> acc[t] == 0.0)
      && (CountOf(truth, t) > 0 ==> acc[t] == Confusion(pred, truth, NumDigits)[t][t] as real / CountOf(truth, t) as real)
  {
    RowSum(pred, truth, NumDigits, t);
  }

  /** With every true label present and in range, the matrix cells add up to the number of predictions. */
  lemma ConfusionTotal(pred: seq<nat>, truth: seq<nat>)
    requires |truth| >= |pred|
    requires forall i :: 0 <= i < |pred| ==> truth[i] < NumDigits && pred[i] < NumDigits
    ensures var m := Confusion(pred, truth[..|pred|], NumDigits);
      SumNat(seq(NumDigits, t requires 0 <= t < NumDigits => SumNat(m[t]))) == |pred|
  {
    TotalCount(pred, truth[..|pred|], NumDigits);
  }
}

=== FILE: mnist_loader.dfy ===
/**
 * The MNIST CSV loader of the digit-denoising app: the row filter of
 * loadCSVFile, the train/validation split by index arithmetic, and the
 * stored train/test data that dispose clears. Tensors are modelled as the
 * row sequences they are built from; Number() is the oracle `num`, whose
 * None stands for NaN.
 */
module MnistLoader {
  import opened Common

  /** A JavaScript number read by Number(): None is NaN. */
  type Num = Option<real>

  /** The resolved value of loadCSVFile: labels, pixel rows and the row count. */
  datatype MnistData = MnistData(labels: seq<Num>, pixels: seq<seq<Num>>, count: nat)

  const FieldsPerRow: nat := 785
  const PixelsPerImage: nat := 784

  /** content.split('\n').filter(line => line.trim() !== '') */
  function NonBlankLines(lines: seq<string>): (r: seq<string>)
    ensures |r| <= |lines|
    ensures forall i :: 0 <= i < |r| ==> Trim(r[i]) != "" && r[i] in lines
  {
    if lines == [] then []
    else
      var last := lines[|lines| - 1];
      NonBlankLines(lines[..|lines| - 1]) + (if Trim(last) != "" then [last] else [])
  }

  /** line.split(',').map(Number) */
  function Values(line: string, num: string -> Num): (vs: seq<Num>)
    ensures |vs| == |Split(line, ',')|
  {
    var parts := Split(line, ',');
    seq(|parts|, i requires 0 <= i < |parts| => num(parts[i]))
  }

  /** The value rows that have exactly 785 fields, in line order. */
  function KeptRows(lines: seq<string>, num: string -> Num): (rows: seq<seq<Num>>)
    ensures |rows| <= |lines|
    ensures forall i :: 0 <= i < |rows| ==> |rows[i]| == FieldsPerRow
  {
    if lines == [] then []
    else
      var vs := Values(lines[|lines| - 1], num);
      KeptRows(lines[..|lines| - 1], num) + (if |vs| == FieldsPerRow then [vs] else [])
  }

  /** The loop of loadCSVFile over the non-blank lines: label and pixels of every kept row. */
  method CollectRows(lines: seq<string>, num: string -> Num) returns (labels: seq<Num>, pixels: seq<seq<Num>>)
    ensures |labels| == |pixels| == |KeptRows(lines, num)|
    ensures forall i :: 0 <= i < |labels| ==>
      labels[i] == KeptRows(lines, num)[i][0] && pixels[i] == KeptRows(lines, num)[i][1..]
  {
    labels, pixels := [], [];
    for t := 0 to |lines|
      invariant |labels| == |pixels| == |KeptRows(lines[..t], num)|
      invariant forall i :: 0 <= i < |labels| ==>
        labels[i] == KeptRows(lines[..t], num)[i][0] && pixels[i] == KeptRows(lines[..t], num)[i][1..]
    {
      ghost var before := KeptRows(lines[..t], num);
      assert lines[..t + 1][..t] == lines[..t];
      var values := Values(lines[t], num);
      assert KeptRows(lines[..t + 1], num) == before + (if |values| == FieldsPerRow then [values] else []);
      if |values| != FieldsPerRow {
        continue;
      }
      labels := labels + [values[0]];
      pixels := pixels + [values[1..]];
    }
    assert lines[..|lines|] == lines;
  }

  /**
   * loadCSVFile: keeps the non-blank lines with exactly 785 fields, taking
   * field 0 as the label and fields 1..784 as the pixels; rejects when no
   * line qualifies.
   */
  method LoadCSVFile(content: string, num: string -> Num) returns (r: Result<MnistData>)
    ensures var rows := KeptRows(NonBlankLines(Split(content, '\n')), num);
      && (r.Err? <==> rows == [])
      && (r.Err? ==> r.message == "No valid data found in file")
      && (r.Ok? ==> r.value.count == |rows| == |r.value.labels| == |r.value.pixels|
                    && (forall i :: 0 <= i < |rows| ==> r.value.labels[i] == rows[i][0] && r.value.pixels[i] == rows[i][1..]))
    ensures r.Ok? ==> forall i :: 0 <= i < |r.value.pixels| ==> |r.value.pixels[i]| == PixelsPerImage
  {
    var lines := NonBlankLines(Split(content, '\n'));
    var labels, pixels := CollectRows(lines, num);
    if |labels| == 0 {
      return Err("No valid data found in file");
    }
    r := Ok(MnistData(labels, pixels, |labels|));
  }

  /** A whitespace-only line never reaches the field check. */
  lemma BlankLineDropped(lines: seq<string>, blank: string)
    requires IsBlank(blank)
    ensures NonBlankLines(lines + [blank]) == NonBlankLines(lines)
  {
    assert (lines + [blank])[..|lines|] == lines;
  }

  lemma {:induction false} KeptRowsAppend(a: seq<string>, b: seq<string>, num: string -> Num)
    ensures KeptRows(a + b, num) == KeptRows(a, num) + KeptRows(b, num)
    decreases |b|
  {
    if b == [] {
      assert a + b == a;
    } else {
      KeptRowsAppend(a, b[..|b| - 1], num);
      assert (a + b)[..|a + b| - 1] == a + b[..|b| - 1];
    }
  }

  /** A line is kept exactly when it has 785 fields. */
  lemma KeptRowsOne(line: string, num: string -> Num)
    ensures KeptRows([line], num) == if |Split(line, ',')| == FieldsPerRow then [Values(line, num)] else []
  {
    assert [line][..0] == [];
  }

  /** The two parts of splitTrainVal, for the images and for the one-hot labels. */
  datatype TrainVal<X, Y> = TrainVal(trainXs: seq<X>, trainYs: seq<Y>, valXs: seq<X>, valYs: seq<Y>)

  /** Math.floor(n * valRatio) */
  function NumVal(n: nat, valRatio: real): (m: nat)
    requires 0.0 <= valRatio <= 1.0
    ensures m <= n
    ensures m as real <= n as real * valRatio < m as real + 1.0
  {
    FractionOf(valRatio, n as real);
    assert 0.0 <= valRatio * n as real <= n as real;
    (n as real * valRatio).Floor
  }

  /**
   * splitTrainVal: numVal = floor(n * valRatio) rows at the end become the
   * validation set, the rows before them the training set, unshuffled.
   * The source's default ratio of 0.1 is not a default here: its one
   * caller in the app passes 0.1 explicitly.
   */
  function SplitTrainVal<X, Y>(xs: seq<X>, ys: seq<Y>, valRatio: real): (r: TrainVal<X, Y>)
    requires |ys| == |xs| && 0.0 <= valRatio <= 1.0
    ensures |r.valXs| == |r.valYs| == NumVal(|xs|, valRatio)
    ensures |r.trainXs| == |r.trainYs| == |xs| - NumVal(|xs|, valRatio)
    ensures r.trainXs + r.valXs == xs && r.trainYs + r.valYs == ys
  {
    var numVal := NumVal(|xs|, valRatio);
    var numTrain := |xs| - numVal;
    assert xs[..numTrain] + xs[numTrain..] == xs;
    assert ys[..numTrain] + ys[numTrain..] == ys;
    TrainVal(xs[..numTrain], ys[..numTrain], xs[numTrain..], ys[numTrain..])
  }

  /** Image i and its label stay paired on the same side of the split. */
  lemma SplitKeepsPairs<X, Y>(xs: seq<X>, ys: seq<Y>, valRatio: real, i: nat)
    requires |ys| == |xs| && 0.0 <= valRatio <= 1.0 && i < |xs|
    ensures var r := SplitTrainVal(xs, ys, valRatio);
      if i < |r.trainXs| then r.trainXs[i] == xs[i] && r.trainYs[i] == ys[i]
      else r.valXs[i - |r.trainXs|] == xs[i] && r.valYs[i - |r.trainXs|] == ys[i]
  {
  }

  /** The loader object: the last loaded training and test data. */
  class MnistDataLoader {
    var trainData: Option<MnistData>
    var testData: Option<MnistData>

    constructor ()
      ensures trainData.None? && testData.None?
    {
      trainData := None;
      testData := None;
    }

    /** loadTrainFromFiles: stores the loaded data; a rejected load leaves the field as it was. */
    method LoadTrainFromFiles(content: string, num: string -> Num) returns (r: Result<MnistData>)
      modifies this
      ensures r.Ok? ==> trainData == Some(r.value)
      ensures r.Err? ==> trainData == old(trainData)
      ensures testData == old(testData)
    {
      r := LoadCSVFile(content, num);
      if r.Ok? {
        trainData := Some(r.value);
      }
    }

    /** loadTestFromFiles: stores the clean test data (the noisy copy is not modelled). */
    method LoadTestFromFiles(content: string, num: string -> Num) returns (r: Result<MnistData>)
      modifies this
      ensures r.Ok? ==> testData == Some(r.value)
      ensures r.Err? ==> testData == old(testData)
      ensures trainData == old(trainData)
    {
      r := LoadCSVFile(content, num);
      if r.Ok? {
        testData := Some(r.value);
      }
    }

    /** dispose: both stored data sets are released and cleared. */
    method Dispose()
      modifies this
      ensures trainData.None? && testData.None?
    {
      if trainData.Some? {
        trainData := None;
      }
      if testData.Some? {
        testData := None;
      }
    }
  }
}

=== FILE: shapes.dfy ===
/**
 * The shape sampler of the point-cloud demo: pyramid, box and cylinder
 * generators, per-point noise and jitter, and the centroid translation that
 * ends every generated cloud. Coordinates are reals; Math.random is the
 * uniform stream `rand`, the Box–Muller normal generator is the stream
 * `gauss`, and the cylinder's cosine/sine pair is the oracle `circle`.
 */
module Shapes {
  import opened Common

  // ---------------------------------------------------------------------
  // Centroid translation (centerOnly)
  // ---------------------------------------------------------------------

  /** 0, 1, 2 for x, y, z. */
  type Axis = a: nat | a < 3

  function Coord(p: Point, axis: Axis): real
  {
    if axis == 0 then p.x else if axis == 1 then p.y else p.z
  }

  /** Sum of one coordinate over a cloud, accumulated in cloud order. */
  function SumAxis(ps: seq<Point>, axis: Axis): real
  {
    if ps == [] then 0.0 else SumAxis(ps[..|ps| - 1], axis) + Coord(ps[|ps| - 1], axis)
  }

  function Centroid(ps: seq<Point>): Point
    requires |ps| > 0
  {
    var n := |ps| as real;
    Point(SumAxis(ps, 0) / n, SumAxis(ps, 1) / n, SumAxis(ps, 2) / n)
  }

  /** Every point minus the same vector c. */
  function Translate(ps: seq<Point>, c: Point): (r: seq<Point>)
    ensures |r| == |ps|
  {
    seq(|ps|, i requires 0 <= i < |ps| => Point(ps[i].x - c.x, ps[i].y - c.y, ps[i].z - c.z))
  }

  /**
   * centerOnly: an empty cloud comes back as it is; otherwise every point
   * is moved by minus the centroid, accumulated in one pass.
   */
  method CenterOnly(points: seq<Point>) returns (r: seq<Point>)
    ensures |r| == |points|
    ensures points == [] ==> r == points
    ensures points != [] ==> r == Translate(points, Centroid(points))
  {
    if |points| == 0 {
      return points;
    }
    var cx, cy, cz := 0.0, 0.0, 0.0;
    var i := 0;
    while i < |points|
      invariant 0 <= i <= |points|
      invariant cx == SumAxis(points[..i], 0)
      invariant cy == SumAxis(points[..i], 1)
      invariant cz == SumAxis(points[..i], 2)
    {
      assert points[..i + 1][..i] == points[..i];
      cx, cy, cz := cx + points[i].x, cy + points[i].y, cz + points[i].z;
      i := i + 1;
    }
    assert points[..i] == points;
    var n := |points| as real;
    cx, cy, cz := cx / n, cy / n, cz / n;
    r := Translate(points, Point(cx, cy, cz));
  }

  lemma {:induction false} SumAxisTranslate(ps: seq<Point>, c: Point, axis: Axis)
    ensures SumAxis(Translate(ps, c), axis) == SumAxis(ps, axis) - |ps| as real * Coord(c, axis)
  {
    SumAxisShift(ps, c, axis);
    TimesIsProduct(|ps|, Coord(c, axis));
  }

  /** n copies of v added up. */
  function Times(n: nat, v: real): real
  {
    if n == 0 then 0.0 else Times(n - 1, v) + v
  }

  lemma {:induction false} TimesIsProduct(n: nat, v: real)
    ensures Times(n, v) == n as real * v
  {
    if n > 0 {
      TimesIsProduct(n - 1, v);
      assert n as real * v == (n - 1) as real * v + v;
    }
  }

  /** Moving every point by minus c takes c off the axis sum once per point. */
  lemma {:induction false} SumAxisShift(ps: seq<Point>, c: Point, axis: Axis)
    ensures SumAxis(Translate(ps, c), axis) == SumAxis(ps, axis) - Times(|ps|, Coord(c, axis))
  {
    if ps != [] {
      var front := ps[..|ps| - 1];
      var t := Translate(ps, c);
      TranslatePrefix(ps, c);
      SumAxisShift(front, c, axis);
      assert Coord(t[|ps| - 1], axis) == Coord(ps[|ps| - 1], axis) - Coord(c, axis);
    }
  }

  lemma TranslatePrefix(ps: seq<Point>, c: Point)
    requires ps != []
    ensures Translate(ps, c)[..|ps| - 1] == Translate(ps[..|ps| - 1], c)
  {
  }

  /** Over the reals, a centred cloud sums to zero on every axis. */
  lemma CenteredSumsToZero(ps: seq<Point>, axis: Axis)
    requires |ps| > 0
    ensures SumAxis(Translate(ps, Centroid(ps)), axis) == 0.0
  {
    var c := Centroid(ps);
    SumAxisTranslate(ps, c, axis);
    var n := |ps| as real;
    var total := SumAxis(ps, axis);
    assert Coord(c, axis) == total / n;
    MulDivCancel(total, n);
  }

  lemma MulDivCancel(a: real, n: real)
    requires n > 0.0
    ensures n * (a / n) == a
  {
  }

  // ---------------------------------------------------------------------
  // Pyramid: square base [-1,1]^2 at z = 0, apex (0, 0, height)
  // ---------------------------------------------------------------------

  /** Base corners in the source's order; face i and base edge i run from corner i to corner i+1. */
  function CornerX(i: nat): real { if i % 4 == 0 || i % 4 == 3 then -1.0 else 1.0 }
  function CornerY(i: nat): real { if i % 4 < 2 then -1.0 else 1.0 }

  /**
   * The lateral surface of the pyramid, base edges included: the height of
   * a point falls linearly from h at the axis to 0 at the square's border.
   */
  predicate OnPyramidSurface(p: Point, h: real)
  {
    Abs(p.x) <= 1.0 && Abs(p.y) <= 1.0 && p.z == h * (1.0 - Max(Abs(p.x), Abs(p.y)))
  }

  lemma PyramidHeightBounds(p: Point, h: real)
    requires OnPyramidSurface(p, h) && h >= 0.0
    ensures 0.0 <= p.z <= h
  {
    var m := 1.0 - Max(Abs(p.x), Abs(p.y));
    assert 0.0 <= m <= 1.0;
    assert h - p.z == h * (1.0 - m);
  }

  /** A face point: barycentric (u, v, w) over apex, corner f and corner f+1, folded when u+v > 1. */
  function FacePoint(f: nat, u0: real, v0: real, h: real): (p: Point)
    requires f < 4 && 0.0 <= u0 < 1.0 && 0.0 <= v0 < 1.0
    ensures OnPyramidSurface(p, h)
  {
    var (u, v) := if u0 + v0 > 1.0 then (1.0 - u0, 1.0 - v0) else (u0, v0);
    var w := 1.0 - u - v;
    FaceOnSurface(f, u, v, w, h);
    Point(0.0 * u + CornerX(f) * v + CornerX(f + 1) * w,
          0.0 * u + CornerY(f) * v + CornerY(f + 1) * w,
          h * u + 0.0 * v + 0.0 * w)
  }

  lemma FaceOnSurface(f: nat, u: real, v: real, w: real, h: real)
    requires f < 4 && u >= 0.0 && v >= 0.0 && w >= 0.0 && u + v + w == 1.0
    ensures OnPyramidSurface(Point(0.0 * u + CornerX(f) * v + CornerX(f + 1) * w,
                                   0.0 * u + CornerY(f) * v + CornerY(f + 1) * w,
                                   h * u + 0.0 * v + 0.0 * w), h)
  {
    var x := 0.0 * u + CornerX(f) * v + CornerX(f + 1) * w;
    var y := 0.0 * u + CornerY(f) * v + CornerY(f + 1) * w;
    if f == 0 {
      FaceCoords(-1.0, 1.0, -1.0, -1.0, u, v, w);
    } else if f == 1 {
      FaceCoords(1.0, 1.0, -1.0, 1.0, u, v, w);
    } else if f == 2 {
      FaceCoords(1.0, -1.0, 1.0, 1.0, u, v, w);
    } else {
      FaceCoords(-1.0, -1.0, 1.0, -1.0, u, v, w);
    }
    FaceHeight(Point(x, y, h * u + 0.0 * v + 0.0 * w), h, u);
  }

  /** Two adjacent corners mixed with weights v and w lie on the square's border scaled by v + w. */
  lemma FaceCoords(x0: real, x1: real, y0: real, y1: real, u: real, v: real, w: real)
    requires (x0, x1, y0, y1) in {(-1.0, 1.0, -1.0, -1.0), (1.0, 1.0, -1.0, 1.0), (1.0, -1.0, 1.0, 1.0), (-1.0, -1.0, 1.0, -1.0)}
    requires u >= 0.0 && v >= 0.0 && w >= 0.0 && u + v + w == 1.0
    ensures var x, y := 0.0 * u + x0 * v + x1 * w, 0.0 * u + y0 * v + y1 * w;
      Abs(x) <= 1.0 && Abs(y) <= 1.0 && Max(Abs(x), Abs(y)) == 1.0 - u
  {
  }

  lemma FaceHeight(p: Point, h: real, u: real)
    requires Abs(p.x) <= 1.0 && Abs(p.y) <= 1.0 && Max(Abs(p.x), Abs(p.y)) == 1.0 - u
    requires p.z == h * u
    ensures OnPyramidSurface(p, h)
  {
    var m := Max(Abs(p.x), Abs(p.y));
    assert 1.0 - m == u;
  }

  /** A base-edge point: t of the way from corner e to corner e+1, at z = 0. */
  function EdgePoint(e: nat, t: real, h: real): (p: Point)
    requires e < 4 && 0.0 <= t < 1.0
    ensures p.z == 0.0
    ensures OnPyramidSurface(p, h)
  {
    var x0, y0 := CornerX(e), CornerY(e);
    var x1, y1 := CornerX(e + 1), CornerY(e + 1);
    var p := Point(x0 + t * (x1 - x0), y0 + t * (y1 - y0), 0.0);
    assert Max(Abs(p.x), Abs(p.y)) == 1.0;
    p
  }

  /**
   * generatePyramid: pointsCount points; with probability 0.7 on one of the
   * four triangular faces, otherwise on one of the four base edges.
   */
  method GeneratePyramid(pointsCount: nat, height: real, rand: nat -> real, k: nat)
    returns (pts: seq<Point>, k': nat)
    requires IsUniform(rand)
    ensures |pts| == pointsCount
    ensures forall i :: 0 <= i < |pts| ==> OnPyramidSurface(pts[i], height)
    ensures k + 3 * pointsCount <= k' <= k + 4 * pointsCount
  {
    pts := [];
    k' := k;
    var i := 0;
    while i < pointsCount
      invariant 0 <= i <= pointsCount && |pts| == i
      invariant forall j :: 0 <= j < i ==> OnPyramidSurface(pts[j], height)
      invariant k + 3 * i <= k' <= k + 4 * i
    {
      var r := rand(k');
      if r < 0.7 {
        var f := RandomIndex(rand(k' + 1), 4);
        pts := pts + [FacePoint(f, rand(k' + 2), rand(k' + 3), height)];
        k' := k' + 4;
      } else {
        var e := RandomIndex(rand(k' + 1), 4);
        pts := pts + [EdgePoint(e, rand(k' + 2), height)];
        k' := k' + 3;
      }
      i := i + 1;
    }
  }

  // ---------------------------------------------------------------------
  // Box: x, y in [-1, 1], z in [-height/2, height/2]
  // ---------------------------------------------------------------------

  /** Math.round: halves go up. */
  function Round(x: real): real
  {
    (x + 0.5).Floor as real
  }

  lemma RoundUnit(x: real)
    requires -1.0 <= x <= 1.0
    ensures -1.0 <= Round(x) <= 1.0
    ensures Abs(x) == 1.0 ==> Round(x) == x
  {
  }

  /** The box's surface: inside the box and on at least one of its six faces. */
  predicate OnBoxSurface(p: Point, h: real)
  {
    && Abs(p.x) <= 1.0 && Abs(p.y) <= 1.0 && Abs(p.z) <= Abs(h) / 2.0
    && (Abs(p.x) == 1.0 || Abs(p.y) == 1.0 || p.z == h / 2.0 || p.z == -h / 2.0)
  }

  /** Math.random()*2 - 1 lies in [-1, 1). */
  function Signed(u: real): (r: real)
    requires 0.0 <= u < 1.0
    ensures -1.0 <= r < 1.0
  {
    u * 2.0 - 1.0
  }

  /** Math.random()*(zmax - zmin) + zmin with zmin = -h/2, zmax = h/2. */
  function Height(u: real, h: real): (z: real)
    requires 0.0 <= u < 1.0
    ensures Abs(z) <= Abs(h) / 2.0
  {
    var zmin, zmax := -h / 2.0, h / 2.0;
    assert u * (zmax - zmin) + zmin == (u - 0.5) * h;
    AbsMul(u - 0.5, h);
    MulMonotone(Abs(u - 0.5), 0.5, Abs(h));
    u * (zmax - zmin) + zmin
  }

  /** One box point and the cursor after its draws: a random face, then a 40% chance of snapping one coordinate. */
  function BoxPoint(h: real, rand: nat -> real, k: nat): (res: (Point, nat))
    requires IsUniform(rand)
    ensures OnBoxSurface(res.0, h)
    ensures k + 4 <= res.1 <= k + 6
  {
    var zmin, zmax := -h / 2.0, h / 2.0;
    var f := RandomIndex(rand(k), 6);
    var p :=
      if f < 2 then Point(Signed(rand(k + 1)), Signed(rand(k + 2)), if f == 0 then zmax else zmin)
      else if f < 4 then Point(if f == 2 then 1.0 else -1.0, Signed(rand(k + 1)), Height(rand(k + 2), h))
      else Point(Signed(rand(k + 1)), if f == 4 then 1.0 else -1.0, Height(rand(k + 2), h));
    assert OnBoxSurface(p, h);
    RoundUnit(p.x);
    RoundUnit(p.y);
    if rand(k + 3) < 0.4 then
      if rand(k + 4) < 0.5 then (p.(x := Round(p.x)), k + 5)
      else if rand(k + 5) < 0.5 then (p.(y := Round(p.y)), k + 6)
      else (p.(z := if Abs(p.z - zmin) < Abs(p.z - zmax) then zmin else zmax), k + 6)
    else (p, k + 4)
  }

  /** generateBox: pointsCount points on the box's surface. */
  method GenerateBox(pointsCount: nat, height: real, rand: nat -> real, k: nat)
    returns (pts: seq<Point>, k': nat)
    requires IsUniform(rand)
    ensures |pts| == pointsCount
    ensures forall i :: 0 <= i < |pts| ==> OnBoxSurface(pts[i], height)
    ensures k + 4 * pointsCount <= k' <= k + 6 * pointsCount
  {
    pts := [];
    k' := k;
    var i := 0;
    while i < pointsCount
      invariant 0 <= i <= pointsCount && |pts| == i
      invariant forall j :: 0 <= j < i ==> OnBoxSurface(pts[j], height)
      invariant k + 4 * i <= k' <= k + 6 * i
    {
      var (p, next) := BoxPoint(height, rand, k');
      pts := pts + [p];
      k' := next;
      i := i + 1;
    }
  }

  // ---------------------------------------------------------------------
  // Cylinder: radius 1, z in [-height/2, height/2]
  // ---------------------------------------------------------------------

  /** The cylinder's height band; x and y come from the cosine/sine oracle. */
  predicate InCylinderBand(p: Point, h: real)
  {
    Abs(p.z) <= Abs(h) / 2.0
  }

  /** (x, y) is a value of the cosine/sine oracle at some draw. */
  ghost predicate OnCircle(p: Point, circle: real -> (real, real))
  {
    exists u :: 0.0 <= u < 1.0 && circle(u) == (p.x, p.y)
  }

  /**
   * generateCylinder: 75% of the points on the side, the rest on one of the
   * two caps. circle(u) stands for (cos 2πu, sin 2πu).
   */
  method GenerateCylinder(pointsCount: nat, height: real, rand: nat -> real, k: nat, circle: real -> (real, real))
    returns (pts: seq<Point>, k': nat)
    requires IsUniform(rand)
    ensures |pts| == pointsCount
    ensures forall i :: 0 <= i < |pts| ==> InCylinderBand(pts[i], height)
    ensures forall i :: 0 <= i < |pts| ==> OnCircle(pts[i], circle)
    ensures k' == k + 3 * pointsCount
  {
    var zmin, zmax := -height / 2.0, height / 2.0;
    pts := [];
    k' := k;
    var i := 0;
    while i < pointsCount
      invariant 0 <= i <= pointsCount && |pts| == i && k' == k + 3 * i
      invariant forall j :: 0 <= j < i ==> InCylinderBand(pts[j], height)
      invariant forall j :: 0 <= j < i ==> OnCircle(pts[j], circle)
    {
      var r := rand(k');
      var theta := rand(k' + 1);
      var (c, s) := circle(theta);
      var z := if r < 0.75 then Height(rand(k' + 2), height)
               else if rand(k' + 2) < 0.5 then zmin else zmax;
      pts := pts + [Point(c, s, z)];
      assert circle(theta) == (pts[i].x, pts[i].y);
      k' := k' + 3;
      i := i + 1;
    }
  }

  // ---------------------------------------------------------------------
  // Perturbation and dispatch (addNoiseJitter, generateShape)
  // ---------------------------------------------------------------------

  /**
   * addNoiseJitter: three uniform jitter draws in [-jitter, jitter), then a
   * normal draw per axis scaled by noise.
   */
  function AddNoiseJitter(p: Point, noise: real, jitter: real, rand: nat -> real, k: nat, gauss: nat -> real, g: nat): (q: Point)
    requires IsUniform(rand)
    ensures noise == 0.0 ==> Abs(q.x - p.x) <= Abs(jitter) && Abs(q.y - p.y) <= Abs(jitter) && Abs(q.z - p.z) <= Abs(jitter)
  {
    var jx := Jitter(rand(k), jitter);
    var jy := Jitter(rand(k + 1), jitter);
    var jz := Jitter(rand(k + 2), jitter);
    Point(p.x + gauss(g) * noise + jx, p.y + gauss(g + 1) * noise + jy, p.z + gauss(g + 2) * noise + jz)
  }

  /** (Math.random()*2 - 1) * jitter: uniform in the band of half-width |jitter|. */
  function Jitter(u: real, jitter: real): (j: real)
    requires 0.0 <= u < 1.0
    ensures Abs(j) <= Abs(jitter)
  {
    var s := Signed(u);
    AbsMul(s, jitter);
    MulMonotone(Abs(s), 1.0, Abs(jitter));
    assert Abs(s * jitter) <= 1.0 * Abs(jitter) == Abs(jitter);
    s * jitter
  }

  /** pts.map(p => addNoiseJitter(p, ...)): the i-th call uses the i-th triple of each stream. */
  function Perturb(pts: seq<Point>, noise: real, jitter: real, rand: nat -> real, k: nat, gauss: nat -> real, g: nat): (r: seq<Point>)
    requires IsUniform(rand)
    ensures |r| == |pts|
  {
    seq(|pts|, i requires 0 <= i < |pts| => AddNoiseJitter(pts[i], noise, jitter, rand, k + 3 * i, gauss, g + 3 * i))
  }

  datatype Generator = PyramidGen | BoxGen | CylinderGen

  /** The switch of generateShape: anything but "pyramid" or "cylinder" gets the box. */
  function Dispatch(shape: string): (gen: Generator)
    ensures gen == PyramidGen <==> shape == "pyramid"
    ensures gen == CylinderGen <==> shape == "cylinder"
    ensures gen == BoxGen <==> shape != "pyramid" && shape != "cylinder"
  {
    match shape
    case "pyramid" => PyramidGen
    case "box" => BoxGen
    case "cylinder" => CylinderGen
    case _ => BoxGen
  }

  predicate InShape(gen: Generator, p: Point, h: real)
  {
    match gen
    case PyramidGen => OnPyramidSurface(p, h)
    case BoxGen => OnBoxSurface(p, h)
    case CylinderGen => InCylinderBand(p, h)
  }

  /**
   * generateShape: run the generator the name selects, perturb every point,
   * then centre. `raw` is the generator's cloud before perturbation.
   */
  method GenerateShape(shape: string, pointsCount: nat, noise: real, jitter: real, height: real,
                       rand: nat -> real, k: nat, gauss: nat -> real, g: nat, circle: real -> (real, real))
    returns (pts: seq<Point>, ghost raw: seq<Point>, ghost kRaw: nat, k': nat, g': nat)
    requires IsUniform(rand)
    ensures |pts| == pointsCount && |raw| == pointsCount
    ensures forall i :: 0 <= i < |raw| ==> InShape(Dispatch(shape), raw[i], height)
    ensures var noisy := Perturb(raw, noise, jitter, rand, kRaw, gauss, g);
      pointsCount > 0 ==> pts == Translate(noisy, Centroid(noisy))
    ensures k <= kRaw && k' == kRaw + 3 * pointsCount && g' == g + 3 * pointsCount
  {
    var cloud: seq<Point>;
    var kg: nat;
    match Dispatch(shape) {
      case PyramidGen => cloud, kg := GeneratePyramid(pointsCount, height, rand, k);
      case BoxGen => cloud, kg := GenerateBox(pointsCount, height, rand, k);
      case CylinderGen => cloud, kg := GenerateCylinder(pointsCount, height, rand, k, circle);
    }
    raw, kRaw := cloud, kg;
    var noisy := Perturb(cloud, noise, jitter, rand, kg, gauss, g);
    pts := CenterOnly(noisy);
    k' := kg + 3 * pointsCount;
    g' := g + 3 * pointsCount;
  }

  /** A generated cloud is centred: each axis sums to zero. */
  lemma GeneratedCloudCentered(pts: seq<Point>, noisy: seq<Point>, axis: Axis)
    requires |noisy| > 0 && pts == Translate(noisy, Centroid(noisy))
    ensures SumAxis(pts, axis) == 0.0
  {
    CenteredSumsToZero(noisy, axis);
  }
}

=== FILE: stocks.dfy ===
/**
 * The stock-price data loader of the multi-stock forecasting app: parseCSV
 * turns a CSV of daily quotes into a symbol -> date -> quote table with the
 * sorted lists of symbols and dates; normalizeData derives per-symbol
 * min-max scaled prices and light features; createSequences cuts sliding
 * windows with binary up/down targets and splits them 80/20 in time order.
 * parseFloat is the oracle `pf`; tensors are the nested sequences they are
 * built from.
 */
module Stocks {
  import opened Common

  // ---------------------------------------------------------------------
  // Order of strings: Array.prototype.sort without a comparator compares
  // strings code unit by code unit, a proper prefix first.
  // ---------------------------------------------------------------------

  predicate CodeLess(a: string, b: string)
    decreases |a|
  {
    if a == [] then b != []
    else b != [] && (a[0] < b[0] || (a[0] == b[0] && CodeLess(a[1..], b[1..])))
  }

  lemma {:induction false} CodeLessIrreflexive(a: string)
    ensures !CodeLess(a, a)
    decreases |a|
  {
    if a != [] {
      CodeLessIrreflexive(a[1..]);
    }
  }

  lemma {:induction false} CodeLessTransitive(a: string, b: string, c: string)
    requires CodeLess(a, b) && CodeLess(b, c)
    ensures CodeLess(a, c)
    decreases |a|
  {
    if a != [] && a[0] == b[0] && b[0] == c[0] {
      CodeLessTransitive(a[1..], b[1..], c[1..]);
    }
  }

  lemma {:induction false} CodeLessTotal(a: string, b: string)
    requires a != b
    ensures CodeLess(a, b) || CodeLess(b, a)
    decreases |a|
  {
    if a != [] && b != [] && a[0] == b[0] {
      assert a == [a[0]] + a[1..] && b == [b[0]] + b[1..];
      CodeLessTotal(a[1..], b[1..]);
    }
  }

  /** Ascending and duplicate-free: what Array.from(set).sort() yields. */
  predicate StrictlySorted(xs: seq<string>)
  {
    forall i, j :: 0 <= i < j < |xs| ==> CodeLess(xs[i], xs[j])
  }

  /** Adds x to a sorted list of distinct strings unless it is already there. */
  function InsertDistinct(x: string, xs: seq<string>): (r: seq<string>)
    ensures forall y :: y in r <==> y == x || y in xs
  {
    if xs == [] then [x]
    else if x == xs[0] then xs
    else if CodeLess(x, xs[0]) then [x] + xs
    else [xs[0]] + InsertDistinct(x, xs[1..])
  }

  lemma {:induction false} InsertDistinctSorted(x: string, xs: seq<string>)
    requires StrictlySorted(xs)
    ensures StrictlySorted(InsertDistinct(x, xs))
    decreases |xs|
  {
    if xs != [] && x != xs[0] {
      var r := InsertDistinct(x, xs);
      if CodeLess(x, xs[0]) {
        forall i, j | 0 <= i < j < |r| ensures CodeLess(r[i], r[j]) {
          if i == 0 && j > 1 {
            CodeLessTransitive(x, xs[0], xs[j - 1]);
          }
        }
      } else {
        CodeLessTotal(x, xs[0]);
        var tail := InsertDistinct(x, xs[1..]);
        InsertDistinctSorted(x, xs[1..]);
        forall i, j | 0 <= i < j < |r| ensures CodeLess(r[i], r[j]) {
          if i == 0 {
            assert r[j] == tail[j - 1] && r[j] in tail;
            if r[j] != x {
              var k :| 0 <= k < |xs[1..]| && xs[1..][k] == r[j];
              assert xs[k + 1] == r[j];
            }
          } else {
            assert r[i] == tail[i - 1] && r[j] == tail[j - 1];
          }
        }
      }
    }
  }

  // ---------------------------------------------------------------------
  // parseCSV
  // ---------------------------------------------------------------------

  /** One day of one stock, every field read by parseFloat. */
  datatype Quote = Quote(open: real, close: real, high: real, low: real, volume: real)

  /** An admitted data row. */
  datatype Row = Row(symbol: string, date: string, quote: Quote)

  /** symbol -> date -> quote, as the nested stocksData objects. */
  type Table = map<string, map<string, Quote>>

  /**
   * The column that row[key] reads after headers.forEach assigned
   * row[header.trim()] = value.trim() over the first n columns: the last one
   * whose trimmed header is key, if any.
   */
  function LastColumn(keys: seq<string>, key: string, n: nat): (c: Option<nat>)
    requires n <= |keys|
    ensures c.Some? ==> c.value < n && keys[c.value] == key
  {
    if n == 0 then None
    else if keys[n - 1] == key then Some(n - 1)
    else LastColumn(keys, key, n - 1)
  }

  /** With no column named key the field is missing (it reads undefined). */
  lemma {:induction false} LastColumnMissing(keys: seq<string>, key: string, n: nat)
    requires n <= |keys|
    ensures LastColumn(keys, key, n).None? <==> forall c :: 0 <= c < n ==> keys[c] != key
  {
    if n > 0 {
      LastColumnMissing(keys, key, n - 1);
    }
  }

  /** Of several columns named key, the last one wins. */
  lemma {:induction false} LastColumnWins(keys: seq<string>, key: string, n: nat, c: nat)
    requires n <= |keys| && c < n
    requires keys[c] == key && forall c' :: c < c' < n ==> keys[c'] != key
    ensures LastColumn(keys, key, n) == Some(c)
  {
    if c < n - 1 {
      LastColumnWins(keys, key, n - 1, c);
    }
  }

  /** The trimmed header names, the keys of every row object. */
  function Keys(headers: seq<string>): (keys: seq<string>)
    ensures |keys| == |headers|
  {
    seq(|headers|, c requires 0 <= c < |headers| => Trim(headers[c]))
  }

  /** row[key]: the trimmed value of the column that key names, or undefined. */
  function Field(headers: seq<string>, values: seq<string>, key: string): string
    requires |values| == |headers|
  {
    var c := LastColumn(Keys(headers), key, |headers|);
    if c.Some? then Trim(values[c.value]) else "undefined"
  }

  /** A line becomes a row exactly when it has as many comma fields as the header line. */
  function RowOf(headers: seq<string>, line: string, pf: string -> real): (r: Option<Row>)
    ensures r.Some? <==> |Split(line, ',')| == |headers|
  {
    var values := Split(line, ',');
    if |values| != |headers| then None
    else
      var field := key => Field(headers, values, key);
      Some(Row(field("Symbol"), field("Date"),
               Quote(pf(field("Open")), pf(field("Close")), pf(field("High")), pf(field("Low")), pf(field("Volume")))))
  }

  /** The rows admitted from lines 1 .. n-1 (line 0 is the header), in order. */
  function RowsUpTo(headers: seq<string>, lines: seq<string>, n: nat, pf: string -> real): (rows: seq<Row>)
    requires n <= |lines|
    ensures |rows| < n || n == 0
  {
    if n <= 1 then []
    else
      var r := RowOf(headers, lines[n - 1], pf);
      RowsUpTo(headers, lines, n - 1, pf) + (if r.Some? then [r.value] else [])
  }

  /** data[symbol][date] = quote, creating the symbol's table when it is missing. */
  function Put(t: Table, r: Row): Table
  {
    t[r.symbol := (if r.symbol in t then t[r.symbol] else map[])[r.date := r.quote]]
  }

  function TableOf(rows: seq<Row>): Table
  {
    if rows == [] then map[] else Put(TableOf(rows[..|rows| - 1]), rows[|rows| - 1])
  }

  /** A symbol has a table exactly when some row names it. */
  lemma {:induction false} TableSymbols(rows: seq<Row>, s: string)
    ensures s in TableOf(rows) <==> exists k :: 0 <= k < |rows| && rows[k].symbol == s
  {
    if rows != [] {
      var front := rows[..|rows| - 1];
      TableSymbols(front, s);
      if s in TableOf(front) {
        var k :| 0 <= k < |front| && front[k].symbol == s;
        assert rows[k].symbol == s;
      }
    }
  }

  /** A (symbol, date) pair has a quote exactly when some row carries that pair. */
  lemma {:induction false} TableEntries(rows: seq<Row>, s: string, d: string)
    ensures (s in TableOf(rows) && d in TableOf(rows)[s])
        <==> exists k :: 0 <= k < |rows| && rows[k].symbol == s && rows[k].date == d
  {
    if rows != [] {
      var front := rows[..|rows| - 1];
      TableEntries(front, s, d);
      if s in TableOf(front) && d in TableOf(front)[s] {
        var k :| 0 <= k < |front| && front[k].symbol == s && front[k].date == d;
        assert rows[k].symbol == s && rows[k].date == d;
      }
    }
  }

  /** A later row with the same symbol and date overwrites an earlier one: the last one counts. */
  lemma {:induction false} LaterRowWins(rows: seq<Row>, k: nat)
    requires k < |rows|
    requires forall k' :: k < k' < |rows| ==> rows[k'].symbol != rows[k].symbol || rows[k'].date != rows[k].date
    ensures rows[k].symbol in TableOf(rows) && rows[k].date in TableOf(rows)[rows[k].symbol]
    ensures TableOf(rows)[rows[k].symbol][rows[k].date] == rows[k].quote
  {
    var front := rows[..|rows| - 1];
    if k < |rows| - 1 {
      LaterRowWins(front, k);
    }
  }

  /** The symbols, and the dates, that the rows name. */
  function SymbolsOf(rows: seq<Row>): set<string>
  {
    if rows == [] then {} else SymbolsOf(rows[..|rows| - 1]) + {rows[|rows| - 1].symbol}
  }

  function DatesOf(rows: seq<Row>): set<string>
  {
    if rows == [] then {} else DatesOf(rows[..|rows| - 1]) + {rows[|rows| - 1].date}
  }

  lemma {:induction false} SymbolsOfRows(rows: seq<Row>, s: string)
    ensures s in SymbolsOf(rows) <==> exists k :: 0 <= k < |rows| && rows[k].symbol == s
  {
    if rows != [] {
      var front := rows[..|rows| - 1];
      SymbolsOfRows(front, s);
      if s in SymbolsOf(front) {
        var k :| 0 <= k < |front| && front[k].symbol == s;
        assert rows[k].symbol == s;
      }
    }
  }

  lemma {:induction false} DatesOfRows(rows: seq<Row>, d: string)
    ensures d in DatesOf(rows) <==> exists k :: 0 <= k < |rows| && rows[k].date == d
  {
    if rows != [] {
      var front := rows[..|rows| - 1];
      DatesOfRows(front, d);
      if d in DatesOf(front) {
        var k :| 0 <= k < |front| && front[k].date == d;
        assert rows[k].date == d;
      }
    }
  }

  lemma RowsUpToStep(headers: seq<string>, lines: seq<string>, i: nat, pf: string -> real)
    requires 1 <= i < |lines|
    ensures var r := RowOf(headers, lines[i], pf);
      RowsUpTo(headers, lines, i + 1, pf) == RowsUpTo(headers, lines, i, pf) + (if r.Some? then [r.value] else [])
  {
  }

  /** One more row: its quote is put in the table, its symbol and date join the sets. */
  lemma RowsSnoc(rows: seq<Row>, row: Row)
    ensures TableOf(rows + [row]) == Put(TableOf(rows), row)
    ensures SymbolsOf(rows + [row]) == SymbolsOf(rows) + {row.symbol}
    ensures DatesOf(rows + [row]) == DatesOf(rows) + {row.date}
  {
    assert (rows + [row])[..|rows|] == rows;
  }

  /**
   * The loop of parseCSV over the data lines: the table of the admitted rows
   * and their symbols and dates, sorted and without duplicates.
   */
  method ReadQuotes(headers: seq<string>, lines: seq<string>, pf: string -> real)
    returns (data: Table, symbols: seq<string>, dates: seq<string>)
    ensures var rows := RowsUpTo(headers, lines, |lines|, pf);
      && data == TableOf(rows)
      && StrictlySorted(symbols) && StrictlySorted(dates)
      && (forall s :: s in symbols <==> s in SymbolsOf(rows))
      && (forall d :: d in dates <==> d in DatesOf(rows))
  {
    data, symbols, dates := map[], [], [];
    if |lines| == 0 {
      return;
    }
    ghost var rows: seq<Row> := [];
    for i := 1 to |lines|
      invariant rows == RowsUpTo(headers, lines, i, pf)
      invariant data == TableOf(rows)
      invariant StrictlySorted(symbols) && StrictlySorted(dates)
      invariant forall s :: s in symbols <==> s in SymbolsOf(rows)
      invariant forall d :: d in dates <==> d in DatesOf(rows)
    {
      var r := RowOf(headers, lines[i], pf);
      RowsUpToStep(headers, lines, i, pf);
      if r.Some? {
        var row := r.value;
        RowsSnoc(rows, row);
        InsertDistinctSorted(row.symbol, symbols);
        InsertDistinctSorted(row.date, dates);
        symbols := InsertDistinct(row.symbol, symbols);
        dates := InsertDistinct(row.date, dates);
        data := Put(data, row);
        rows := rows + [row];
      }
    }
  }

  // ---------------------------------------------------------------------
  // normalizeData
  // ---------------------------------------------------------------------

  datatype Price = OpenPrice | ClosePrice

  function PriceOf(q: Quote, p: Price): real
  {
    if p == OpenPrice then q.open else q.close
  }

  /**
   * A running Math.min / Math.max pair started at Infinity / -Infinity; None
   * stands for the infinite start value.
   */
  datatype Extremes = Extremes(lo: Option<real>, hi: Option<real>)

  function Widen(e: Extremes, x: real): Extremes
  {
    Extremes(Some(if e.lo.Some? then Min(e.lo.value, x) else x),
             Some(if e.hi.Some? then Max(e.hi.value, x) else x))
  }

  /** The extremes of one price over the first n dates that have a quote. */
  function ExtremesUpTo(quotes: map<string, Quote>, dates: seq<string>, p: Price, n: nat): Extremes
    requires n <= |dates|
  {
    if n == 0 then Extremes(None, None)
    else
      var e := ExtremesUpTo(quotes, dates, p, n - 1);
      if dates[n - 1] in quotes then Widen(e, PriceOf(quotes[dates[n - 1]], p)) else e
  }

  /** Every quoted price lies between the extremes, which are finite once a price is seen. */
  lemma {:induction false} ExtremesBound(quotes: map<string, Quote>, dates: seq<string>, p: Price, n: nat, j: nat)
    requires j < n <= |dates| && dates[j] in quotes
    ensures var e := ExtremesUpTo(quotes, dates, p, n);
      e.lo.Some? && e.hi.Some? && e.lo.value <= PriceOf(quotes[dates[j]], p) <= e.hi.value
  {
    if j < n - 1 {
      ExtremesBound(quotes, dates, p, n - 1, j);
    }
  }

  /** The extremes stay infinite exactly when no date has a quote. */
  lemma {:induction false} ExtremesEmpty(quotes: map<string, Quote>, dates: seq<string>, p: Price, n: nat)
    requires n <= |dates|
    ensures var e := ExtremesUpTo(quotes, dates, p, n);
      && (e.lo.None? <==> e.hi.None?)
      && (e.lo.None? <==> forall j :: 0 <= j < n ==> dates[j] !in quotes)
  {
    if n > 0 {
      ExtremesEmpty(quotes, dates, p, n - 1);
    }
  }

  /** minMax[symbol]: the extremes of Open and of Close. */
  datatype Ranges = Ranges(open: Extremes, close: Extremes)

  function RangesOf(quotes: map<string, Quote>, dates: seq<string>): Ranges
  {
    Ranges(ExtremesUpTo(quotes, dates, OpenPrice, |dates|), ExtremesUpTo(quotes, dates, ClosePrice, |dates|))
  }

  /** The inner loop of the first pass: one symbol's extremes over all dates. */
  method ScanRanges(quotes: map<string, Quote>, dates: seq<string>) returns (r: Ranges)
    ensures r == RangesOf(quotes, dates)
  {
    r := Ranges(Extremes(None, None), Extremes(None, None));
    for i := 0 to |dates|
      invariant r == Ranges(ExtremesUpTo(quotes, dates, OpenPrice, i), ExtremesUpTo(quotes, dates, ClosePrice, i))
    {
      if dates[i] in quotes {
        var q := quotes[dates[i]];
        r := Ranges(Widen(r.open, q.open), Widen(r.close, q.close));
      }
    }
  }

  /** The extras the third pass adds to a bucket. */
  datatype Derived = Derived(ret1: real, mom3: real, volRatio3: real)

  /**
   * normalizedData[symbol][date]: scaled Open and Close (None is NaN), RetOC
   * and Range, and the extras once the third pass has run.
   */
  datatype Bucket = Bucket(open: Option<real>, close: Option<real>, retOC: real, range: real, derived: Option<Derived>)

  /** (x - min) / (max - min); with max = min the quotient is 0 / 0, NaN. */
  function Scale(x: real, e: Extremes): Option<real>
  {
    if e.lo.Some? && e.hi.Some? && e.hi.value > e.lo.value then Some((x - e.lo.value) / (e.hi.value - e.lo.value))
    else None
  }

  /** A price between the extremes scales into [0, 1]. */
  lemma ScaleInUnit(x: real, e: Extremes)
    requires e.lo.Some? && e.hi.Some? && e.lo.value <= x <= e.hi.value
    ensures Scale(x, e).Some? <==> e.hi.value > e.lo.value
    ensures Scale(x, e).Some? ==> 0.0 <= Scale(x, e).value <= 1.0
  {
    if e.hi.value > e.lo.value {
      var w := e.hi.value - e.lo.value;
      DivAtMost(x - e.lo.value, w, 1.0);
    }
  }

  /** The divisor of RetOC and Range: |Open|, or 1 when Open is 0. */
  function Denom(x: real): (d: real)
    ensures d > 0.0
  {
    if x != 0.0 then Abs(x) else 1.0
  }

  function BaseBucket(q: Quote, r: Ranges): Bucket
  {
    Bucket(Scale(q.open, r.open), Scale(q.close, r.close),
           (q.close - q.open) / Denom(q.open), (q.high - q.low) / Denom(q.open), None)
  }

  /** RetOC and Range are the day's move and span per unit of |Open| (per 1 when Open is 0). */
  lemma BaseBucketReturns(q: Quote, r: Ranges)
    ensures var b := BaseBucket(q, r);
      && b.retOC * Denom(q.open) == q.close - q.open
      && b.range * Denom(q.open) == q.high - q.low
      && (b.retOC > 0.0 <==> q.close > q.open)
  {
    var d := Denom(q.open);
    var ret := (q.close - q.open) / d;
    if ret > 0.0 {
      MulStrict(0.0, ret, d);
    } else {
      MulMonotone(ret, 0.0, d);
    }
  }

  /** The second pass for one symbol over the first n dates. */
  function BucketsUpTo(quotes: map<string, Quote>, dates: seq<string>, r: Ranges, n: nat): (m: map<string, Bucket>)
    requires n <= |dates|
    ensures forall d :: d in m ==> d in quotes && m[d] == BaseBucket(quotes[d], r)
    ensures forall d :: d in m <==> d in quotes && exists j :: 0 <= j < n && dates[j] == d
  {
    if n == 0 then map[]
    else
      var m := BucketsUpTo(quotes, dates, r, n - 1);
      var d := dates[n - 1];
      if d in quotes then m[d := BaseBucket(quotes[d], r)] else m
  }

  /** The inner loop of the second pass. */
  method ScanBuckets(quotes: map<string, Quote>, dates: seq<string>, r: Ranges) returns (m: map<string, Bucket>)
    ensures m == BucketsUpTo(quotes, dates, r, |dates|)
  {
    m := map[];
    for i := 0 to |dates|
      invariant m == BucketsUpTo(quotes, dates, r, i)
    {
      var d := dates[i];
      if d in quotes {
        m := m[d := BaseBucket(quotes[d], r)];
      }
    }
  }

  /** Sum and count of the volumes quoted on dates i-1 .. i-k. */
  function PrevVolumes(quotes: map<string, Quote>, dates: seq<string>, i: nat, k: nat): (sc: (real, nat))
    requires i < |dates|
    ensures sc.1 <= k && sc.1 <= i
  {
    if k == 0 then (0.0, 0)
    else
      var (sum, count) := PrevVolumes(quotes, dates, i, k - 1);
      if k <= i && dates[i - k] in quotes then (sum + quotes[dates[i - k]].volume, count + 1)
      else (sum, count)
  }

  /** The mean of up to three previous volumes, 1 when none is quoted. */
  function VolMean3(quotes: map<string, Quote>, dates: seq<string>, i: nat): real
    requires i < |dates|
  {
    var (sum, count) := PrevVolumes(quotes, dates, i, 3);
    if count > 0 then sum / count as real else 1.0
  }

  /** The volume loop of the third pass. */
  method ScanVolumes(quotes: map<string, Quote>, dates: seq<string>, i: nat) returns (volMean3: real)
    requires i < |dates|
    ensures volMean3 == VolMean3(quotes, dates, i)
  {
    volMean3 := 0.0;
    var volCount := 0;
    for k := 1 to 4
      invariant (volMean3, volCount) == PrevVolumes(quotes, dates, i, k - 1)
    {
      if k <= i {
        var dk := dates[i - k];
        if dk in quotes {
          volMean3 := volMean3 + quotes[dk].volume;
          volCount := volCount + 1;
        }
      }
    }
    volMean3 := if volCount > 0 then volMean3 / volCount as real else 1.0;
  }

  /**
   * Ret1, Mom3 and VolRatio3 of the quote at dates[i]. A previous date that is
   * the empty string is falsy and counts as missing for Ret1.
   */
  function DerivedAt(quotes: map<string, Quote>, dates: seq<string>, i: nat): Derived
    requires i < |dates| && dates[i] in quotes
  {
    var cur := quotes[dates[i]];
    var ret1 :=
      if i >= 1 && dates[i - 1] != "" && dates[i - 1] in quotes then
        var prev := quotes[dates[i - 1]].close;
        (cur.close - prev) / Denom(prev)
      else 0.0;
    var mom3 := if i >= 3 && dates[i - 3] in quotes then cur.close - quotes[dates[i - 3]].close else 0.0;
    var mean := VolMean3(quotes, dates, i);
    Derived(ret1, mom3, if mean != 0.0 then cur.volume / mean else 0.0)
  }

  /** Without enough history Ret1 and Mom3 are 0; VolRatio3 divides by the mean of what is there. */
  lemma DerivedHistory(quotes: map<string, Quote>, dates: seq<string>, i: nat)
    requires i < |dates| && dates[i] in quotes
    ensures i == 0 ==> DerivedAt(quotes, dates, i).ret1 == 0.0
    ensures i < 3 ==> DerivedAt(quotes, dates, i).mom3 == 0.0
    ensures PrevVolumes(quotes, dates, i, 3).1 == 0 ==> DerivedAt(quotes, dates, i).volRatio3 == quotes[dates[i]].volume
    ensures VolMean3(quotes, dates, i) == 0.0 ==> DerivedAt(quotes, dates, i).volRatio3 == 0.0
  {
  }

  /** The third pass for one symbol over the first n dates: every bucket gets its extras. */
  function DerivedUpTo(quotes: map<string, Quote>, dates: seq<string>, m: map<string, Bucket>, n: nat): (m': map<string, Bucket>)
    requires n <= |dates| && forall d :: d in m ==> d in quotes
    ensures m'.Keys == m.Keys
  {
    if n == 0 then m
    else
      var prev := DerivedUpTo(quotes, dates, m, n - 1);
      var d := dates[n - 1];
      if d in prev then prev[d := prev[d].(derived := Some(DerivedAt(quotes, dates, n - 1)))] else prev
  }

  /** With distinct dates, the bucket of date j gets the extras computed at j and keeps the rest. */
  lemma {:induction false} DerivedAtDate(quotes: map<string, Quote>, dates: seq<string>, m: map<string, Bucket>, n: nat, j: nat)
    requires n <= |dates| && forall d :: d in m ==> d in quotes
    requires StrictlySorted(dates) && j < n && dates[j] in m
    ensures DerivedUpTo(quotes, dates, m, n)[dates[j]] == m[dates[j]].(derived := Some(DerivedAt(quotes, dates, j)))
  {
    if j < n - 1 {
      DerivedAtDate(quotes, dates, m, n - 1, j);
      assert CodeLess(dates[j], dates[n - 1]);
      CodeLessIrreflexive(dates[j]);
    } else {
      forall k | 0 <= k < n - 1 ensures dates[k] != dates[j] {
        assert CodeLess(dates[k], dates[j]);
        CodeLessIrreflexive(dates[j]);
      }
      DerivedUntouched(quotes, dates, m, n - 1, dates[j]);
    }
  }

  /** A bucket whose date is not among the first n dates is left as it was. */
  lemma {:induction false} DerivedUntouched(quotes: map<string, Quote>, dates: seq<string>, m: map<string, Bucket>, n: nat, d: string)
    requires n <= |dates| && forall d :: d in m ==> d in quotes
    requires d in m && forall k :: 0 <= k < n ==> dates[k] != d
    ensures DerivedUpTo(quotes, dates, m, n)[d] == m[d]
  {
    if n > 0 {
      DerivedUntouched(quotes, dates, m, n - 1, d);
    }
  }

  /** The inner loop of the third pass. */
  method ScanDerived(quotes: map<string, Quote>, dates: seq<string>, m: map<string, Bucket>) returns (m': map<string, Bucket>)
    requires forall d :: d in m ==> d in quotes
    ensures m' == DerivedUpTo(quotes, dates, m, |dates|)
  {
    m' := m;
    for i := 0 to |dates|
      invariant m' == DerivedUpTo(quotes, dates, m, i)
    {
      var d0 := dates[i];
      if d0 !in m' {
        continue;
      }
      var volMean3 := ScanVolumes(quotes, dates, i);
      var cur := quotes[d0];
      var ret1 :=
        if i >= 1 && dates[i - 1] != "" && dates[i - 1] in quotes then
          (cur.close - quotes[dates[i - 1]].close) / Denom(quotes[dates[i - 1]].close)
        else 0.0;
      var mom3 := if i >= 3 && dates[i - 3] in quotes then cur.close - quotes[dates[i - 3]].close else 0.0;
      var volRatio3 := if volMean3 != 0.0 then cur.volume / volMean3 else 0.0;
      m' := m'[d0 := m'[d0].(derived := Some(Derived(ret1, mom3, volRatio3)))];
    }
  }

  /** One symbol's normalised buckets after all three passes. */
  function SymbolFeatures(quotes: map<string, Quote>, dates: seq<string>): map<string, Bucket>
  {
    var base := BucketsUpTo(quotes, dates, RangesOf(quotes, dates), |dates|);
    DerivedUpTo(quotes, dates, base, |dates|)
  }

  /**
   * A symbol has a bucket on exactly the dates it is quoted on; its scaled
   * Open and Close lie in [0, 1], and are NaN exactly when that price never
   * moves.
   */
  lemma NormalizedInUnit(quotes: map<string, Quote>, dates: seq<string>, j: nat)
    requires j < |dates|
    ensures dates[j] in SymbolFeatures(quotes, dates) <==> dates[j] in quotes
    ensures dates[j] in quotes ==>
      var b := SymbolFeatures(quotes, dates)[dates[j]];
      var r := RangesOf(quotes, dates);
      && r.open.lo.Some? && r.open.hi.Some? && r.close.lo.Some? && r.close.hi.Some?
      && (b.open.Some? <==> r.open.hi.value > r.open.lo.value)
      && (b.close.Some? <==> r.close.hi.value > r.close.lo.value)
      && (b.open.Some? ==> 0.0 <= b.open.value <= 1.0)
      && (b.close.Some? ==> 0.0 <= b.close.value <= 1.0)
  {
    var r := RangesOf(quotes, dates);
    var base := BucketsUpTo(quotes, dates, r, |dates|);
    if dates[j] in quotes {
      var q := quotes[dates[j]];
      ExtremesBound(quotes, dates, OpenPrice, |dates|, j);
      ExtremesBound(quotes, dates, ClosePrice, |dates|, j);
      ScaleInUnit(q.open, r.open);
      ScaleInUnit(q.close, r.close);
      assert dates[j] in base;
      var f := SymbolFeatures(quotes, dates);
      assert f[dates[j]].open == base[dates[j]].open && f[dates[j]].close == base[dates[j]].close by {
        DerivedFields(quotes, dates, base, |dates|, dates[j]);
      }
    }
  }

  /** The third pass only fills in the extras. */
  lemma {:induction false} DerivedFields(quotes: map<string, Quote>, dates: seq<string>, m: map<string, Bucket>, n: nat, d: string)
    requires n <= |dates| && forall d :: d in m ==> d in quotes
    requires d in m
    ensures var b := DerivedUpTo(quotes, dates, m, n)[d];
      b.open == m[d].open && b.close == m[d].close && b.retOC == m[d].retOC && b.range == m[d].range
  {
    if n > 0 {
      DerivedFields(quotes, dates, m, n - 1, d);
    }
  }

  /** Distinct entries: a strictly sorted list never repeats a string. */
  lemma SortedDistinct(xs: seq<string>, i: nat, j: nat)
    requires StrictlySorted(xs) && i < j < |xs|
    ensures xs[i] != xs[j]
  {
    CodeLessIrreflexive(xs[i]);
  }

  /** normalizedData: symbol -> date -> bucket. */
  type NormTable = map<string, map<string, Bucket>>

  /** The table normalizeData builds for the symbols that have quotes. */
  function Normalized(data: Table, symbols: seq<string>, dates: seq<string>): NormTable
  {
    map s | s in symbols && s in data :: SymbolFeatures(data[s], dates)
  }

  /** The first pass: minMax for every symbol. */
  method MinMaxPass(data: Table, symbols: seq<string>, dates: seq<string>) returns (mm: map<string, Ranges>)
    requires forall s :: s in symbols ==> s in data
    ensures forall s :: s in mm <==> s in symbols
    ensures forall s :: s in mm ==> mm[s] == RangesOf(data[s], dates)
  {
    mm := map[];
    for i := 0 to |symbols|
      invariant forall s :: s in mm <==> s in symbols[..i]
      invariant forall s :: s in mm ==> s in data && mm[s] == RangesOf(data[s], dates)
    {
      assert symbols[..i + 1] == symbols[..i] + [symbols[i]];
      var r := ScanRanges(data[symbols[i]], dates);
      mm := mm[symbols[i] := r];
    }
    assert symbols[..|symbols|] == symbols;
  }

  /** The second pass: the base buckets of every symbol. */
  method BucketPass(data: Table, symbols: seq<string>, dates: seq<string>, mm: map<string, Ranges>) returns (norm: NormTable)
    requires forall s :: s in symbols ==> s in data && s in mm
    ensures forall s :: s in norm <==> s in symbols
    ensures forall s :: s in norm ==> norm[s] == BucketsUpTo(data[s], dates, mm[s], |dates|)
  {
    norm := map[];
    for i := 0 to |symbols|
      invariant forall s :: s in norm <==> s in symbols[..i]
      invariant forall s :: s in norm ==> s in data && s in mm && norm[s] == BucketsUpTo(data[s], dates, mm[s], |dates|)
    {
      assert symbols[..i + 1] == symbols[..i] + [symbols[i]];
      var m := ScanBuckets(data[symbols[i]], dates, mm[symbols[i]]);
      norm := norm[symbols[i] := m];
    }
    assert symbols[..|symbols|] == symbols;
  }

  /** The third pass: the extras of every bucket of every symbol. */
  method DerivedPass(data: Table, symbols: seq<string>, dates: seq<string>, norm: NormTable) returns (norm': NormTable)
    requires StrictlySorted(symbols)
    requires forall s :: s in norm <==> s in symbols
    requires forall s :: s in norm ==> s in data && forall d :: d in norm[s] ==> d in data[s]
    ensures forall s :: s in norm' <==> s in symbols
    ensures forall s :: s in norm' ==> norm'[s] == DerivedUpTo(data[s], dates, norm[s], |dates|)
  {
    norm' := norm;
    for i := 0 to |symbols|
      invariant forall s :: s in norm' <==> s in symbols
      invariant forall s :: s in norm' ==>
        norm'[s] == if s in symbols[..i] then DerivedUpTo(data[s], dates, norm[s], |dates|) else norm[s]
    {
      var sym := symbols[i];
      assert symbols[..i + 1] == symbols[..i] + [sym];
      assert sym !in symbols[..i] by {
        forall k | 0 <= k < i ensures symbols[k] != sym {
          SortedDistinct(symbols, k, i);
        }
      }
      var m := ScanDerived(data[sym], dates, norm'[sym]);
      norm' := norm'[sym := m];
    }
    assert symbols[..|symbols|] == symbols;
  }

  /** All three passes over the loaded table. */
  method NormalizeTable(data: Table, symbols: seq<string>, dates: seq<string>) returns (norm: NormTable)
    requires StrictlySorted(symbols) && forall s :: s in symbols ==> s in data
    ensures norm == Normalized(data, symbols, dates)
  {
    var mm := MinMaxPass(data, symbols, dates);
    var base := BucketPass(data, symbols, dates, mm);
    norm := DerivedPass(data, symbols, dates, base);
    assert forall s :: s in norm ==> norm[s] == SymbolFeatures(data[s], dates);
  }

  // ---------------------------------------------------------------------
  // createSequences
  // ---------------------------------------------------------------------

  /** The message of the TypeError a read through undefined throws. */
  const TypeError: string := "TypeError: Cannot read properties of undefined"

  /** A feature vector entry: None is NaN. */
  type Feature = Option<real>

  /** The four values pushed per symbol: Open, Close, RetOC and Range. */
  function Features4(b: Bucket): (f: seq<Feature>)
    ensures |f| == 4
  {
    [b.open, b.close, Some(b.retOC), Some(b.range)]
  }

  /** One time step over the first n symbols: the values pushed, and whether every symbol had a bucket. */
  datatype Step = Step(values: seq<Feature>, complete: bool)

  function StepUpTo(norm: NormTable, symbols: seq<string>, d: string, n: nat): Result<Step>
    requires n <= |symbols|
  {
    if n == 0 then Ok(Step([], true))
    else
      var prev := StepUpTo(norm, symbols, d, n - 1);
      var s := symbols[n - 1];
      if prev.Err? then prev
      else if s !in norm then Err(TypeError)
      else if d in norm[s] then Ok(Step(prev.value.values + Features4(norm[s][d]), prev.value.complete))
      else Ok(Step(prev.value.values, false))
  }

  /**
   * A step fails exactly when a symbol has no table; it is complete exactly
   * when every symbol has a bucket on d, and then it holds each symbol's four
   * features in symbol order.
   */
  lemma {:induction false} StepShape(norm: NormTable, symbols: seq<string>, d: string, n: nat)
    requires n <= |symbols|
    ensures StepUpTo(norm, symbols, d, n).Err? <==> exists k :: 0 <= k < n && symbols[k] !in norm
    ensures StepUpTo(norm, symbols, d, n).Ok? ==>
      var st := StepUpTo(norm, symbols, d, n).value;
      && (st.complete <==> forall k :: 0 <= k < n ==> d in norm[symbols[k]])
      && (st.complete ==>
            && |st.values| == 4 * n
            && forall k, f :: 0 <= k < n && 0 <= f < 4 ==> st.values[4 * k + f] == Features4(norm[symbols[k]][d])[f])
  {
    if n > 0 {
      StepShape(norm, symbols, d, n - 1);
      var prev := StepUpTo(norm, symbols, d, n - 1);
      if prev.Ok? && symbols[n - 1] in norm && prev.value.complete && d in norm[symbols[n - 1]] {
        var st := StepUpTo(norm, symbols, d, n).value;
        var last := Features4(norm[symbols[n - 1]][d]);
        assert st.values == prev.value.values + last;
        forall k, f | 0 <= k < n && 0 <= f < 4
          ensures st.values[4 * k + f] == Features4(norm[symbols[k]][d])[f]
        {
          if k < n - 1 {
            assert st.values[4 * k + f] == prev.value.values[4 * k + f];
          } else {
            assert st.values[4 * k + f] == last[f];
          }
        }
      }
    }
  }

  /** The step on date d is complete and pushes exactly values. */
  predicate StepKept(norm: NormTable, symbols: seq<string>, d: string, values: seq<Feature>)
  {
    var st := StepUpTo(norm, symbols, d, |symbols|);
    st.Ok? && st.value.complete && st.value.values == values
  }

  /** The window of a sample over its first t steps, and whether every step so far was complete. */
  datatype Window = Window(steps: seq<seq<Feature>>, complete: bool)

  /** Step t of the window ending at dates[i] is dates[i - seqLen + 1 + t]. */
  function WindowUpTo(norm: NormTable, symbols: seq<string>, dates: seq<string>, i: nat, seqLen: nat, t: nat): Result<Window>
    requires seqLen <= i < |dates| && t <= seqLen
  {
    if t == 0 then Ok(Window([], true))
    else
      var w := WindowUpTo(norm, symbols, dates, i, seqLen, t - 1);
      var st := StepUpTo(norm, symbols, dates[i - seqLen + t], |symbols|);
      if w.Err? then w
      else if st.Err? then Err(st.message)
      else
        var valid := w.value.complete && st.value.complete;
        Ok(Window(if valid then w.value.steps + [st.value.values] else w.value.steps, valid))
  }

  /** A complete window has one step per date, in date order, each with four values per symbol. */
  lemma {:induction false} WindowShape(norm: NormTable, symbols: seq<string>, dates: seq<string>, i: nat, seqLen: nat, t: nat)
    requires seqLen <= i < |dates| && t <= seqLen
    requires WindowUpTo(norm, symbols, dates, i, seqLen, t).Ok?
    ensures var w := WindowUpTo(norm, symbols, dates, i, seqLen, t).value;
      w.complete ==>
        && |w.steps| == t
        && forall k :: 0 <= k < t ==>
             StepKept(norm, symbols, dates[i - seqLen + 1 + k], w.steps[k]) && |w.steps[k]| == 4 * |symbols|
  {
    if t > 0 {
      var w := WindowUpTo(norm, symbols, dates, i, seqLen, t - 1);
      var st := StepUpTo(norm, symbols, dates[i - seqLen + t], |symbols|);
      var w' := WindowUpTo(norm, symbols, dates, i, seqLen, t).value;
      if w'.complete {
        WindowShape(norm, symbols, dates, i, seqLen, t - 1);
        StepShape(norm, symbols, dates[i - seqLen + t], |symbols|);
        assert w'.steps == w.value.steps + [st.value.values];
        forall k | 0 <= k < t
          ensures StepKept(norm, symbols, dates[i - seqLen + 1 + k], w'.steps[k]) && |w'.steps[k]| == 4 * |symbols|
        {
          if k < t - 1 {
            assert w'.steps[k] == w.value.steps[k];
          } else {
            assert i - seqLen + 1 + k == i - seqLen + t;
          }
        }
      }
    }
  }

  /** The base close prices at the current date, symbol by symbol; a missing quote throws. */
  function BasesUpTo(data: Table, symbols: seq<string>, d: string, n: nat): (r: Result<seq<real>>)
    requires n <= |symbols| && forall s :: s in symbols ==> s in data
    ensures r.Ok? ==> |r.value| == n && forall k :: 0 <= k < n ==> d in data[symbols[k]] && r.value[k] == data[symbols[k]][d].close
    ensures r.Err? <==> exists k :: 0 <= k < n && d !in data[symbols[k]]
  {
    if n == 0 then Ok([])
    else
      var prev := BasesUpTo(data, symbols, d, n - 1);
      var s := symbols[n - 1];
      if prev.Err? then prev
      else if d !in data[s] then Err(TypeError)
      else Ok(prev.value + [data[s][d].close])
  }

  /** One bit per symbol for one future date: 1 when the future close beats the base close. */
  function BitsUpTo(data: Table, symbols: seq<string>, fd: string, bases: seq<real>, n: nat): (r: (seq<nat>, bool))
    requires n <= |symbols| == |bases| && forall s :: s in symbols ==> s in data
    ensures r.1 <==> forall k :: 0 <= k < n ==> fd in data[symbols[k]]
    ensures r.1 ==> |r.0| == n && forall k :: 0 <= k < n ==> r.0[k] == if data[symbols[k]][fd].close > bases[k] then 1 else 0
  {
    if n == 0 then ([], true)
    else
      var prev := BitsUpTo(data, symbols, fd, bases, n - 1);
      var s := symbols[n - 1];
      if fd in data[s] then (prev.0 + [if data[s][fd].close > bases[n - 1] then 1 else 0], prev.1)
      else (prev.0, false)
  }

  /** The target over offsets 1 .. o, offset by offset. */
  function TargetUpTo(data: Table, symbols: seq<string>, dates: seq<string>, i: nat, bases: seq<real>, o: nat): (r: (seq<nat>, bool))
    requires i + o < |dates| && |bases| == |symbols| && forall s :: s in symbols ==> s in data
  {
    if o == 0 then ([], true)
    else
      var prev := TargetUpTo(data, symbols, dates, i, bases, o - 1);
      var cur := BitsUpTo(data, symbols, dates[i + o], bases, |symbols|);
      (prev.0 + cur.0, prev.1 && cur.1)
  }

  lemma MulLe(a: nat, b: nat, c: nat)
    requires a <= b
    ensures a * c <= b * c
  {
    assert b * c - a * c == (b - a) * c;
  }

  /** Whether symbol k closes higher at dates[i + o] than at its base. */
  function Rises(data: Table, symbols: seq<string>, dates: seq<string>, bases: seq<real>, i: nat, o: nat, k: nat): nat
    requires k < |symbols| == |bases| && i + o < |dates| && symbols[k] in data && dates[i + o] in data[symbols[k]]
  {
    if data[symbols[k]][dates[i + o]].close > bases[k] then 1 else 0
  }

  /** Bit k of offset o (counted from 1) in a target laid out offset by offset over n symbols. */
  function TargetBitAt(bits: seq<nat>, n: nat, o: nat, k: nat): nat
  {
    if 1 <= o && (o - 1) * n + k < |bits| then bits[(o - 1) * n + k] else 0
  }

  /** Appending the bits of offset m + 1 to a target of m offsets leaves the earlier bits where they were. */
  lemma TargetBitAppend(prev: seq<nat>, cur: seq<nat>, n: nat, m: nat, o: nat, k: nat)
    requires |prev| == m * n && |cur| == n && 1 <= o <= m + 1 && k < n
    ensures |prev + cur| == (m + 1) * n
    ensures o <= m ==> (o - 1) * n + k < |prev| && TargetBitAt(prev + cur, n, o, k) == TargetBitAt(prev, n, o, k)
    ensures o == m + 1 ==> (o - 1) * n + k < |prev + cur| && TargetBitAt(prev + cur, n, o, k) == cur[k]
  {
    assert (m + 1) * n == m * n + n;
    if o <= m {
      MulLe(o, m, n);
      assert o * n == (o - 1) * n + n;
    }
  }

  /** The bit of offset o and symbol k exists and is Rises for them. */
  predicate LaidOutAt(data: Table, symbols: seq<string>, dates: seq<string>, i: nat, bases: seq<real>, bits: seq<nat>, o: nat, k: nat)
  {
    && k < |symbols| == |bases| && 1 <= o && i + o < |dates| && (o - 1) * |symbols| + k < |bits|
    && symbols[k] in data && dates[i + o] in data[symbols[k]]
    && TargetBitAt(bits, |symbols|, o, k) == Rises(data, symbols, dates, bases, i, o, k)
  }

  /** bits has o x |symbols| entries, and the one of offset o' and symbol k is Rises for them. */
  predicate TargetLaidOut(data: Table, symbols: seq<string>, dates: seq<string>, i: nat, bases: seq<real>, bits: seq<nat>, o: nat)
  {
    && |bits| == o * |symbols|
    && forall o', k :: 1 <= o' <= o && 0 <= k < |symbols| ==> LaidOutAt(data, symbols, dates, i, bases, bits, o', k)
  }

  /**
   * A complete target has horizon x |symbols| bits; the bit of offset o and
   * symbol k is 1 exactly when that symbol closes higher at dates[i + o]
   * than at its base.
   */
  lemma {:induction false} TargetBits(data: Table, symbols: seq<string>, dates: seq<string>, i: nat, bases: seq<real>, o: nat)
    requires i + o < |dates| && |bases| == |symbols| && forall s :: s in symbols ==> s in data
    ensures TargetUpTo(data, symbols, dates, i, bases, o).1 ==>
      TargetLaidOut(data, symbols, dates, i, bases, TargetUpTo(data, symbols, dates, i, bases, o).0, o)
  {
    if o > 0 {
      var prev := TargetUpTo(data, symbols, dates, i, bases, o - 1);
      var cur := BitsUpTo(data, symbols, dates[i + o], bases, |symbols|);
      var n := |symbols|;
      if prev.1 && cur.1 {
        TargetBits(data, symbols, dates, i, bases, o - 1);
        var all := prev.0 + cur.0;
        assert TargetUpTo(data, symbols, dates, i, bases, o) == (all, true);
        forall o', k | 1 <= o' <= o && 0 <= k < n
          ensures LaidOutAt(data, symbols, dates, i, bases, all, o', k)
        {
          TargetBitAppend(prev.0, cur.0, n, o - 1, o', k);
          if o' < o {
            assert LaidOutAt(data, symbols, dates, i, bases, prev.0, o', k);
          }
        }
        if n > 0 {
          TargetBitAppend(prev.0, cur.0, n, o - 1, 1, 0);
        } else {
          assert |all| == 0 == o * n;
        }
        assert TargetLaidOut(data, symbols, dates, i, bases, all, o);
      }
    }
  }

  /** A kept sample: its window, its target bits and its current date. */
  datatype Sample = Sample(steps: seq<seq<Feature>>, target: seq<nat>, date: string)

  /** The sample at dates[i]: None when it is dropped for a missing quote. */
  function SampleAt(norm: NormTable, data: Table, symbols: seq<string>, dates: seq<string>, i: nat, seqLen: nat, horizon: nat): Result<Option<Sample>>
    requires seqLen <= i && i + horizon < |dates| && forall s :: s in symbols ==> s in data
  {
    var w := WindowUpTo(norm, symbols, dates, i, seqLen, seqLen);
    if w.Err? then Err(w.message)
    else if !w.value.complete then Ok(None)
    else
      var bases := BasesUpTo(data, symbols, dates[i], |symbols|);
      if bases.Err? then Err(bases.message)
      else
        var target := TargetUpTo(data, symbols, dates, i, bases.value, horizon);
        if target.1 then Ok(Some(Sample(w.value.steps, target.0, dates[i]))) else Ok(None)
  }

  /** Bit (o, k) of the target is 1 exactly when symbol k closes higher at dates[i + o] than at dates[i]. */
  predicate RisesAt(data: Table, symbols: seq<string>, dates: seq<string>, i: nat, target: seq<nat>, o: nat, k: nat)
  {
    && k < |symbols| && i + o < |dates| && symbols[k] in data
    && dates[i] in data[symbols[k]] && dates[i + o] in data[symbols[k]]
    && (TargetBitAt(target, |symbols|, o, k) == 1 <==>
          data[symbols[k]][dates[i + o]].close > data[symbols[k]][dates[i]].close)
  }

  predicate TargetRises(data: Table, symbols: seq<string>, dates: seq<string>, i: nat, horizon: nat, target: seq<nat>)
  {
    forall o, k :: 1 <= o <= horizon && 0 <= k < |symbols| ==> RisesAt(data, symbols, dates, i, target, o, k)
  }

  /** Against the base closes, the laid-out bits say whether each symbol rises. */
  lemma RisesOverBases(data: Table, symbols: seq<string>, dates: seq<string>, i: nat, bases: seq<real>, horizon: nat, target: seq<nat>)
    requires i + horizon < |dates| && |bases| == |symbols|
    requires forall k :: 0 <= k < |symbols| ==>
      symbols[k] in data && dates[i] in data[symbols[k]] && bases[k] == data[symbols[k]][dates[i]].close
    requires TargetLaidOut(data, symbols, dates, i, bases, target, horizon)
    ensures TargetRises(data, symbols, dates, i, horizon, target)
  {
    forall o, k | 1 <= o <= horizon && 0 <= k < |symbols|
      ensures RisesAt(data, symbols, dates, i, target, o, k)
    {
      assert LaidOutAt(data, symbols, dates, i, bases, target, o, k);
    }
  }

  /** Step k of the window is the complete step on dates[i - seqLen + 1 + k], four values per symbol. */
  predicate WindowSteps(norm: NormTable, symbols: seq<string>, dates: seq<string>, i: nat, seqLen: nat, steps: seq<seq<Feature>>)
    requires seqLen <= i < |dates|
  {
    && |steps| == seqLen
    && forall k :: 0 <= k < seqLen ==>
         StepKept(norm, symbols, dates[i - seqLen + 1 + k], steps[k]) && |steps[k]| == 4 * |symbols|
  }

  /**
   * A kept sample has seqLen steps of 4 x |symbols| values over
   * dates[i - seqLen + 1 .. i], and horizon x |symbols| bits, each 1 exactly
   * when that symbol closes higher on that future date than on dates[i].
   */
  lemma KeptSample(norm: NormTable, data: Table, symbols: seq<string>, dates: seq<string>, i: nat, seqLen: nat, horizon: nat)
    requires seqLen <= i && i + horizon < |dates| && forall s :: s in symbols ==> s in data
    requires SampleAt(norm, data, symbols, dates, i, seqLen, horizon).Ok?
    ensures var r := SampleAt(norm, data, symbols, dates, i, seqLen, horizon).value;
      r.Some? ==>
        && r.value.date == dates[i]
        && WindowSteps(norm, symbols, dates, i, seqLen, r.value.steps)
        && |r.value.target| == horizon * |symbols|
        && TargetRises(data, symbols, dates, i, horizon, r.value.target)
  {
    var w := WindowUpTo(norm, symbols, dates, i, seqLen, seqLen);
    if w.Ok? && w.value.complete {
      WindowShape(norm, symbols, dates, i, seqLen, seqLen);
      var bases := BasesUpTo(data, symbols, dates[i], |symbols|);
      if bases.Ok? {
        TargetBits(data, symbols, dates, i, bases.value, horizon);
        var target := TargetUpTo(data, symbols, dates, i, bases.value, horizon);
        if target.1 {
          assert SampleAt(norm, data, symbols, dates, i, seqLen, horizon) == Ok(Some(Sample(w.value.steps, target.0, dates[i])));
          RisesOverBases(data, symbols, dates, i, bases.value, horizon, target.0);
          assert TargetRises(data, symbols, dates, i, horizon, target.0);
          assert WindowSteps(norm, symbols, dates, i, seqLen, w.value.steps);
        }
      }
    }
  }

  /** The samples of the dates seqLen .. n-1, in date order, or the first error. */
  function SamplesUpTo(norm: NormTable, data: Table, symbols: seq<string>, dates: seq<string>, seqLen: nat, horizon: nat, n: nat): Result<seq<Sample>>
    requires seqLen <= n && (n == seqLen || n + horizon <= |dates|) && forall s :: s in symbols ==> s in data
    decreases n
  {
    if n == seqLen then Ok([])
    else
      var prev := SamplesUpTo(norm, data, symbols, dates, seqLen, horizon, n - 1);
      var s := SampleAt(norm, data, symbols, dates, n - 1, seqLen, horizon);
      if prev.Err? then prev
      else if s.Err? then Err(s.message)
      else Ok(prev.value + if s.value.Some? then [s.value.value] else [])
  }

  /** The index loop runs over seqLen <= i < |dates| - horizon; it is empty when that range is. */
  function LastIndex(dates: seq<string>, seqLen: nat, horizon: nat): (n: nat)
    ensures seqLen <= n && (n == seqLen || n + horizon == |dates|)
  {
    if |dates| - horizon > seqLen then |dates| - horizon else seqLen
  }

  /** Once a step hits a symbol without a table, the error stands. */
  lemma {:induction false} StepErrSticks(norm: NormTable, symbols: seq<string>, d: string, m: nat, n: nat)
    requires m <= n <= |symbols| && StepUpTo(norm, symbols, d, m).Err?
    ensures StepUpTo(norm, symbols, d, n) == StepUpTo(norm, symbols, d, m)
    decreases n
  {
    if m < n {
      StepErrSticks(norm, symbols, d, m, n - 1);
    }
  }

  lemma {:induction false} WindowErrSticks(norm: NormTable, symbols: seq<string>, dates: seq<string>, i: nat, seqLen: nat, m: nat, n: nat)
    requires seqLen <= i < |dates| && m <= n <= seqLen && WindowUpTo(norm, symbols, dates, i, seqLen, m).Err?
    ensures WindowUpTo(norm, symbols, dates, i, seqLen, n) == WindowUpTo(norm, symbols, dates, i, seqLen, m)
    decreases n
  {
    if m < n {
      WindowErrSticks(norm, symbols, dates, i, seqLen, m, n - 1);
    }
  }

  lemma {:induction false} BasesErrSticks(data: Table, symbols: seq<string>, d: string, m: nat, n: nat)
    requires m <= n <= |symbols| && (forall s :: s in symbols ==> s in data) && BasesUpTo(data, symbols, d, m).Err?
    ensures BasesUpTo(data, symbols, d, n) == BasesUpTo(data, symbols, d, m)
    decreases n
  {
    if m < n {
      BasesErrSticks(data, symbols, d, m, n - 1);
    }
  }

  lemma {:induction false} SamplesErrSticks(norm: NormTable, data: Table, symbols: seq<string>, dates: seq<string>, seqLen: nat, horizon: nat, m: nat, n: nat)
    requires seqLen <= m <= n && (n == seqLen || n + horizon <= |dates|) && forall s :: s in symbols ==> s in data
    requires SamplesUpTo(norm, data, symbols, dates, seqLen, horizon, m).Err?
    ensures SamplesUpTo(norm, data, symbols, dates, seqLen, horizon, n) == SamplesUpTo(norm, data, symbols, dates, seqLen, horizon, m)
    decreases n
  {
    if m < n {
      SamplesErrSticks(norm, data, symbols, dates, seqLen, horizon, m, n - 1);
    }
  }

  /** timeStepData for one date: the symbols in order, throwing on a symbol without a table. */
  method BuildStep(norm: NormTable, symbols: seq<string>, d: string) returns (r: Result<Step>)
    ensures r == StepUpTo(norm, symbols, d, |symbols|)
  {
    var values: seq<Feature> := [];
    var complete := true;
    for k := 0 to |symbols|
      invariant StepUpTo(norm, symbols, d, k) == Ok(Step(values, complete))
    {
      var sym := symbols[k];
      if sym !in norm {
        StepErrSticks(norm, symbols, d, k + 1, |symbols|);
        return Err(TypeError);
      }
      if d in norm[sym] {
        values := values + Features4(norm[sym][d]);
      } else {
        complete := false;
      }
    }
    r := Ok(Step(values, complete));
  }

  /** sequenceData for the sample at dates[i]: j runs from seqLen - 1 down to 0 over dates[i - j]. */
  method BuildWindow(norm: NormTable, symbols: seq<string>, dates: seq<string>, i: nat, seqLen: nat) returns (r: Result<Window>)
    requires seqLen <= i < |dates|
    ensures r == WindowUpTo(norm, symbols, dates, i, seqLen, seqLen)
  {
    var steps: seq<seq<Feature>> := [];
    var valid := true;
    var j := seqLen;
    while j > 0
      invariant 0 <= j <= seqLen
      invariant WindowUpTo(norm, symbols, dates, i, seqLen, seqLen - j) == Ok(Window(steps, valid))
    {
      j := j - 1;
      var st := BuildStep(norm, symbols, dates[i - j]);
      if st.Err? {
        WindowErrSticks(norm, symbols, dates, i, seqLen, seqLen - j, seqLen);
        return Err(st.message);
      }
      valid := valid && st.value.complete;
      if valid {
        steps := steps + [st.value.values];
      }
    }
    r := Ok(Window(steps, valid));
  }

  /** baseClosePrices: the close of every symbol on d, throwing when one has no quote. */
  method BuildBases(data: Table, symbols: seq<string>, d: string) returns (r: Result<seq<real>>)
    requires forall s :: s in symbols ==> s in data
    ensures r == BasesUpTo(data, symbols, d, |symbols|)
  {
    var bases: seq<real> := [];
    for k := 0 to |symbols|
      invariant BasesUpTo(data, symbols, d, k) == Ok(bases)
    {
      if d !in data[symbols[k]] {
        BasesErrSticks(data, symbols, d, k + 1, |symbols|);
        return Err(TypeError);
      }
      bases := bases + [data[symbols[k]][d].close];
    }
    r := Ok(bases);
  }

  /** The bits of one future date, symbol by symbol. */
  method BuildBits(data: Table, symbols: seq<string>, fd: string, bases: seq<real>) returns (bits: seq<nat>, ok: bool)
    requires |symbols| == |bases| && forall s :: s in symbols ==> s in data
    ensures (bits, ok) == BitsUpTo(data, symbols, fd, bases, |symbols|)
  {
    bits, ok := [], true;
    for k := 0 to |symbols|
      invariant (bits, ok) == BitsUpTo(data, symbols, fd, bases, k)
    {
      if fd in data[symbols[k]] {
        bits := bits + [if data[symbols[k]][fd].close > bases[k] then 1 else 0];
      } else {
        ok := false;
      }
    }
  }

  /** target for the sample at dates[i]: offsets 1 .. horizon. */
  method BuildTarget(data: Table, symbols: seq<string>, dates: seq<string>, i: nat, bases: seq<real>, horizon: nat)
    returns (target: seq<nat>, ok: bool)
    requires i + horizon < |dates| && |bases| == |symbols| && forall s :: s in symbols ==> s in data
    ensures (target, ok) == TargetUpTo(data, symbols, dates, i, bases, horizon)
  {
    target, ok := [], true;
    for offset := 1 to horizon + 1
      invariant (target, ok) == TargetUpTo(data, symbols, dates, i, bases, offset - 1)
    {
      var bits, ok' := BuildBits(data, symbols, dates[i + offset], bases);
      target := target + bits;
      ok := ok && ok';
    }
  }

  /** One iteration of the index loop. */
  method BuildSample(norm: NormTable, data: Table, symbols: seq<string>, dates: seq<string>, i: nat, seqLen: nat, horizon: nat)
    returns (r: Result<Option<Sample>>)
    requires seqLen <= i && i + horizon < |dates| && forall s :: s in symbols ==> s in data
    ensures r == SampleAt(norm, data, symbols, dates, i, seqLen, horizon)
  {
    var w := BuildWindow(norm, symbols, dates, i, seqLen);
    if w.Err? {
      return Err(w.message);
    }
    if !w.value.complete {
      return Ok(None);
    }
    var bases := BuildBases(data, symbols, dates[i]);
    if bases.Err? {
      return Err(bases.message);
    }
    var target, ok := BuildTarget(data, symbols, dates, i, bases.value, horizon);
    r := if ok then Ok(Some(Sample(w.value.steps, target, dates[i]))) else Ok(None);
  }

  /** The index loop of createSequences: sequences, targets and validDates, pushed together. */
  method BuildSamples(norm: NormTable, data: Table, symbols: seq<string>, dates: seq<string>, seqLen: nat, horizon: nat)
    returns (r: Result<seq<Sample>>)
    requires forall s :: s in symbols ==> s in data
    ensures r == SamplesUpTo(norm, data, symbols, dates, seqLen, horizon, LastIndex(dates, seqLen, horizon))
  {
    var samples: seq<Sample> := [];
    var i := seqLen;
    while i < |dates| - horizon
      invariant seqLen <= i <= LastIndex(dates, seqLen, horizon)
      invariant SamplesUpTo(norm, data, symbols, dates, seqLen, horizon, i) == Ok(samples)
      decreases |dates| - horizon - i
    {
      var s := BuildSample(norm, data, symbols, dates, i, seqLen, horizon);
      if s.Err? {
        SamplesErrSticks(norm, data, symbols, dates, seqLen, horizon, i + 1, LastIndex(dates, seqLen, horizon));
        return Err(s.message);
      }
      if s.value.Some? {
        samples := samples + [s.value.value];
      } else {
        assert samples + [] == samples;
      }
      i := i + 1;
    }
    r := Ok(samples);
  }

  /** The dates of the kept samples. */
  function SampleDates(samples: seq<Sample>): (r: seq<string>)
    ensures |r| == |samples| && forall k :: 0 <= k < |r| ==> r[k] == samples[k].date
  {
    if samples == [] then [] else SampleDates(samples[..|samples| - 1]) + [samples[|samples| - 1].date]
  }

  /** Every kept sample is dated before dates[n] and what follows it. */
  lemma {:induction false} SamplesPrecede(norm: NormTable, data: Table, symbols: seq<string>, dates: seq<string>, seqLen: nat, horizon: nat, n: nat)
    requires seqLen <= n && (n == seqLen || n + horizon <= |dates|) && forall s :: s in symbols ==> s in data
    requires StrictlySorted(dates)
    requires SamplesUpTo(norm, data, symbols, dates, seqLen, horizon, n).Ok?
    ensures var ss := SamplesUpTo(norm, data, symbols, dates, seqLen, horizon, n).value;
      forall k, j :: 0 <= k < |ss| && n <= j < |dates| ==> CodeLess(ss[k].date, dates[j])
    decreases n
  {
    if n > seqLen {
      SamplesPrecede(norm, data, symbols, dates, seqLen, horizon, n - 1);
      var prev := SamplesUpTo(norm, data, symbols, dates, seqLen, horizon, n - 1).value;
      var s := SampleAt(norm, data, symbols, dates, n - 1, seqLen, horizon);
      var ss := SamplesUpTo(norm, data, symbols, dates, seqLen, horizon, n).value;
      assert ss == prev + if s.value.Some? then [s.value.value] else [];
      forall k, j | 0 <= k < |ss| && n <= j < |dates| ensures CodeLess(ss[k].date, dates[j]) {
        if k < |prev| {
          assert ss[k] == prev[k];
        } else {
          assert ss[k].date == dates[n - 1];
        }
      }
    }
  }

  /** Samples come out in date order: with sorted dates, the kept samples' dates strictly increase. */
  lemma {:induction false} SamplesChronological(norm: NormTable, data: Table, symbols: seq<string>, dates: seq<string>, seqLen: nat, horizon: nat, n: nat)
    requires seqLen <= n && (n == seqLen || n + horizon <= |dates|) && forall s :: s in symbols ==> s in data
    requires StrictlySorted(dates)
    requires SamplesUpTo(norm, data, symbols, dates, seqLen, horizon, n).Ok?
    ensures StrictlySorted(SampleDates(SamplesUpTo(norm, data, symbols, dates, seqLen, horizon, n).value))
    decreases n
  {
    if n > seqLen {
      SamplesChronological(norm, data, symbols, dates, seqLen, horizon, n - 1);
      var prev := SamplesUpTo(norm, data, symbols, dates, seqLen, horizon, n - 1).value;
      var s := SampleAt(norm, data, symbols, dates, n - 1, seqLen, horizon);
      var ss := SamplesUpTo(norm, data, symbols, dates, seqLen, horizon, n).value;
      if s.value.Some? {
        SamplesPrecede(norm, data, symbols, dates, seqLen, horizon, n - 1);
        assert ss == prev + [s.value.value];
        var sd, pd := SampleDates(ss), SampleDates(prev);
        forall a, b | 0 <= a < b < |sd| ensures CodeLess(sd[a], sd[b]) {
          if b == |sd| - 1 {
            assert sd[b] == dates[n - 1] && sd[a] == prev[a].date;
          } else {
            assert sd[a] == pd[a] && sd[b] == pd[b];
          }
        }
      } else {
        assert ss == prev;
      }
    }
  }

  /**
   * Math.floor(n * 0.8), computed on integers: the double nearest 0.8 lies a
   * little above it and 4n/5 is either a whole number or at least 1/5 below
   * the next one, so the floor is 4n div 5 for every array length.
   */
  function SplitIndex(n: nat): (k: nat)
    ensures k <= n && 5 * k <= 4 * n < 5 * k + 5
  {
    (4 * n) / 5
  }

  /** What createSequences returns: the tensors' contents, the symbols, testDates and featuresPerSymbol. */
  datatype SequenceSet = SequenceSet(
    xTrain: seq<seq<seq<Feature>>>, yTrain: seq<seq<nat>>,
    xTest: seq<seq<seq<Feature>>>, yTest: seq<seq<nat>>,
    symbols: seq<string>, testDates: seq<string>, featuresPerSymbol: nat)

  function StepsOf(samples: seq<Sample>): (r: seq<seq<seq<Feature>>>)
    ensures |r| == |samples| && forall k :: 0 <= k < |r| ==> r[k] == samples[k].steps
  {
    if samples == [] then [] else StepsOf(samples[..|samples| - 1]) + [samples[|samples| - 1].steps]
  }

  function TargetsOf(samples: seq<Sample>): (r: seq<seq<nat>>)
    ensures |r| == |samples| && forall k :: 0 <= k < |r| ==> r[k] == samples[k].target
  {
    if samples == [] then [] else TargetsOf(samples[..|samples| - 1]) + [samples[|samples| - 1].target]
  }

  /** The chronological 80/20 split of the kept samples. */
  function SplitSamples(samples: seq<Sample>, symbols: seq<string>, featuresPerSymbol: nat): SequenceSet
  {
    var split := SplitIndex(|samples|);
    var xs, ys := StepsOf(samples), TargetsOf(samples);
    SequenceSet(xs[..split], ys[..split], xs[split..], ys[split..], symbols, SampleDates(samples)[split..], featuresPerSymbol)
  }

  /**
   * Train is the first floor(0.8 n) samples and test the rest, nothing lost
   * or reordered, and testDates line up with the test samples.
   */
  lemma SplitPartition(samples: seq<Sample>, symbols: seq<string>, featuresPerSymbol: nat)
    ensures var r := SplitSamples(samples, symbols, featuresPerSymbol);
      && |r.xTrain| == |r.yTrain| == SplitIndex(|samples|)
      && |r.xTest| == |r.yTest| == |r.testDates| == |samples| - SplitIndex(|samples|)
      && (forall k :: 0 <= k < |r.xTrain| ==> r.xTrain[k] == samples[k].steps && r.yTrain[k] == samples[k].target)
      && (forall k :: 0 <= k < |r.xTest| ==>
            r.xTest[k] == samples[SplitIndex(|samples|) + k].steps &&
            r.yTest[k] == samples[SplitIndex(|samples|) + k].target &&
            r.testDates[k] == samples[SplitIndex(|samples|) + k].date)
      && r.symbols == symbols && r.featuresPerSymbol == featuresPerSymbol
  {
  }

  /**
   * Every training sample is dated before every test sample: with dates in
   * increasing order, a sample among the first SplitIndex(n) precedes any
   * sample from SplitIndex(n) on.
   */
  lemma TrainBeforeTest(samples: seq<Sample>, a: nat, b: nat)
    requires StrictlySorted(SampleDates(samples))
    requires a < SplitIndex(|samples|) <= b < |samples|
    ensures CodeLess(samples[a].date, samples[b].date)
  {
    var sd := SampleDates(samples);
    assert sd[a] == samples[a].date;
    assert sd[b] == samples[b].date;
  }

  /** What createSequences yields over a normalised table: the split samples, or the error of the index loop. */
  function SequencesOf(norm: NormTable, data: Table, symbols: seq<string>, dates: seq<string>, seqLen: nat, horizon: nat, featuresPerSymbol: nat)
    : Result<SequenceSet>
    requires forall s :: s in symbols ==> s in data
  {
    var samples := SamplesUpTo(norm, data, symbols, dates, seqLen, horizon, LastIndex(dates, seqLen, horizon));
    if samples.Err? then Err(samples.message) else Ok(SplitSamples(samples.value, symbols, featuresPerSymbol))
  }

  method BuildSequences(norm: NormTable, data: Table, symbols: seq<string>, dates: seq<string>, seqLen: nat, horizon: nat, featuresPerSymbol: nat)
    returns (r: Result<SequenceSet>)
    requires forall s :: s in symbols ==> s in data
    ensures r == SequencesOf(norm, data, symbols, dates, seqLen, horizon, featuresPerSymbol)
  {
    var samples := BuildSamples(norm, data, symbols, dates, seqLen, horizon);
    if samples.Err? {
      return Err(samples.message);
    }
    r := Ok(SplitSamples(samples.value, symbols, featuresPerSymbol));
  }

  /** The symbols the rows name are exactly the keys of the table they build. */
  lemma SymbolsAreKeys(rows: seq<Row>, s: string)
    ensures s in SymbolsOf(rows) <==> s in TableOf(rows)
  {
    SymbolsOfRows(rows, s);
    TableSymbols(rows, s);
  }

  /** The rows of a CSV text: trimmed, split into lines, the first one the header. */
  function CsvRows(text: string, pf: string -> real): seq<Row>
  {
    var lines := Split(Trim(text), '\n');
    RowsUpTo(Split(lines[0], ','), lines, |lines|, pf)
  }

  /**
   * The loader: the parsed table and its sorted symbols and dates, the
   * normalised table, and the train and test sets of the last createSequences.
   */
  class DataLoader {
    var stocksData: Option<Table>
    var normalizedData: Option<NormTable>
    var symbols: seq<string>
    var dates: seq<string>
    var xTrain: Option<seq<seq<seq<Feature>>>>
    var yTrain: Option<seq<seq<nat>>>
    var xTest: Option<seq<seq<seq<Feature>>>>
    var yTest: Option<seq<seq<nat>>>
    var testDates: seq<string>
    var featuresPerSymbol: nat

    /** symbols and dates are sorted, the symbols are the table's keys, and a normalised table implies a loaded one. */
    ghost predicate Valid()
      reads this
    {
      && (stocksData.Some? ==>
            StrictlySorted(symbols) && StrictlySorted(dates) &&
            forall s :: s in symbols <==> s in stocksData.value)
      && (normalizedData.Some? ==> stocksData.Some?)
    }

    constructor()
      ensures Valid()
      ensures stocksData == None && normalizedData == None && symbols == [] && dates == []
      ensures xTrain == None && yTrain == None && xTest == None && yTest == None && testDates == []
      ensures featuresPerSymbol == 2
    {
      stocksData, normalizedData := None, None;
      symbols, dates := [], [];
      xTrain, yTrain, xTest, yTest := None, None, None, None;
      testDates := [];
      featuresPerSymbol := 2;
    }

    /**
     * parseCSV: the table of the admitted rows, its symbols and dates as
     * sorted duplicate-free lists; a normalised table from earlier data is kept.
     */
    method ParseCSV(text: string, pf: string -> real)
      requires Valid()
      modifies this
      ensures Valid()
      ensures var rows := CsvRows(text, pf);
        && stocksData == Some(TableOf(rows))
        && (forall s :: s in symbols <==> s in SymbolsOf(rows))
        && (forall d :: d in dates <==> d in DatesOf(rows))
      ensures normalizedData == old(normalizedData) && featuresPerSymbol == old(featuresPerSymbol)
      ensures xTrain == old(xTrain) && yTrain == old(yTrain) && xTest == old(xTest) && yTest == old(yTest)
      ensures testDates == old(testDates)
    {
      var lines := Split(Trim(text), '\n');
      var headers := Split(lines[0], ',');
      var data, syms, ds := ReadQuotes(headers, lines, pf);
      ghost var rows := RowsUpTo(headers, lines, |lines|, pf);
      forall s ensures s in syms <==> s in data {
        SymbolsAreKeys(rows, s);
      }
      symbols, dates, stocksData := syms, ds, Some(data);
    }

    /**
     * normalizeData: throws without data; otherwise builds the normalised
     * table of every symbol and sets featuresPerSymbol to 7.
     */
    method NormalizeData() returns (r: Result<NormTable>)
      requires Valid()
      modifies this
      ensures Valid()
      ensures stocksData == old(stocksData) && symbols == old(symbols) && dates == old(dates)
      ensures stocksData.None? ==> r == Err("No data loaded") && normalizedData == old(normalizedData) && featuresPerSymbol == old(featuresPerSymbol)
      ensures stocksData.Some? ==>
        && r == Ok(Normalized(stocksData.value, symbols, dates))
        && normalizedData == Some(r.value)
        && featuresPerSymbol == 7
      ensures xTrain == old(xTrain) && yTrain == old(yTrain) && xTest == old(xTest) && yTest == old(yTest)
      ensures testDates == old(testDates)
    {
      if stocksData.None? {
        return Err("No data loaded");
      }
      var norm := NormalizeTable(stocksData.value, symbols, dates);
      normalizedData := Some(norm);
      featuresPerSymbol := 7;
      r := Ok(norm);
    }

    /** The normalised table after the first line of createSequences has run. */
    ghost function NormalizedAfter(): Option<NormTable>
      reads this
      requires Valid()
    {
      if normalizedData.Some? then normalizedData
      else if stocksData.Some? then Some(Normalized(stocksData.value, symbols, dates))
      else None
    }

    /** The first line of createSequences: normalise unless a normalised table exists. */
    method EnsureNormalized() returns (r: Result<NormTable>)
      requires Valid()
      modifies this
      ensures Valid()
      ensures stocksData == old(stocksData) && symbols == old(symbols) && dates == old(dates)
      ensures xTrain == old(xTrain) && yTrain == old(yTrain) && xTest == old(xTest) && yTest == old(yTest)
      ensures testDates == old(testDates)
      ensures normalizedData == old(NormalizedAfter())
      ensures r == if normalizedData.Some? then Ok(normalizedData.value) else Err("No data loaded")
      ensures featuresPerSymbol == if old(normalizedData).None? && stocksData.Some? then 7 else old(featuresPerSymbol)
    {
      if normalizedData.Some? {
        return Ok(normalizedData.value);
      }
      r := NormalizeData();
    }

    /**
     * createSequences: normalises first when no normalised table exists, then
     * keeps the samples of SamplesUpTo and splits them 80/20 in time order.
     */
    method CreateSequences(sequenceLength: nat := 12, predictionHorizon: nat := 3) returns (r: Result<SequenceSet>)
      requires Valid()
      modifies this
      ensures Valid()
      ensures stocksData == old(stocksData) && symbols == old(symbols) && dates == old(dates)
      ensures normalizedData == old(NormalizedAfter())
      ensures featuresPerSymbol == if old(normalizedData).None? && stocksData.Some? then 7 else old(featuresPerSymbol)
      ensures r == if normalizedData.None? then Err("No data loaded")
        else SequencesOf(normalizedData.value, stocksData.value, symbols, dates, sequenceLength, predictionHorizon, featuresPerSymbol)
      ensures r.Ok? ==>
        && xTrain == Some(r.value.xTrain) && yTrain == Some(r.value.yTrain)
        && xTest == Some(r.value.xTest) && yTest == Some(r.value.yTest)
        && testDates == r.value.testDates
      ensures r.Err? ==>
        && xTrain == old(xTrain) && yTrain == old(yTrain) && xTest == old(xTest) && yTest == old(yTest)
        && testDates == old(testDates)
    {
      var norm := EnsureNormalized();
      if norm.Err? {
        return Err(norm.message);
      }
      var sequences := BuildSequences(norm.value, stocksData.value, symbols, dates, sequenceLength, predictionHorizon, featuresPerSymbol);
      if sequences.Err? {
        return Err(sequences.message);
      }
      var split := sequences.value;
      xTrain, yTrain, xTest, yTest := Some(split.xTrain), Some(split.yTrain), Some(split.xTest), Some(split.yTest);
      testDates := split.testDates;
      r := Ok(split);
    }
  }
}

=== FILE: titanic.dfy ===
/**
 * The Titanic analysis script's data path: the quote-aware CSV line
 * splitter, the admission and field mapping of passenger rows, and the
 * mean, median and histogram helpers behind its statistics. Console, SVG
 * and HTML output are not modelled; parseInt and parseFloat are oracles
 * whose None stands for NaN, and numbers are exact reals.
 */
module Titanic {
  import opened Common

  // ---------------------------------------------------------------------
  // parseCSVLine
  // ---------------------------------------------------------------------

  /** The splitter's state: the finished fields, the field being built, and whether a quote is open. */
  datatype LineScan = LineScan(result: seq<string>, current: string, inQuotes: bool)

  const Start := LineScan([], "", false)

  /** One character of the splitter: a quote toggles, a comma outside quotes ends the field, anything else is kept. */
  function ScanChar(st: LineScan, c: char): LineScan
  {
    if c == '"' then st.(inQuotes := !st.inQuotes)
    else if c == ',' && !st.inQuotes then LineScan(st.result + [st.current], "", st.inQuotes)
    else st.(current := st.current + [c])
  }

  /** The splitter's state after reading s from state st. */
  function Run(st: LineScan, s: string): LineScan
  {
    if s == [] then st else ScanChar(Run(st, s[..|s| - 1]), s[|s| - 1])
  }

  /** Whether the end of s is inside quotes: an odd number of '"' in s. */
  function InQuotes(s: string): bool
  {
    if s == [] then false else InQuotes(s[..|s| - 1]) != (s[|s| - 1] == '"')
  }

  /** The number of commas of s that are not inside a quoted span. */
  function OutsideCommas(s: string): nat
  {
    if s == [] then 0
    else OutsideCommas(s[..|s| - 1]) + (if s[|s| - 1] == ',' && !InQuotes(s[..|s| - 1]) then 1 else 0)
  }

  /** s.replace(/"/g, ''): s without its double quotes. */
  function Unquote(s: string): (r: string)
    ensures '"' !in r
  {
    if s == [] then [] else Unquote(s[..|s| - 1]) + (if s[|s| - 1] == '"' then [] else [s[|s| - 1]])
  }

  /** The fields the splitter returns for a line. */
  function Fields(line: string): seq<string>
  {
    Parts(Run(Start, line))
  }

  /**
   * parseCSVLine: one field more than there are commas outside quotes;
   * no field holds a quote; joining the fields with commas gives the line
   * without its quotes.
   */
  method ParseCSVLine(line: string) returns (fields: seq<string>)
    ensures fields == Fields(line)
    ensures |fields| == 1 + OutsideCommas(line)
    ensures CharFree(fields, '"')
    ensures Join(fields, ',') == Unquote(line)
  {
    var result: seq<string> := [];
    var current := "";
    var inQuotes := false;
    for i := 0 to |line|
      invariant LineScan(result, current, inQuotes) == Run(Start, line[..i])
    {
      assert line[..i + 1][..i] == line[..i];
      var c := line[i];
      if c == '"' {
        inQuotes := !inQuotes;
      } else if c == ',' && !inQuotes {
        result := result + [current];
        current := "";
      } else {
        current := current + [c];
      }
    }
    assert line[..|line|] == line;
    fields := result + [current];
    ScanCounts(line);
    ScanQuoteFree(line);
    ScanJoin(line);
  }

  /** Adding a character to the last part adds it to the end of the join. */
  lemma {:induction false} JoinExtendLast(parts: seq<string>, last: string, c: char, sep: char)
    ensures Join(parts + [last + [c]], sep) == Join(parts + [last], sep) + [c]
    decreases |parts|
  {
    if parts != [] {
      JoinExtendLast(parts[1..], last, c, sep);
      assert (parts + [last + [c]])[1..] == parts[1..] + [last + [c]];
      assert (parts + [last])[1..] == parts[1..] + [last];
    }
  }

  /** No part contains ch. */
  predicate CharFree(parts: seq<string>, ch: char)
  {
    forall i :: 0 <= i < |parts| ==> ch !in parts[i]
  }

  /** The fields so far and the field being built. */
  function Parts(st: LineScan): seq<string>
  {
    st.result + [st.current]
  }

  /** The splitter tracks the quote parity, and it has ended one field per comma outside quotes. */
  lemma {:induction false} ScanCounts(s: string)
    ensures Run(Start, s).inQuotes == InQuotes(s)
    ensures |Run(Start, s).result| == OutsideCommas(s)
  {
    if s != [] {
      ScanCounts(s[..|s| - 1]);
    }
  }

  /** No field the splitter builds holds a quote. */
  lemma {:induction false} ScanQuoteFree(s: string)
    ensures CharFree(Parts(Run(Start, s)), '"')
  {
    if s != [] {
      var p, c := s[..|s| - 1], s[|s| - 1];
      ScanQuoteFree(p);
      var st := Run(Start, p);
      assert Parts(st)[|Parts(st)| - 1] == st.current;
      if c == '"' {
      } else if c == ',' && !st.inQuotes {
        assert Parts(Run(Start, s)) == Parts(st) + [""];
      } else {
        var cur := st.current + [c];
        assert '"' !in st.current && '"' !in cur;
        assert Parts(Run(Start, s)) == st.result + [cur];
        forall i | 0 <= i < |st.result| ensures '"' !in st.result[i] {
          assert st.result[i] == Parts(st)[i];
        }
      }
    }
  }

  /** In a line without quotes no quote is ever open, so no field holds a comma. */
  lemma {:induction false} ScanCommaFree(s: string)
    requires '"' !in s
    ensures !Run(Start, s).inQuotes && CharFree(Parts(Run(Start, s)), ',')
  {
    if s != [] {
      var p, c := s[..|s| - 1], s[|s| - 1];
      assert forall k :: 0 <= k < |p| ==> p[k] == s[k];
      ScanCommaFree(p);
      var st := Run(Start, p);
      assert Parts(st)[|Parts(st)| - 1] == st.current;
      if c == ',' {
        assert Parts(Run(Start, s)) == Parts(st) + [""];
      } else {
        var cur := st.current + [c];
        assert ',' !in st.current && ',' !in cur;
        assert Parts(Run(Start, s)) == st.result + [cur];
        forall i | 0 <= i < |st.result| ensures ',' !in st.result[i] {
          assert st.result[i] == Parts(st)[i];
        }
      }
    }
  }

  /** Joining the fields with commas gives the line read so far, without its quotes. */
  lemma {:induction false} ScanJoin(s: string)
    ensures Join(Parts(Run(Start, s)), ',') == Unquote(s)
  {
    if s != [] {
      var p, c := s[..|s| - 1], s[|s| - 1];
      ScanJoin(p);
      var st := Run(Start, p);
      if c == '"' {
      } else if c == ',' && !st.inQuotes {
        JoinSnoc(Parts(st), "", ',');
        assert Parts(Run(Start, s)) == Parts(st) + [""];
      } else {
        JoinExtendLast(st.result, st.current, c, ',');
      }
    }
  }

  /** Reading a + b is reading a, then b from where a left off. */
  lemma {:induction false} RunAppend(st: LineScan, a: string, b: string)
    ensures Run(st, a + b) == Run(Run(st, a), b)
    decreases |b|
  {
    if b == [] {
      assert a + b == a;
    } else {
      RunAppend(st, a, b[..|b| - 1]);
      assert (a + b)[..|a + b| - 1] == a + b[..|b| - 1];
    }
  }

  /** Inside quotes, quote-free text goes into the current field, commas included. */
  lemma {:induction false} RunInsideQuotes(st: LineScan, q: string)
    requires st.inQuotes && '"' !in q
    ensures Run(st, q) == st.(current := st.current + q)
    decreases |q|
  {
    if q == [] {
      assert st.current + q == st.current;
    } else {
      RunInsideQuotes(st, q[..|q| - 1]);
      assert st.current + q == st.current + q[..|q| - 1] + [q[|q| - 1]];
    }
  }

  /**
   * A quoted span without inner quotes, met outside quotes, adds its text
   * to the field being built, commas included, and ends no field.
   */
  lemma QuotedSpanStaysInField(a: string, q: string)
    requires !InQuotes(a) && '"' !in q
    ensures Run(Start, a + ['"'] + q + ['"']) == Run(Start, a).(current := Run(Start, a).current + q)
  {
    ScanCounts(a);
    QuotedSpanFrom(Run(Start, a), q);
    RunAppend(Start, a, ['"'] + q + ['"']);
    assert a + ['"'] + q + ['"'] == a + (['"'] + q + ['"']);
  }

  /** From a state outside quotes, a quoted span without inner quotes only extends the current field. */
  lemma QuotedSpanFrom(st: LineScan, q: string)
    requires !st.inQuotes && '"' !in q
    ensures Run(st, ['"'] + q + ['"']) == st.(current := st.current + q)
  {
    var open := st.(inQuotes := true);
    var mid := open.(current := st.current + q);
    RunOne(st, '"');
    RunInsideQuotes(open, q);
    RunOne(mid, '"');
    RunAppend(st, ['"'], q);
    assert Run(st, ['"'] + q) == mid;
    RunAppend(st, ['"'] + q, ['"']);
  }

  /** Reading one character is one scanner step. */
  lemma RunOne(st: LineScan, c: char)
    ensures Run(st, [c]) == ScanChar(st, c)
  {
    assert [c][..0] == [];
  }

  /** A line without quotes is split at every comma, as String.prototype.split does. */
  lemma NoQuotesIsSplit(line: string)
    requires '"' !in line
    ensures Fields(line) == Split(line, ',')
  {
    ScanCommaFree(line);
    ScanJoin(line);
    UnquoteNoQuotes(line);
    SplitJoin(Fields(line), ',');
  }

  lemma {:induction false} UnquoteNoQuotes(s: string)
    requires '"' !in s
    ensures Unquote(s) == s
  {
    if s != [] {
      UnquoteNoQuotes(s[..|s| - 1]);
      assert s[..|s| - 1] + [s[|s| - 1]] == s;
    }
  }

  // ---------------------------------------------------------------------
  // loadData
  // ---------------------------------------------------------------------

  /** Age and Fare: null for an empty field, otherwise parseFloat's result. */
  datatype Measure = Missing | Parsed(value: Option<real>)

  /** A passenger record; parseInt results are None when NaN. */
  datatype Passenger = Passenger(
    passengerId: Option<int>, survived: Option<int>, pclass: Option<int>,
    name: string, sex: string, age: Measure, sibSp: Option<int>, parch: Option<int>,
    ticket: string, fare: Measure, cabin: string, embarked: string)

  /** values[i], with a field past the end read as the empty string. */
  function FieldAt(values: seq<string>, i: nat): string
  {
    if i < |values| then values[i] else ""
  }

  /** A field that is empty maps to null, any other to its parseFloat value. */
  function MeasureOf(field: string, parseFloat: string -> Option<real>): (m: Measure)
    ensures m.Missing? <==> field == ""
    ensures m.Parsed? ==> m.value == parseFloat(field)
  {
    if field == "" then Missing else Parsed(parseFloat(field))
  }

  /**
   * The passenger built from a row's fields, in the file's column order.
   * A column the row lacks reads as ""; the source reads `undefined` for
   * Sex and Ticket there, and Sex is only ever compared with "male" and
   * "female", which neither value equals.
   */
  function ToPassenger(values: seq<string>, parseInt: string -> Option<int>, parseFloat: string -> Option<real>): (p: Passenger)
    requires |values| >= 4
    ensures p.name == Unquote(values[3])
    ensures p.age.Missing? <==> FieldAt(values, 5) == ""
    ensures p.fare.Missing? <==> FieldAt(values, 9) == ""
    ensures p.cabin == FieldAt(values, 10) && p.embarked == FieldAt(values, 11)
  {
    Passenger(
      parseInt(values[0]), parseInt(values[1]), parseInt(values[2]),
      Unquote(values[3]), FieldAt(values, 4), MeasureOf(FieldAt(values, 5), parseFloat),
      parseInt(FieldAt(values, 6)), parseInt(FieldAt(values, 7)), FieldAt(values, 8),
      MeasureOf(FieldAt(values, 9), parseFloat), FieldAt(values, 10), FieldAt(values, 11))
  }

  /** Splitting already removed the quotes, so the name's quote removal changes nothing. */
  lemma NameKeepsField(line: string, parseInt: string -> Option<int>, parseFloat: string -> Option<real>)
    requires |Fields(line)| >= 4
    ensures ToPassenger(Fields(line), parseInt, parseFloat).name == Fields(line)[3]
  {
    ScanQuoteFree(line);
    UnquoteNoQuotes(Fields(line)[3]);
  }

  /** A data line is admitted when it is not blank and has at least as many fields as the header. */
  predicate Admitted(line: string, headerCount: nat)
  {
    Trim(line) != "" && |Fields(line)| >= headerCount
  }

  /** The outcome of loading: the passengers pushed, and whether loading stopped with an exception. */
  datatype Loaded = Loaded(data: seq<Passenger>, failed: bool)

  /**
   * The rows loadData pushes for the data lines, in order. An admitted
   * row with fewer than four fields (possible only under a header of fewer
   * than four columns) has no name to unquote: the exception ends loading.
   */
  function LoadRows(rows: seq<string>, headerCount: nat, parseInt: string -> Option<int>, parseFloat: string -> Option<real>): (r: Loaded)
    ensures |r.data| <= |rows|
  {
    if rows == [] then Loaded([], false)
    else LoadLine(LoadRows(rows[..|rows| - 1], headerCount, parseInt, parseFloat), rows[|rows| - 1], headerCount, parseInt, parseFloat)
  }

  /** One data line: skipped once loading has failed or when not admitted, otherwise pushed (or failing). */
  function LoadLine(prev: Loaded, line: string, headerCount: nat, parseInt: string -> Option<int>, parseFloat: string -> Option<real>): (r: Loaded)
    ensures |r.data| <= |prev.data| + 1
  {
    if prev.failed || !Admitted(line, headerCount) then prev
    else if |Fields(line)| < 4 then Loaded(prev.data, true)
    else Loaded(prev.data + [ToPassenger(Fields(line), parseInt, parseFloat)], false)
  }

  /** The admitted lines, in file order. */
  function AdmittedLines(rows: seq<string>, headerCount: nat): (r: seq<string>)
    ensures |r| <= |rows|
    ensures forall i :: 0 <= i < |r| ==> Admitted(r[i], headerCount) && r[i] in rows
  {
    if rows == [] then []
    else
      var line := rows[|rows| - 1];
      AdmittedLines(rows[..|rows| - 1], headerCount) + (if Admitted(line, headerCount) then [line] else [])
  }

  /**
   * Under a header of at least four columns loading never fails, and the
   * passengers are exactly those of the admitted lines, in file order.
   */
  lemma {:induction false} LoadIsFilterMap(rows: seq<string>, headerCount: nat,
                                          parseInt: string -> Option<int>, parseFloat: string -> Option<real>)
    requires headerCount >= 4
    ensures var r := LoadRows(rows, headerCount, parseInt, parseFloat);
      var adm := AdmittedLines(rows, headerCount);
      && !r.failed && |r.data| == |adm|
      && forall i :: 0 <= i < |adm| ==> r.data[i] == ToPassenger(Fields(adm[i]), parseInt, parseFloat)
  {
    if rows != [] {
      LoadIsFilterMap(rows[..|rows| - 1], headerCount, parseInt, parseFloat);
    }
  }

  /** Once an exception has ended loading, later lines change nothing. */
  lemma {:induction false} FailedLoadStops(rows: seq<string>, i: nat, headerCount: nat,
                                          parseInt: string -> Option<int>, parseFloat: string -> Option<real>)
    requires i <= |rows| && LoadRows(rows[..i], headerCount, parseInt, parseFloat).failed
    ensures LoadRows(rows, headerCount, parseInt, parseFloat) == LoadRows(rows[..i], headerCount, parseInt, parseFloat)
    decreases |rows| - i
  {
    if i < |rows| {
      assert rows[..i + 1][..i] == rows[..i];
      FailedLoadStops(rows, i + 1, headerCount, parseInt, parseFloat);
    } else {
      assert rows[..i] == rows;
    }
  }

  lemma LoadRowsStep(rows: seq<string>, i: nat, headerCount: nat,
                     parseInt: string -> Option<int>, parseFloat: string -> Option<real>)
    requires i < |rows|
    ensures LoadRows(rows[..i + 1], headerCount, parseInt, parseFloat)
      == LoadLine(LoadRows(rows[..i], headerCount, parseInt, parseFloat), rows[i], headerCount, parseInt, parseFloat)
  {
    assert rows[..i + 1][..i] == rows[..i];
  }

  /**
   * The body of loadData's loop for one data line: a blank line or one
   * with fewer fields than the header is skipped; otherwise the fields are
   * pushed as a passenger, unless there are fewer than four of them, when
   * unquoting the missing name throws.
   */
  method ReadRow(ghost prev: Loaded, line: string, headerCount: nat,
                 parseInt: string -> Option<int>, parseFloat: string -> Option<real>)
    returns (row: seq<Passenger>, failed: bool)
    requires !prev.failed
    ensures LoadLine(prev, line, headerCount, parseInt, parseFloat) == Loaded(prev.data + row, failed)
  {
    row, failed := [], false;
    if Trim(line) != "" {
      var values := ParseCSVLine(line);
      if |values| >= headerCount {
        if |values| < 4 {
          return [], true;
        }
        row := [ToPassenger(values, parseInt, parseFloat)];
      }
    }
  }

  /**
   * loadData's loop over the data lines: the passengers pushed, and
   * whether an exception ended the loop early.
   */
  method ReadRows(rows: seq<string>, headerCount: nat, parseInt: string -> Option<int>, parseFloat: string -> Option<real>)
    returns (pushed: seq<Passenger>, failed: bool)
    ensures Loaded(pushed, failed) == LoadRows(rows, headerCount, parseInt, parseFloat)
  {
    pushed := [];
    ghost var acc := Loaded([], false);
    for i := 0 to |rows|
      invariant acc == LoadRows(rows[..i], headerCount, parseInt, parseFloat)
      invariant !acc.failed && pushed == acc.data
    {
      LoadRowsStep(rows, i, headerCount, parseInt, parseFloat);
      var row, bad := ReadRow(acc, rows[i], headerCount, parseInt, parseFloat);
      if bad {
        FailedLoadStops(rows, i + 1, headerCount, parseInt, parseFloat);
        return pushed, true;
      }
      pushed := pushed + row;
      acc := Loaded(pushed, false);
    }
    assert rows[..|rows|] == rows;
    failed := false;
  }

  /** The visualiser object: the passengers read by loadData. */
  class TitanicVisualizer {
    var data: seq<Passenger>

    /** The constructor loads the file's contents. */
    constructor (csvContent: string, parseInt: string -> Option<int>, parseFloat: string -> Option<real>)
      ensures var lines := Split(csvContent, '\n');
        data == LoadRows(lines[1..], |Split(lines[0], ',')|, parseInt, parseFloat).data
    {
      data := [];
      new;
      ghost var lines := Split(csvContent, '\n');
      ghost var loaded := LoadRows(lines[1..], |Split(lines[0], ',')|, parseInt, parseFloat).data;
      var _ := LoadData(csvContent, parseInt, parseFloat);
      assert data == [] + loaded;
    }

    /**
     * loadData: the first line's comma-separated names fix the header
     * width; every later line that is admitted is split and pushed as a
     * passenger. An exception stops loading, keeping what was pushed.
     */
    method LoadData(csvContent: string, parseInt: string -> Option<int>, parseFloat: string -> Option<real>)
      returns (failed: bool)
      modifies this
      ensures var lines := Split(csvContent, '\n');
        var r := LoadRows(lines[1..], |Split(lines[0], ',')|, parseInt, parseFloat);
        data == old(data) + r.data && failed == r.failed
    {
      var lines := Split(csvContent, '\n');
      var headers := Split(lines[0], ',');
      var rows := lines[1..];
      var pushed;
      pushed, failed := ReadRows(rows, |headers|, parseInt, parseFloat);
      data := data + pushed;
    }
  }

  // ---------------------------------------------------------------------
  // mean and median
  // ---------------------------------------------------------------------

  /** values.reduce(+, 0) / values.length: NaN (None) for no values. */
  function Mean(values: seq<real>): (m: Option<real>)
    ensures m.None? <==> values == []
    ensures m.Some? ==> m.value * |values| as real == Sum(values)
  {
    if values == [] then None else Some(Sum(values) / |values| as real)
  }

  lemma {:induction false} SumBetween(values: seq<real>, lo: real, hi: real)
    requires forall i :: 0 <= i < |values| ==> lo <= values[i] <= hi
    ensures |values| as real * lo <= Sum(values) <= |values| as real * hi
  {
    if values != [] {
      SumBetween(values[..|values| - 1], lo, hi);
    }
  }

  /** The mean lies between any bounds of the values. */
  lemma MeanBetween(values: seq<real>, lo: real, hi: real)
    requires values != []
    requires forall i :: 0 <= i < |values| ==> lo <= values[i] <= hi
    ensures lo <= Mean(values).value <= hi
  {
    SumBetween(values, lo, hi);
    var m, n := Mean(values).value, |values| as real;
    if m < lo {
      MulStrict(m, lo, n);
      assert false;
    }
    if m > hi {
      MulStrict(hi, m, n);
      assert false;
    }
  }

  predicate IsSorted(s: seq<real>)
  {
    forall i, j :: 0 <= i < j < |s| ==> s[i] <= s[j]
  }

  /** x placed before the first element it does not exceed. */
  function Insert(x: real, s: seq<real>): (r: seq<real>)
    ensures multiset(r) == multiset(s) + multiset{x}
    ensures r != [] && (r[0] == x || (s != [] && r[0] == s[0]))
  {
    if s == [] then [x]
    else if x <= s[0] then [x] + s
    else
      assert s == [s[0]] + s[1..];
      [s[0]] + Insert(x, s[1..])
  }

  /** A sorted sequence stays sorted with a head no greater than its first element. */
  lemma ConsSorted(h: real, t: seq<real>)
    requires IsSorted(t) && (t == [] || h <= t[0])
    ensures IsSorted([h] + t)
  {
  }

  /** Inserting into a sorted sequence keeps it sorted. */
  lemma {:induction false} InsertSorted(x: real, s: seq<real>)
    requires IsSorted(s)
    ensures IsSorted(Insert(x, s))
    decreases |s|
  {
    if s == [] {
    } else if x <= s[0] {
      ConsSorted(x, s);
    } else {
      InsertSorted(x, s[1..]);
      ConsSorted(s[0], Insert(x, s[1..]));
    }
  }

  /** The ascending numeric order [...values].sort((a, b) => a - b) produces. */
  function SortAscending(s: seq<real>): (r: seq<real>)
    ensures IsSorted(r) && multiset(r) == multiset(s)
  {
    if s == [] then []
    else
      assert s == [s[0]] + s[1..];
      InsertSorted(s[0], SortAscending(s[1..]));
      Insert(s[0], SortAscending(s[1..]))
  }

  /** The first element of a sorted sequence is at most each of its elements. */
  lemma SortedHeadIsLeast(s: seq<real>, x: real)
    requires IsSorted(s) && x in multiset(s)
    ensures s[0] <= x
  {
    assert x in s;
    var j :| 0 <= j < |s| && s[j] == x;
  }

  /** Dropping the head of a sorted sequence leaves a sorted sequence with one element less. */
  lemma SortedTail(s: seq<real>)
    requires IsSorted(s) && s != []
    ensures IsSorted(s[1..])
    ensures multiset(s[1..]) == multiset(s) - multiset{s[0]}
  {
    assert s == [s[0]] + s[1..];
  }

  /** Two sorted sequences with the same elements start with the same, least, element. */
  lemma SortedHeadsEqual(a: seq<real>, b: seq<real>)
    requires IsSorted(a) && IsSorted(b) && multiset(a) == multiset(b) && a != []
    ensures b != [] && a[0] == b[0]
  {
    assert a[0] in a;
    assert b != [];
    assert b[0] in b;
    SortedHeadIsLeast(b, a[0]);
    SortedHeadIsLeast(a, b[0]);
  }

  /** Two sorted sequences with the same elements are equal: any correct sort gives the same copy. */
  lemma {:induction false} SortedUnique(a: seq<real>, b: seq<real>)
    requires IsSorted(a) && IsSorted(b) && multiset(a) == multiset(b)
    ensures a == b
    decreases |a|
  {
    if a == [] {
      assert |b| == |multiset(b)| == 0;
    } else {
      SortedHeadsEqual(a, b);
      SortedTail(a);
      SortedTail(b);
      SortedUnique(a[1..], b[1..]);
      assert a == [a[0]] + a[1..] && b == [b[0]] + b[1..];
    }
  }

  /** The middle element of a sorted copy, or the average of its two middle elements for an even count. */
  function Middle(sorted: seq<real>): (m: Option<real>)
    ensures m.None? <==> sorted == []
  {
    var mid := |sorted| / 2;
    if |sorted| % 2 != 0 then Some(sorted[mid])
    else if sorted == [] then None
    else Some((sorted[mid - 1] + sorted[mid]) / 2.0)
  }

  /** median: the middle of the ascending sorted copy; NaN (None) for no values. */
  function Median(values: seq<real>): (m: Option<real>)
    ensures m.None? <==> values == []
  {
    Middle(SortAscending(values))
  }

  /** The median depends only on the values, not on their order. */
  lemma MedianOrderFree(a: seq<real>, b: seq<real>)
    requires multiset(a) == multiset(b)
    ensures Median(a) == Median(b)
  {
    var sa, sb := SortAscending(a), SortAscending(b);
    SortedUnique(sa, sb);
  }

  /** On sorted values the median is the middle element, or the average of the two middle ones. */
  lemma MedianOfSorted(s: seq<real>)
    requires IsSorted(s) && s != []
    ensures |s| % 2 == 1 ==> Median(s) == Some(s[|s| / 2])
    ensures |s| % 2 == 0 ==> Median(s) == Some((s[|s| / 2 - 1] + s[|s| / 2]) / 2.0)
  {
    var sorted := SortAscending(s);
    SortedUnique(sorted, s);
    assert Median(s) == Middle(s);
  }

  /** The median lies between any bounds of the values. */
  lemma MedianBetween(values: seq<real>, lo: real, hi: real)
    requires values != []
    requires forall i :: 0 <= i < |values| ==> lo <= values[i] <= hi
    ensures lo <= Median(values).value <= hi
  {
    var sorted := SortAscending(values);
    forall i | 0 <= i < |sorted| ensures lo <= sorted[i] <= hi {
      assert sorted[i] in multiset(values);
    }
  }

  // ---------------------------------------------------------------------
  // createBins
  // ---------------------------------------------------------------------

  datatype Bin = Bin(lo: real, hi: real, count: nat)

  /** values.filter(v => v >= lo && v < hi).length */
  function CountIn(values: seq<real>, lo: real, hi: real): (n: nat)
    ensures n <= |values|
  {
    if values == [] then 0
    else
      var v := values[|values| - 1];
      CountIn(values[..|values| - 1], lo, hi) + (if lo <= v < hi then 1 else 0)
  }

  /** The i-th bin edge, min + i * binSize with binSize = (max - min) / binCount. */
  function BinEdge(min: real, max: real, binCount: nat, i: nat): real
    requires binCount > 0
  {
    min + i as real * ((max - min) / binCount as real)
  }

  /**
   * createBins: binCount bins, bin i spanning [edge i, edge i + 1) and
   * counting the values inside it. With no bins the bin size is never used.
   */
  method CreateBins(values: seq<real>, min: real, max: real, binCount: nat) returns (bins: seq<Bin>)
    ensures |bins| == binCount
    ensures forall i :: 0 <= i < binCount ==>
      bins[i] == Bin(BinEdge(min, max, binCount, i), BinEdge(min, max, binCount, i + 1),
                     CountIn(values, BinEdge(min, max, binCount, i), BinEdge(min, max, binCount, i + 1)))
  {
    var binSize := if binCount > 0 then (max - min) / binCount as real else 0.0;
    bins := [];
    for i := 0 to binCount
      invariant |bins| == i
      invariant forall j :: 0 <= j < i ==>
        bins[j] == Bin(BinEdge(min, max, binCount, j), BinEdge(min, max, binCount, j + 1),
                       CountIn(values, BinEdge(min, max, binCount, j), BinEdge(min, max, binCount, j + 1)))
    {
      var binMin := min + i as real * binSize;
      var binMax := min + (i + 1) as real * binSize;
      assert binMin == BinEdge(min, max, binCount, i) && binMax == BinEdge(min, max, binCount, i + 1);
      bins := bins + [Bin(binMin, binMax, CountIn(values, binMin, binMax))];
    }
  }

  /** The edges run from min to max and never decrease when min <= max. */
  lemma BinEdges(min: real, max: real, binCount: nat, i: nat, j: nat)
    requires binCount > 0 && min <= max && i <= j
    ensures BinEdge(min, max, binCount, 0) == min
    ensures BinEdge(min, max, binCount, binCount) == max
    ensures BinEdge(min, max, binCount, i) <= BinEdge(min, max, binCount, j)
  {
    var size := (max - min) / binCount as real;
    assert size * binCount as real == max - min;
    MulMonotone(i as real, j as real, size);
  }

  /** A value equal to max falls in no bin. */
  lemma MaxInNoBin(min: real, max: real, binCount: nat, i: nat)
    requires binCount > 0 && min <= max && i < binCount
    ensures !(BinEdge(min, max, binCount, i) <= max < BinEdge(min, max, binCount, i + 1))
  {
    BinEdges(min, max, binCount, i + 1, binCount);
  }

  /** Scaling a strict bound t < hi by a positive size keeps it strict for d = t * size. */
  lemma ScaledBelow(t: real, size: real, d: real, hi: real)
    requires size > 0.0 && t < hi && t * size == d
    ensures d < hi * size
  {
    MulStrict(t, hi, size);
  }

  /** A non-negative offset d lies in the size-wide slot numbered by the whole part of d / size. */
  lemma SlotOf(d: real, size: real) returns (i: nat)
    requires d >= 0.0 && size > 0.0
    ensures i as real * size <= d < (i as real + 1.0) * size
  {
    var t := d / size;
    assert t * size == d;
    i := t.Floor;
    MulMonotone(i as real, t, size);
    ScaledBelow(t, size, d, i as real + 1.0);
  }

  /** A value in [min, max) falls in the bin of the whole part of its offset over the bin size. */
  lemma BinOf(min: real, max: real, binCount: nat, v: real) returns (i: nat)
    requires binCount > 0 && min < max && min <= v < max
    ensures i < binCount && BinEdge(min, max, binCount, i) <= v < BinEdge(min, max, binCount, i + 1)
  {
    var size := (max - min) / binCount as real;
    assert size > 0.0;
    i := SlotOf(v - min, size);
    assert BinEdge(min, max, binCount, i) == min + i as real * size;
    assert BinEdge(min, max, binCount, i + 1) == min + (i as real + 1.0) * size;
    if i >= binCount {
      BinEdges(min, max, binCount, binCount, i);
      assert false;
    }
  }

  /** Bins do not overlap: a value in bin i is in no other bin. */
  lemma NotInOtherBin(min: real, max: real, binCount: nat, v: real, i: nat, j: nat)
    requires binCount > 0 && min <= max && i != j
    requires BinEdge(min, max, binCount, i) <= v < BinEdge(min, max, binCount, i + 1)
    ensures !(BinEdge(min, max, binCount, j) <= v < BinEdge(min, max, binCount, j + 1))
  {
    if j < i {
      BinEdges(min, max, binCount, j + 1, i);
    } else {
      BinEdges(min, max, binCount, i + 1, j);
    }
  }

  /** Every value in [min, max) falls in exactly one bin. */
  lemma ExactlyOneBin(min: real, max: real, binCount: nat, v: real) returns (i: nat)
    requires binCount > 0 && min < max && min <= v < max
    ensures i < binCount && BinEdge(min, max, binCount, i) <= v < BinEdge(min, max, binCount, i + 1)
    ensures forall j :: 0 <= j < binCount && j != i ==>
      !(BinEdge(min, max, binCount, j) <= v < BinEdge(min, max, binCount, j + 1))
  {
    i := BinOf(min, max, binCount, v);
    forall j | 0 <= j < binCount && j != i
      ensures !(BinEdge(min, max, binCount, j) <= v < BinEdge(min, max, binCount, j + 1))
    {
      NotInOtherBin(min, max, binCount, v, i, j);
    }
  }
}

=== FILE: ui.dfy ===
/**
 * The point-cloud page's controller: the slider settings, the current
 * dataset and evaluation set with their viewing positions, the model
 * handle, and the handlers that keep them in step with the dataset
 * module's active classes. Drawing, the DOM and TensorFlow.js training are
 * not modelled; randomness, the model's class scores and number formatting
 * are oracle parameters.
 */
module PointCloudUi {
  import opened Common
  import opened Dataset
  import Csv
  import Metrics

  /** A model handle with the input and output widths it was built with. */
  datatype Model = Model(numPoints: nat, numOutputs: nat)

  /** The tensors prepared for training: inputs and one-hot labels of both parts. */
  datatype TrainTensors = TrainTensors(inputs: seq<Cloud>, labels: seq<real>, valInputs: seq<Cloud>, valLabels: seq<real>)

  /** The cached evaluation: the fresh set, its arg-max predictions and their confusion matrix. */
  datatype EvalCache = EvalCache(data: seq<Cloud>, labels: seq<nat>, preds: seq<nat>, conf: Metrics.Matrix)

  /**
   * What renderCurrent shows: an evaluated sample, a dataset sample or
   * nothing; ViewerTypeError is the TypeError the viewer throws when it is
   * handed no cloud, before the sample caption is written.
   */
  datatype View =
    | EvalView(cloud: Cloud, trueName: string, predName: string, correct: bool)
    | DatasetView(sample: Cloud, name: string)
    | Blank
    | ViewerTypeError

  /** row.indexOf(Math.max(...row)): the position of the first largest score. */
  function ArgMax(row: seq<real>): (r: nat)
    requires row != []
    ensures r < |row|
    ensures forall j :: 0 <= j < |row| ==> row[j] <= row[r]
    ensures forall j :: 0 <= j < r ==> row[j] < row[r]
    decreases |row|
  {
    if |row| == 1 then 0
    else
      var r0 := ArgMax(row[..|row| - 1]);
      if row[|row| - 1] > row[r0] then |row| - 1 else r0
  }

  /**
   * (index + direction + n) % n. The left operand is never negative, so
   * JavaScript's remainder and Dafny's agree.
   */
  function StepIndex(index: nat, direction: int, n: nat): (r: nat)
    requires n > 0 && (direction == 1 || direction == -1)
    ensures r < n
  {
    (index + direction + n) % n
  }

  /** Next moves one place on and wraps from the last sample to the first. */
  lemma StepForward(index: nat, n: nat)
    requires index < n
    ensures StepIndex(index, 1, n) == if index + 1 < n then index + 1 else 0
  {
    if index + 1 < n {
      DivModUnique(index + 1 + n, n, 1, index + 1);
    } else {
      DivModUnique(index + 1 + n, n, 2, 0);
    }
  }

  /** Prev moves one place back and wraps from the first sample to the last. */
  lemma StepBackward(index: nat, n: nat)
    requires index < n
    ensures StepIndex(index, -1, n) == if index > 0 then index - 1 else n - 1
  {
    if index > 0 {
      DivModUnique(index - 1 + n, n, 1, index - 1);
    } else {
      DivModUnique(n - 1, n, 0, n - 1);
    }
  }

  /** Next then Prev, or Prev then Next, returns to the same sample. */
  lemma StepRoundTrip(index: nat, n: nat)
    requires index < n
    ensures StepIndex(StepIndex(index, 1, n), -1, n) == index
    ensures StepIndex(StepIndex(index, -1, n), 1, n) == index
  {
    StepForward(index, n);
    StepBackward(StepIndex(index, 1, n), n);
    StepBackward(index, n);
    StepForward(StepIndex(index, -1, n), n);
  }

  /**
   * The ratio sliders allow [1, 6] but the generator clamps ratios to
   * [3, 10]: every height lies in [6, 12], and a range at or below 3 always
   * gives height 6.
   */
  lemma SliderHeights(ratioMin: real, ratioMax: real, u: real)
    requires 1.0 <= ratioMin <= ratioMax <= 6.0 && 0.0 <= u < 1.0
    ensures 6.0 <= RandomHeightForRatio(ratioMin, ratioMax, u) <= 12.0
    ensures ratioMax <= 3.0 ==> RandomHeightForRatio(ratioMin, ratioMax, u) == 6.0
  {
    var range := RatioRange(ratioMin, ratioMax);
    assert range.1 <= 6.0;
    if ratioMax <= 3.0 {
      assert range.0 == 3.0 && range.1 == 3.0;
    }
  }

  /** The number of evaluation samples per class: Math.max(60, floor(samplesPerClass * 0.6)). */
  function EvalSamplesPerClass(samplesPerClass: nat): (n: nat)
    ensures n >= 60
    ensures n as real <= Max(60.0, samplesPerClass as real * 0.6) < n as real + 1.0
  {
    var scaled := (samplesPerClass as real * 0.6).Floor;
    if scaled > 60 then scaled else 60
  }

  /** The validation size splitTrainVal uses: min(n, max(1, floor(n * ratio))). */
  function ValSize(n: nat, valRatio: real): (m: nat)
    ensures m <= n
    ensures n > 0 ==> m >= 1
  {
    if NumVal(n, valRatio) < n then NumVal(n, valRatio) else n
  }

  /**
   * The tensors handleTrain fits on: splitTrainVal with a validation ratio
   * of 0.2, the labels of each part one-hot encoded over n classes.
   */
  method BuildTensors(data: seq<Cloud>, labels: seq<nat>, n: nat, rand: nat -> real, k: nat) returns (t: TrainTensors, k': nat)
    requires IsUniform(rand) && |labels| == |data|
    requires forall i :: 0 <= i < |labels| ==> labels[i] < n
    ensures var m := ValSize(|data|, 0.2);
      && t.inputs == data[m..] && t.valInputs == data[..m]
      && t.labels == OneHot(labels[m..], n) && t.valLabels == OneHot(labels[..m], n)
  {
    var trainData, trainLabels, valData, valLabels;
    trainData, trainLabels, valData, valLabels, k' := SplitTrainVal(data, labels, 0.2, rand, k);
    var inputs := LabelsToOneHot(trainLabels, n);
    var valInputs := LabelsToOneHot(valLabels, n);
    t := TrainTensors(trainData, inputs[..], valData, valInputs[..]);
  }

  /** The page's state and its event handlers. */
  class Controller {
    const registry: DatasetModule
    var noise: real
    var jitter: real
    var pointsPerCloud: nat
    var samplesPerClass: nat
    var ratioMin: real
    var ratioMax: real
    var cropShareMin: real
    var cropShareMax: real
    var fill: bool
    var data: seq<Cloud>
    var labels: seq<nat>
    var datasetIndex: nat
    var evalCache: Option<EvalCache>
    var evalIndex: nat
    var trainTensors: Option<TrainTensors>
    var model: Option<Model>

    /**
     * The ratio and share bounds are clamped and ordered; labels, cached
     * evaluations and the model's output width all refer to the current
     * active classes; the evaluation position is inside the cached set.
     */
    ghost predicate Valid()
      reads this, registry
    {
      && registry.Valid()
      && 1.0 <= ratioMin <= ratioMax <= 6.0
      && 0.0 <= cropShareMin <= cropShareMax <= 0.9
      && |labels| == |data|
      && (forall i :: 0 <= i < |labels| ==> labels[i] < |registry.activeClasses|)
      && (evalCache.Some? ==> EvalCacheValid(evalCache.value, evalIndex, |registry.activeClasses|))
      && (model.Some? ==> model.value.numOutputs == |registry.activeClasses|)
    }

    static ghost predicate EvalCacheValid(c: EvalCache, index: nat, numClasses: nat)
    {
      && |c.labels| == |c.preds| == |c.data| && index < |c.data|
      && (forall i :: 0 <= i < |c.labels| ==> c.labels[i] < numClasses)
      && (forall i :: 0 <= i < |c.preds| ==> c.preds[i] < numClasses)
    }

    /**
     * Page start-up: both ratio values clamped to [1, 6] and both share
     * values to [0, 0.9], each pair swapped when out of order; no dataset,
     * evaluation or model yet.
     */
    constructor (registry: DatasetModule, noise: real, jitter: real, pointsPerCloud: nat, samplesPerClass: nat,
                 ratioMinInput: real, ratioMaxInput: real, cropMinInput: real, cropMaxInput: real, fill: bool)
      requires registry.Valid()
      ensures Valid() && this.registry == registry
      ensures ratioMin == Min(Clamp(ratioMinInput, 1.0, 6.0), Clamp(ratioMaxInput, 1.0, 6.0))
      ensures ratioMax == Max(Clamp(ratioMinInput, 1.0, 6.0), Clamp(ratioMaxInput, 1.0, 6.0))
      ensures cropShareMin == Min(Clamp(cropMinInput, 0.0, 0.9), Clamp(cropMaxInput, 0.0, 0.9))
      ensures cropShareMax == Max(Clamp(cropMinInput, 0.0, 0.9), Clamp(cropMaxInput, 0.0, 0.9))
      ensures this.noise == noise && this.jitter == jitter && this.fill == fill
      ensures this.pointsPerCloud == pointsPerCloud && this.samplesPerClass == samplesPerClass
      ensures data == [] && labels == [] && datasetIndex == 0 && evalIndex == 0
      ensures evalCache.None? && trainTensors.None? && model.None?
    {
      this.registry := registry;
      this.noise := noise;
      this.jitter := jitter;
      this.pointsPerCloud := pointsPerCloud;
      this.samplesPerClass := samplesPerClass;
      var rMin := Clamp(ratioMinInput, 1.0, 6.0);
      var rMax := Clamp(ratioMaxInput, 1.0, 6.0);
      if rMin > rMax {
        rMin, rMax := rMax, rMin;
      }
      ratioMin, ratioMax := rMin, rMax;
      var sMin := Clamp(cropMinInput, 0.0, 0.9);
      var sMax := Clamp(cropMaxInput, 0.0, 0.9);
      if sMin > sMax {
        sMin, sMax := sMax, sMin;
      }
      cropShareMin, cropShareMax := sMin, sMax;
      this.fill := fill;
      data, labels, datasetIndex := [], [], 0;
      evalCache, evalIndex := None, 0;
      trainTensors, model := None, None;
    }

    /** The noise slider stores its value. */
    method OnNoiseInput(v: real)
      modifies `noise
      ensures noise == v
    {
      noise := v;
    }

    /** The jitter slider stores its value. */
    method OnJitterInput(v: real)
      modifies `jitter
      ensures jitter == v
    {
      jitter := v;
    }

    /** The points slider stores its value; the model is not rebuilt until the next training. */
    method OnPointsInput(v: nat)
      modifies `pointsPerCloud
      ensures pointsPerCloud == v
    {
      pointsPerCloud := v;
    }

    /** The samples slider stores its value. */
    method OnSamplesInput(v: nat)
      modifies `samplesPerClass
      ensures samplesPerClass == v
    {
      samplesPerClass := v;
    }

    /** The minimum ratio slider: clamped to [1, 6], pushing the maximum up when it passes it. */
    method OnRatioMinInput(v: real)
      requires Valid()
      modifies `ratioMin, `ratioMax
      ensures Valid()
      ensures ratioMin == Clamp(v, 1.0, 6.0)
      ensures ratioMax == Max(old(ratioMax), Clamp(v, 1.0, 6.0))
    {
      ratioMin := Clamp(v, 1.0, 6.0);
      if ratioMin > ratioMax {
        ratioMax := ratioMin;
      }
    }

    /** The maximum ratio slider: clamped to [1, 6], pulling the minimum down when it passes it. */
    method OnRatioMaxInput(v: real)
      requires Valid()
      modifies `ratioMin, `ratioMax
      ensures Valid()
      ensures ratioMax == Clamp(v, 1.0, 6.0)
      ensures ratioMin == Min(old(ratioMin), Clamp(v, 1.0, 6.0))
    {
      ratioMax := Clamp(v, 1.0, 6.0);
      if ratioMax < ratioMin {
        ratioMin := ratioMax;
      }
    }

    /** The minimum crop-share slider: clamped to [0, 0.9], pushing the maximum up when it passes it. */
    method OnCropMinInput(v: real)
      requires Valid()
      modifies `cropShareMin, `cropShareMax
      ensures Valid()
      ensures cropShareMin == Clamp(v, 0.0, 0.9)
      ensures cropShareMax == Max(old(cropShareMax), Clamp(v, 0.0, 0.9))
    {
      cropShareMin := Clamp(v, 0.0, 0.9);
      if cropShareMin > cropShareMax {
        cropShareMax := cropShareMin;
      }
    }

    /** The maximum crop-share slider: clamped to [0, 0.9], pulling the minimum down when it passes it. */
    method OnCropMaxInput(v: real)
      requires Valid()
      modifies `cropShareMin, `cropShareMax
      ensures Valid()
      ensures cropShareMax == Clamp(v, 0.0, 0.9)
      ensures cropShareMin == Min(old(cropShareMin), Clamp(v, 0.0, 0.9))
    {
      cropShareMax := Clamp(v, 0.0, 0.9);
      if cropShareMax < cropShareMin {
        cropShareMin := cropShareMax;
      }
    }

    /**
     * Prev/Next: in evaluation view with a cached evaluation the evaluation
     * position moves cyclically, otherwise the dataset position does when
     * there is a dataset; with neither, nothing moves.
     */
    method Step(direction: int, evalMode: bool)
      requires Valid() && (direction == 1 || direction == -1)
      modifies `evalIndex, `datasetIndex
      ensures Valid()
      ensures evalMode && evalCache.Some? ==>
        evalIndex == StepIndex(old(evalIndex), direction, |evalCache.value.data|) && datasetIndex == old(datasetIndex)
      ensures !(evalMode && evalCache.Some?) && data != [] ==>
        datasetIndex == StepIndex(old(datasetIndex), direction, |data|) && evalIndex == old(evalIndex)
      ensures !(evalMode && evalCache.Some?) && data == [] ==>
        datasetIndex == old(datasetIndex) && evalIndex == old(evalIndex)
    {
      if evalMode && evalCache.Some? {
        evalIndex := StepIndex(evalIndex, direction, |evalCache.value.data|);
      } else if |data| > 0 {
        datasetIndex := StepIndex(datasetIndex, direction, |data|);
      }
    }

    /**
     * renderCurrent: in evaluation view the cached sample with its true and
     * predicted class names; otherwise the dataset sample at the dataset
     * position; when that position is past the end the viewer receives no
     * cloud and throws; with no dataset nothing is shown.
     */
    function CurrentView(evalMode: bool): (v: View)
      reads this, registry
      requires Valid()
      ensures evalMode && evalCache.Some? ==>
        && v.EvalView?
        && v.cloud == evalCache.value.data[evalIndex]
        && v.trueName == registry.activeClasses[evalCache.value.labels[evalIndex]]
        && v.predName == registry.activeClasses[evalCache.value.preds[evalIndex]]
        && (v.correct <==> evalCache.value.labels[evalIndex] == evalCache.value.preds[evalIndex])
      ensures !(evalMode && evalCache.Some?) && data != [] ==>
        && (datasetIndex < |data| ==>
              v.DatasetView? && v.sample == data[datasetIndex]
              && v.name == registry.activeClasses[labels[datasetIndex]])
        && (datasetIndex >= |data| ==> v.ViewerTypeError?)
      ensures !(evalMode && evalCache.Some?) && data == [] ==> v.Blank?
    {
      if evalMode && evalCache.Some? then
        var c := evalCache.value;
        var classes := registry.activeClasses;
        EvalView(c.data[evalIndex], classes[c.labels[evalIndex]], classes[c.preds[evalIndex]],
                 c.labels[evalIndex] == c.preds[evalIndex])
      else if |data| > 0 then
        if datasetIndex < |data| then
          DatasetView(data[datasetIndex], Csv.LabelName(labels, registry.activeClasses, datasetIndex))
        else ViewerTypeError
      else Blank
    }

    /**
     * handleGenerate: a new dataset from the current settings, viewed from
     * its first sample.
     */
    method HandleGenerate(rand: nat -> real, k: nat, gauss: nat -> real, g: nat, circle: real -> (real, real))
      returns (k': nat, g': nat)
      requires Valid() && IsUniform(rand)
      modifies `data, `labels, `datasetIndex
      ensures Valid() && datasetIndex == 0
      ensures |data| == |labels| == samplesPerClass * |registry.activeClasses|
      ensures forall n :: 0 <= n < |labels| ==> labels[n] == n % |registry.activeClasses|
      ensures forall n :: 0 <= n < |data| ==> |data[n]| == pointsPerCloud
    {
      ghost var raws: seq<seq<Point>>, heights: seq<real>;
      data, labels, k', g', raws, heights := registry.CreateToyDataset(samplesPerClass, pointsPerCloud, noise, jitter, ratioMin, ratioMax,
                                                      fill, cropShareMin, cropShareMax, rand, k, gauss, g, circle);
      datasetIndex := 0;
    }

    /**
     * handleExport: nothing without a dataset; otherwise the downloaded
     * file text of the dataset rows named by the active classes.
     */
    method HandleExport(fmtNat: nat -> string, fmtReal: real -> string) returns (content: Option<string>)
      requires Valid()
      ensures content.None? <==> data == []
      ensures content.Some? ==>
        content.value == Csv.DownloadContent([Csv.Header] + Csv.DataRows(data, labels, registry.activeClasses, fmtNat, fmtReal))
    {
      if |data| == 0 {
        return None;
      }
      var rows := Csv.DatasetToCSVRows(data, labels, registry.activeClasses, fmtNat, fmtReal);
      content := Some(Csv.DownloadContent(rows));
    }

    /**
     * handleUpload: the parsed file cloud resized to the points setting
     * and shown; the dataset is not touched.
     */
    method HandleUpload(text: string, num: string -> Option<real>, rand: nat -> real, k: nat)
      returns (shown: Cloud, k': nat)
      requires IsUniform(rand)
      ensures |shown| == pointsPerCloud
      ensures Csv.PointsOf(Csv.SplitLines(text), num) == [] ==>
        forall i :: 0 <= i < |shown| ==> shown[i] == Point(0.0, 0.0, 0.0)
      ensures forall i :: 0 <= i < |shown| ==> shown[i] in Csv.PointsOf(Csv.SplitLines(text), num) || shown[i] == Point(0.0, 0.0, 0.0)
    {
      var cloud := Csv.ParseCSVTextToPointCloud(text, num);
      shown, k' := EnsureSamePointCount(cloud, pointsPerCloud, rand, k);
      if cloud != [] {
        NormalisedPointsFromInput(cloud, shown, pointsPerCloud, rand, k);
      }
    }

    /**
     * handleTrain up to the fit call: generates a dataset when there is
     * none, splits it with ratio 0.2, one-hot encodes both label parts over
     * the active classes, and builds a model unless the current one already
     * has the right input and output widths. The dataset position is left
     * as it was.
     */
    method HandleTrain(rand: nat -> real, k: nat, gauss: nat -> real, g: nat, circle: real -> (real, real))
      returns (k': nat, g': nat)
      requires Valid() && IsUniform(rand)
      modifies `data, `labels, `trainTensors, `model
      ensures Valid()
      ensures old(data) != [] ==> data == old(data) && labels == old(labels)
      ensures old(data) == [] ==> |data| == |labels| == samplesPerClass * |registry.activeClasses|
      ensures model == Some(Model(pointsPerCloud, |registry.activeClasses|))
      ensures var m := ValSize(|data|, 0.2);
        && trainTensors.Some?
        && trainTensors.value.inputs == data[m..] && trainTensors.value.valInputs == data[..m]
        && trainTensors.value.labels == OneHot(labels[m..], |registry.activeClasses|)
        && trainTensors.value.valLabels == OneHot(labels[..m], |registry.activeClasses|)
    {
      k', g' := k, g;
      if |data| == 0 {
        ghost var raws: seq<seq<Point>>, heights: seq<real>;
        data, labels, k', g', raws, heights := registry.CreateToyDataset(samplesPerClass, pointsPerCloud, noise, jitter, ratioMin, ratioMax,
                                                        fill, cropShareMin, cropShareMax, rand, k, gauss, g, circle);
      }
      var n := |registry.activeClasses|;
      var tensors;
      tensors, k' := BuildTensors(data, labels, n, rand, k');
      trainTensors := Some(tensors);
      if model.None? || model.value.numPoints != pointsPerCloud || model.value.numOutputs != n {
        model := Some(Model(pointsPerCloud, n));
      }
    }

    /**
     * handleEvaluate: without a model nothing happens. Otherwise a fresh
     * set of max(60, floor(0.6 * samplesPerClass)) samples per class is
     * generated, each sample's prediction is the first arg-max of its class
     * scores, the confusion matrix is built over the active classes, and
     * the result is cached and viewed from its first sample. A model built
     * for another points setting rejects the fresh set's input width, so
     * after the set is drawn nothing is cached.
     */
    method HandleEvaluate(scores: Cloud -> seq<real>,
                          rand: nat -> real, k: nat, gauss: nat -> real, g: nat, circle: real -> (real, real))
      returns (k': nat, g': nat)
      requires Valid() && IsUniform(rand)
      requires model.Some? ==> forall c :: |scores(c)| == model.value.numOutputs
      modifies `evalCache, `evalIndex
      ensures Valid()
      ensures old(model).None? ==> evalCache == old(evalCache) && evalIndex == old(evalIndex) && k' == k && g' == g
      ensures old(model).Some? && old(model).value.numPoints != pointsPerCloud ==>
        evalCache == old(evalCache) && evalIndex == old(evalIndex)
      ensures model.Some? && model.value.numPoints == pointsPerCloud ==>
        && evalCache.Some? && evalIndex == 0
        && |evalCache.value.data| == EvalSamplesPerClass(samplesPerClass) * |registry.activeClasses|
        && (forall i :: 0 <= i < |evalCache.value.preds| ==> evalCache.value.preds[i] == ArgMax(scores(evalCache.value.data[i])))
        && evalCache.value.conf == Metrics.Confusion(evalCache.value.preds, evalCache.value.labels, |registry.activeClasses|)
    {
      if model.None? {
        return k, g;
      }
      var n := |registry.activeClasses|;
      var evalData, evalLabels;
      ghost var raws: seq<seq<Point>>, heights: seq<real>;
      evalData, evalLabels, k', g', raws, heights := registry.CreateToyDataset(EvalSamplesPerClass(samplesPerClass), pointsPerCloud, noise, jitter,
                                                              ratioMin, ratioMax, fill, cropShareMin, cropShareMax,
                                                              rand, k, gauss, g, circle);
      if model.value.numPoints != pointsPerCloud {
        return;
      }
      var preds := seq(|evalData|, i requires 0 <= i < |evalData| => ArgMax(scores(evalData[i])));
      var conf := Metrics.ConfusionMatrix(preds, evalLabels, n);
      if conf.Err? {
        assert false;
      }
      evalCache := Some(EvalCache(evalData, evalLabels, preds, conf.value));
      evalIndex := 0;
    }

    /**
     * The class checkboxes: the selection goes to setActiveClasses; a model
     * whose output width no longer matches is dropped; the dataset and the
     * cached evaluation are cleared and the dataset position reset.
     */
    method OnClassToggle(selected: seq<string>)
      requires Valid()
      modifies registry, `model, `data, `labels, `evalCache, `datasetIndex
      ensures Valid()
      ensures Selection(Some(selected)) == [] ==> registry.activeClasses == old(registry.activeClasses)
      ensures Selection(Some(selected)) != [] ==> registry.activeClasses == Selection(Some(selected))
      ensures model == if old(model).Some? && old(model).value.numOutputs != |registry.activeClasses| then None else old(model)
      ensures data == [] && labels == [] && evalCache.None? && datasetIndex == 0
    {
      var updated := registry.SetActiveClasses(Some(selected));
      if model.Some? && model.value.numOutputs != |updated| {
        model := None;
      }
      data, labels := [], [];
      evalCache := None;
      datasetIndex := 0;
    }

    /**
     * The fill toggle: stores the flag and clears the dataset; the dataset
     * position is kept, so a later dataset shorter than it is viewed past
     * its end until the next Prev/Next or generation.
     */
    method OnFillToggle(checked: bool)
      requires Valid()
      modifies `fill, `data, `labels
      ensures Valid()
      ensures fill == checked && data == [] && labels == []
    {
      fill := checked;
      data, labels := [], [];
    }
  }

  /**
   * After clearing by the fill toggle, training regenerates the dataset
   * without resetting the position; when the new dataset is shorter, the
   * position is past its end and rendering it throws.
   */
  lemma StaleDatasetPosition(c: Controller)
    requires c.Valid() && c.data != [] && c.datasetIndex >= |c.data|
    ensures c.CurrentView(false) == ViewerTypeError
  {
  }
}
